=== FILE: README.md ===
# CSAT dashboard core, modelled in Dafny

This project models the data logic of a React dashboard for customer
satisfaction (CSAT) work. It covers:

- **Driver stacks.** Survey rows are classified as detractor, neutral or
  promoter. Each driver gets a count and percentages that are rounded to
  sum to 100 (`Sentiment.ts`).
- **Sentiment aggregation.** A JSON list of driver/sentiment/amount rows is
  aggregated per driver (`SentimentModel_v1.ts`).
- **Diagnostic table.** Priority is derived from client and criticality.
  The view also has row editing, text filtering, the sort toggle and
  select-all bookkeeping (`Datos.tsx`).
- **Master-list editor.** Names are added, and a project list is imported
  with validation and case-insensitive de-duplication (`BulkEditor.tsx`).
- **Project flow diagram.** A Sankey graph built from the table
  (`Proyectos.tsx`).
- **Hash router** (`App.tsx`).
- **KPI cards.** The input filter, the commit of a draft, the editing
  flags, hydration and the trend (`KPIBoard.tsx`).
- **Team radar scale** (`DesignCollabRadar.tsx`).
- **CSAT comment row normalisation** (`CSATCommentsPanel.tsx`).
- **Project-list import** of the manage view (`Manage.tsx`).

Each source file has one module. Shared vocabulary lives in small modules:

- `Wrappers`: Option.
- `Text`: JavaScript `trim`, case mapping, substring search and decimal
  printing.
- `JsNumber`: `Number(text)` and `parseInt(text, 10)`, with numbers as exact
  rationals plus ±Infinity and NaN.
- `Json`: parsed JSON values.
- `Counting`: insertion-ordered sets and count tables, as a JavaScript
  `Set`/`Map` iterates them.
- `StableSort`: `Array.prototype.sort` with a numeric comparator.
- `Tallies`: per-driver accumulation.

React state updates are modelled as pure functions from the old state to
the new one. Storage, the DOM and the network are parameters or are left
out.

Three behaviours of the code that are easy to miss, and that the model
follows:

- `aggregateFromJSON` counts rows with an unrecognised sentiment in the
  driver's total.
- An empty input is not an error.
- In `aggregateFromJSON`, detractor and neutral are rounded half-up and
  the promoter share is `max(0, 100 − d − n)`. So a row can show 38 + 63 + 0
  (`SentimentJson.RoundingOvershoot`).

## Model

| member | source | states |
|---|---|---|
| SentimentBasics.ScoreToSentiment | src/features/viz/Sentiment.ts:25-29 | a score is detractor iff ≤ 3, neutral iff exactly 4, promoter otherwise |
| SentimentBasics.InlineClassificationAgrees | src/features/viz/Sentiment.ts:74 | the inline classification in the row loop agrees with `scoreToSentiment` for every score, and 3.5 and 4.5 are promoters |
| SentimentBasics.RoundRowTo100 | src/features/viz/Sentiment.ts:31-43 | each value is its floor or floor + 1; the sum is the floor sum plus the shortfall (at most 3); three values summing to 100 round to a sum of exactly 100; units go to larger fractional parts first |
| SentimentBasics.RanksDistinct | src/features/viz/Sentiment.ts:35-39 | the positions of the three indices in the sorted `diffs` array are a permutation of 0, 1, 2 |
| SentimentBasics.RanksOrdered | src/features/viz/Sentiment.ts:35-39 | a lower position means a larger fractional part, or an equal one from an earlier argument (stable sort) |
| SentimentBasics.FloorSumNearHundred | src/features/viz/Sentiment.ts:32-33 | three values summing to 100 have floors summing to 98, 99 or 100 |
| SentimentBasics.StripQuotes | src/features/viz/Sentiment.ts:46 | a text with a double quote at each end and no line terminator in between loses exactly those two quotes; any other text is unchanged |
| SentimentBasics.StripQuotesExamples | src/features/viz/Sentiment.ts:46 | `"a"` becomes `a`; `""a""` becomes `"a"`, since only the outer pair goes; a line break between the quotes keeps them |
| SentimentBasics.CleanDriverName | src/features/viz/Sentiment.ts:45-52 | the name is rejected iff it is empty after trim and de-quoting, contains noise, or has no letter; a kept name is a non-empty prefix of at most 48 characters, the whole text when that is shorter |
| DriverStacks.RowScore | src/features/viz/Sentiment.ts:70-73 | an empty or missing score cell skips the row, and a scored row has a non-empty cell; a cell of blanks is not empty and scores 0; non-finite readings are stated by `RowScoreWithoutDigits` and `RowScoreOfInfinity` |
| DriverStacks.RowScoreWithoutDigits | src/features/viz/Sentiment.ts:72-73 | a non-blank score cell with no digit in it is not a finite number, so the row is skipped |
| DriverStacks.RowScoreOfInfinity | src/features/viz/Sentiment.ts:72-73 | a score cell "Infinity" or "-Infinity" is not finite, so the row is skipped |
| DriverStacks.RowScoreOfDigits | src/features/viz/Sentiment.ts:70-73 | a score cell of plain digits scores their decimal value |
| DriverStacks.RowScoreOfDecimalComma | src/features/viz/Sentiment.ts:72 | a score cell `a,b` of two digit runs scores the number a.b, the comma read as a decimal point |
| DriverStacks.CellObservation | src/features/viz/Sentiment.ts:77-83 | a driver cell contributes exactly one unit, in its row's class, iff the sanitiser accepts it |
| DriverStacks.RowObservations | src/features/viz/Sentiment.ts:69-85 | a skipped row contributes nothing; a scored row counts each driver once per column 2, 3 or 4 whose cell cleans to that name, every unit in the row's class |
| DriverStacks.ToEntry | src/features/viz/Sentiment.ts:87-93 | an entry keeps the driver's name and counts; each percentage is ⌊100·count / max(1, total)⌋ or one more; they sum to 100 whenever the counts add up to a positive total |
| DriverStacks.PercentFloor | src/features/viz/Sentiment.ts:88-92 | the floor of a percentage is an integer division and its fractional part is the remainder over the total |
| DriverStacks.PercentsSumToHundred | src/features/viz/Sentiment.ts:88-91 | three shares of one total have percentages summing to exactly 100 |
| DriverStacks.DriverEntries | src/features/viz/Sentiment.ts:59-96 | with at most one row the result is empty; every entry holds its driver's exact counts |
| DriverStacks.UnsortedEntriesCorrect | src/features/viz/Sentiment.ts:67-94 | before sorting there is one entry per distinct accepted driver, in order of first appearance, each with its exact counts |
| DriverStacks.DriverEntriesCorrect | src/features/viz/Sentiment.ts:87-96 | after the sort, entries are distinct and cover exactly the accepted drivers; they are ordered by descending detractor percentage, and entries with equal percentages keep their relative order |
| DriverStacks.Label | src/features/viz/Sentiment.ts:99 | a label starts with the driver name and ends with ')' |
| DriverStacks.LabelCarriesTotal | src/features/viz/Sentiment.ts:99 | the label's `(n=…)` part reads back, with `Number`, as the driver's total |
| DriverStacks.ComputeDriverStacks | src/features/viz/Sentiment.ts:59-108 | eight parallel arrays, empty when there are no data rows; position i shows the i-th driver's label `name (n=total)`, its exact counts and its percentages; the drivers shown are exactly the accepted names; at each position the counts add up to a positive total and the percentages to 100; detractor percentages are non-increasing |
| DriverStacks.ComputeDriverStacksAsWritten | src/features/viz/Sentiment.ts:59-108 | as written, parallel arrays, empty without data rows; position i shows the i-th reported driver's label, exact counts and percentages; the drivers shown are exactly the accepted names that are not `Object.prototype` members; counts add up, percentages sum to 100, detractor percentages are non-increasing |
| DriverStacks.StacksOf | src/features/viz/Sentiment.ts:98-107 | one position per entry, in entry order, each showing that entry's label, counts, total and percentages |
| DriverStacks.AsWrittenEntriesCorrect | src/features/viz/Sentiment.ts:67-96 | as written, every reported driver has its exact counts and the order of the corrected version; the drivers reported are exactly the accepted names that are not `Object.prototype` members |
| DriverStacks.SameCountsWithout | src/features/viz/Sentiment.ts:79 | dropping the prototype-named observations leaves every other driver's sums unchanged |
| DriverStacks.HeaderIgnored | src/features/viz/Sentiment.ts:63 | the first row never affects the result |
| DriverStacks.SameDriverTwiceInRow | src/features/viz/Sentiment.ts:76-84 | a driver named in two columns of one row is counted at least twice |
| DriverStacks.AccumulateAsWritten | src/features/viz/Sentiment.ts:67-85 | the plain-object accumulator as written; it has at most one entry per observation |
| DriverStacks.AsWrittenDropsPrototypeNames | src/features/viz/Sentiment.ts:79 | the as-written accumulator equals the corrected one run on the stream with `Object.prototype` member names removed |
| DriverStacks.PrototypeNameCounterexample | src/features/viz/Sentiment.ts:79 | a single "constructor" observation gives no entry as written, but one entry when corrected |
| DriverStacks.PrototypeNameRowAccepted | src/features/viz/Sentiment.ts:70-78 | the row ["5", "5", "constructor"] passes the score and name filters |
| DriverStacks.WithoutPrototypeNames | src/features/viz/Sentiment.ts:79 | the stream loses exactly the observations named after prototype members |
| Tallies.Record | src/features/viz/SentimentModel_v1.ts:35-40 | a new driver is appended with this item's amounts; a known driver keeps its place; other drivers are untouched |
| Tallies.Bump | src/features/viz/SentimentModel_v1.ts:37-40 | the amount goes to the total and to the recognised bucket only |
| Tallies.AccumulateNames | src/features/viz/SentimentModel_v1.ts:26-49 | the drivers come out in order of first appearance, each once |
| Tallies.Accumulate | src/features/viz/SentimentModel_v1.ts:28-41 | the accumulation loop makes at most one tally per item; its names are stated by `AccumulateNames` and its sums by `AccumulateCounts` |
| Tallies.AccumulateCounts | src/features/viz/SentimentModel_v1.ts:28-41 | every entry holds exactly the sums of the amounts for its driver, per bucket and in total |
| Tallies.BucketsMakeTotal | src/features/viz/SentimentModel_v1.ts:37-40 | the three buckets plus the unrecognised amounts make up the total |
| Tallies.TotalPositive | src/features/viz/SentimentModel_v1.ts:40 | a driver seen with positive amounts has a positive total |
| SentimentJson.SentimentBucket | src/features/viz/SentimentModel_v1.ts:31-39 | the bucket is detractor, neutral or promoter iff the lower-cased text is exactly that word |
| SentimentJson.RowItem | src/features/viz/SentimentModel_v1.ts:29-33 | a row is skipped iff it is null, its trimmed driver is empty, or its amount is not finite; a kept row carries the trimmed driver, the bucket of its sentiment and its amount, a missing amount counting 0 |
| SentimentJson.Items | src/features/viz/SentimentModel_v1.ts:28-33 | the kept items are exactly the results of the elements that are not skipped, each with a non-empty driver name |
| SentimentJson.Keep | src/features/viz/SentimentModel_v1.ts:28-33 | a filter-map keeps exactly the values of the elements it does not skip |
| SentimentJson.KeepAppend | src/features/viz/SentimentModel_v1.ts:28 | the filter-map distributes over concatenation, so input order is kept |
| SentimentJson.ItemsAppend | src/features/viz/SentimentModel_v1.ts:28-33 | the items of two arrays in a row are those of the first followed by those of the second |
| SentimentJson.RoundHalfUpNearest | src/features/viz/SentimentModel_v1.ts:73-74 | `Math.round(c/t*100)` is the nearest integer, halves rounding up |
| SentimentJson.Percentages | src/features/viz/SentimentModel_v1.ts:66-77 | detractor and neutral are the nearest integers to 100·count / max(1, total), halves going up; the promoter share is non-negative and completes the row to 100 unless detractor + neutral exceed 100, in which case it is 0; a zero total gives 0/0/100 |
| SentimentJson.OvershootAtMostOne | src/features/viz/SentimentModel_v1.ts:73-74 | two rounded shares that fit in the total overshoot 100 by at most one |
| SentimentJson.RoundingOvershoot | src/features/viz/SentimentModel_v1.ts:73-77 | 3 detractors and 5 neutrals out of 8 give 38, 63 and 0 |
| SentimentJson.AggregatedOf | src/features/viz/SentimentModel_v1.ts:55-78 | position i of the output arrays holds tally i's label `driver (n=total)`, driver, total, the three sums and the percentages of those sums |
| SentimentJson.AggregateFromJson | src/features/viz/SentimentModel_v1.ts:25-85 | parallel arrays with distinct drivers covering exactly the kept drivers; each position holds that driver's exact sums, its label and the percentages of those sums; totals non-increasing when sorting is asked for |
| SentimentJson.EntriesCorrect | src/features/viz/SentimentModel_v1.ts:26-53 | one entry per distinct kept driver with its exact sums; first-appearance order unsorted; a stable descending sort by total otherwise |
| SentimentJson.AllRecognisedAddUp | src/features/viz/SentimentModel_v1.ts:37-40 | with every sentiment recognised, the buckets add up to the total |
| SentimentJson.UnknownSentimentCountsInTotal | src/features/viz/SentimentModel_v1.ts:37-40 | an "otro" sentiment adds to the total and to no bucket |
| StableSort.Sort | src/features/viz/Sentiment.ts:96 | the sort result is a permutation, sorted descending by key, and stable: the elements with each key keep their order |
| StableSort.PermutationKeepsDistinct | src/features/viz/SentimentModel_v1.ts:52 | sorting keeps distinct names distinct |
| Counting.FirstAppearance | src/views/Proyectos.tsx:24-54 | a `Set` built by repeated `add` iterates its distinct elements, each once, and exactly the elements added |
| Counting.Bump | src/views/Proyectos.tsx:50 | `map.set(k, (map.get(k) ?? 0) + 1)`: an existing key keeps its place and gains one; a new key goes last with count 1; the grand total grows by one |
| Counting.CountAll | src/views/Proyectos.tsx:48-51 | the counts of a key stream sum to its length |
| Counting.CountAllCorrect | src/views/Proyectos.tsx:48-55 | the table's keys are the distinct keys in order of first appearance, and each count is the key's number of occurrences |
| Counting.CountAllMapped | src/views/Proyectos.tsx:49 | counting keys renamed by an injective function is counting them and renaming the table |
| Datos.RentaBucketOf | src/views/Datos.tsx:40-61 | ALTA iff the trimmed, upper-cased client is one of four listed types; MEDIA iff it is one of three; BAJA otherwise |
| Datos.RentaBucketIgnoresPaddingAndCase | src/views/Datos.tsx:41 | surrounding whitespace and letter case never change the bucket |
| Datos.CriticidadOf | src/views/Datos.tsx:65 | the criticality is Alta, Media or Baja iff the trimmed, lower-cased text is that word |
| Datos.Prioridad | src/views/Datos.tsx:63-86 | an unrecognised criticality gives Media; in the MEDIA bucket the priority is the criticality; Alta criticality never gives Baja, and Baja never gives Alta |
| Datos.MatrixMonotoneInBucket | src/views/Datos.tsx:67-83 | a higher income bucket never lowers the priority |
| Datos.MatrixMonotoneInCriticidad | src/views/Datos.tsx:67-83 | a higher criticality never lowers the priority |
| Datos.Set | src/views/Datos.tsx:255 | a row spread with one field set changes that field and nothing else |
| Datos.RowExtensionality | src/features/datos/diagnosticoStore.ts:5-16 | a row is determined by its id and its fields |
| Datos.ChangeField | src/views/Datos.tsx:253-313 | rows with another id are untouched; rows with the id get the value in that one field only |
| Datos.ChangeCliente | src/views/Datos.tsx:239-251 | the client is set and the priority is recomputed from the new client and the row's criticality; other rows are untouched |
| Datos.ChangeCriticidad | src/views/Datos.tsx:289-301 | the criticality is set and the priority is recomputed from the row's client and the new criticality; other rows are untouched |
| Datos.ChangesRestoreConsistency | src/views/Datos.tsx:239-301 | after either recomputing handler, the edited rows' priority agrees with the matrix |
| Datos.KeepMatching | src/views/Datos.tsx:160-179 | the rows kept are exactly those whose joined, lower-cased fields contain the needle |
| Datos.KeepMatchingAppend | src/views/Datos.tsx:160 | filtering keeps the rows' order |
| Datos.FilterRows | src/views/Datos.tsx:157-180 | a blank query keeps every row; otherwise a row is kept iff its haystack contains the trimmed, lower-cased query |
| Datos.ToggleSort | src/views/Datos.tsx:225-232 | the clicked column becomes current; a new column starts ascending and the current one flips |
| Datos.ToggleSortTwice | src/views/Datos.tsx:225-232 | toggling the current column twice restores the state; toggling a new column twice leaves it descending |
| Datos.SortKeyAsWritten | src/views/Datos.tsx:185-186 | reading the comparator's key throws exactly when the row lacks the sorted column's field; otherwise the key is the lower-cased field, of the same length |
| Datos.DeclaredColumnsNeverThrow | src/views/Datos.tsx:185-186 | sorting by driver, project or status never throws, since every row has those fields |
| Datos.MissingProductoSortThrows | src/views/Datos.tsx:185-186 | a row without `producto`, like the stored samples, throws when the table is sorted by product |
| Datos.SortKey | src/views/Datos.tsx:185-186 | the corrected key agrees with the written one wherever that one exists, and a missing field sorts as the empty text |
| Datos.ToggleRow | src/views/Datos.tsx:197-199 | the row's flag becomes the new value; every other entry is unchanged |
| Datos.ToggleAll | src/views/Datos.tsx:201-216 | checking marks every visible id; unchecking deletes exactly the visible ids; ids not visible are untouched |
| Datos.SelectionStatesExclusive | src/views/Datos.tsx:194-195 | all-selected and partially-selected never hold together, and an empty view is neither |
| Datos.ToggleAllThenHeader | src/views/Datos.tsx:194-216 | checking the header selects a non-empty view; unchecking leaves it neither all nor partially selected |
| Datos.HeaderIgnoresOrder | src/views/Datos.tsx:182-195 | the header state depends only on which ids are visible, so the display sort never changes it |
| BulkEditor.AddNamed | src/features/table/BulkEditor.tsx:59-72 | a blank input adds nothing; otherwise the trimmed text is appended and the input is cleared |
| BulkEditor.AddNamedStoresTrimmed | src/features/table/BulkEditor.tsx:60-64 | the stored name is non-empty and already trimmed |
| BulkEditor.FirstByKeyExact | src/features/table/BulkEditor.tsx:151-157 | a position is kept iff its item qualifies and no earlier qualifying item has its key |
| BulkEditor.FirstByKeyCovers | src/features/table/BulkEditor.tsx:155 | every qualifying item has a kept item at or before it with the same key |
| BulkEditor.Sanitized | src/features/table/BulkEditor.tsx:148-158 | the sanitised list is never longer than the file's list |
| BulkEditor.SanitizedTrimmed | src/features/table/BulkEditor.tsx:152-153 | every imported name is non-empty and trimmed |
| BulkEditor.SanitizedDistinct | src/features/table/BulkEditor.tsx:154-156 | no two imported names are equal ignoring case |
| BulkEditor.SanitizedRepresentsEveryItem | src/features/table/BulkEditor.tsx:151-157 | every non-blank name in the file is represented, ignoring case, by an imported name |
| BulkEditor.SanitizedKeepsFirstSpelling | src/features/table/BulkEditor.tsx:155-157 | the spelling imported for a name is that of its first occurrence in the file |
| BulkEditor.SanitizeLoop | src/features/table/BulkEditor.tsx:149-158 | the loop with its `seen` set of lower-cased names computes the sanitised list |
| BulkEditor.ImportProjects | src/features/table/BulkEditor.tsx:134-176 | no file does nothing; invalid JSON, a non-array or a non-string element each leave the table unchanged with the matching error; success replaces the table with the sanitised list and reports both counts |
| Proyectos.Normalize | src/views/Proyectos.tsx:15-18 | a blank field becomes "Sin completar"; anything else is trimmed |
| Proyectos.NormalizeClean | src/views/Proyectos.tsx:15-18 | a normalised name is non-empty and trimmed |
| Proyectos.NormalizeIdempotent | src/views/Proyectos.tsx:15-18 | normalising twice is normalising once |
| Proyectos.Paths | src/views/Proyectos.tsx:27-31 | one path per row |
| Proyectos.PairsUseNames | src/views/Proyectos.tsx:40-46 | both ends of every pair are among the step names |
| Proyectos.SankeyNodes | src/views/Proyectos.tsx:24-54 | the nodes are the distinct normalised step names in first-appearance order, all non-empty and trimmed |
| Proyectos.SankeyTotal | src/views/Proyectos.tsx:42-51 | the link values sum to three times the number of rows |
| Proyectos.SankeyLinks | src/views/Proyectos.tsx:48-58 | each (source, target) pair has one link, valued at its number of occurrences (≥ 1), with both ends among the nodes |
| Proyectos.BuildSankey | src/views/Proyectos.tsx:23-61 | no rows give an empty graph, and no node appears twice; links are counted by the (source, target) pair itself, not by a joined string |
| Proyectos.BuildSankeyAsWritten | src/views/Proyectos.tsx:23-61 | the graph as written, with links keyed by the joined `source\|target` string and split back at '\|'; its nodes are those of the corrected graph |
| Proyectos.SplitLinkKey | src/views/Proyectos.tsx:49-56 | splitting the joined key returns the pair when neither name contains '\|' |
| Proyectos.AsWrittenAgreesWithoutSeparator | src/views/Proyectos.tsx:49-57 | when no name contains '\|', the as-written graph equals the corrected one |
| Proyectos.PipeInNameCounterexample | src/views/Proyectos.tsx:49-56 | a driver "a\|b" yields an as-written link from "a" to "b", although "a" is not a node; the corrected graph links "a\|b" to its priority |
| App.ViewNamed | src/App.tsx:13-19 | route lookup is an exact, case-sensitive match against the four view names |
| App.StripHashPrefix | src/App.tsx:17 | the regex drops a leading '#' and at most one '/' after it, and nothing else |
| App.ViewOfRaw | src/App.tsx:18-19 | the view is the one named, or home when no view has that name |
| App.ViewFromHash | src/App.tsx:15-20 | no window means home; a view other than home is chosen iff the trimmed remainder of the hash is its route name |
| App.ViewOfRawExact | src/App.tsx:18-19 | a route name selects its own view and no other |
| App.BlankHashIsHome | src/App.tsx:18 | a hash with only whitespace after the prefix selects home |
| App.HashFor | src/App.tsx:193-198 | the written fragment always starts with '/' |
| App.HashRoundTrip | src/App.tsx:193-198 | reading back the fragment written for a view gives that view |
| App.RouteCaseSensitive | src/App.tsx:19 | "#/Datos" selects home |
| App.RoutePaddingIgnored | src/App.tsx:17 | whitespace around a route name is ignored |
| KpiBoard.InitialKeysExact | src/features/kpi/KPIBoard.tsx:32-42 | each key has exactly one initial card, and the stored property names are distinct |
| KpiBoard.FilterInput | src/features/kpi/KPIBoard.tsx:235 | only digits, '-', ',' and '.' remain, each as often as in the input; an input of only such characters is unchanged |
| KpiBoard.FilterConcat | src/features/kpi/KPIBoard.tsx:235 | the filter works piece by piece, so the kept characters stay in order |
| KpiBoard.FilterIdempotent | src/features/kpi/KPIBoard.tsx:235-236 | filtering twice is filtering once |
| KpiBoard.DraftFlagsOff | src/features/kpi/KPIBoard.tsx:66-71 | at first every card has a flag and none is being edited |
| KpiBoard.EnterEdit | src/features/kpi/KPIBoard.tsx:126-128 | the card's flag becomes true; the other flags are unchanged |
| KpiBoard.CancelEdit | src/features/kpi/KPIBoard.tsx:130-132 | the card's flag becomes false; the other flags are unchanged |
| KpiBoard.CancelAfterEnter | src/features/kpi/KPIBoard.tsx:126-132 | entering and then leaving edit mode is the same as leaving it |
| KpiBoard.ParseDraft | src/features/kpi/KPIBoard.tsx:135-138 | a blank draft never commits, and a committed value is never NaN; which drafts read as NaN is stated by `ParseDraftWithoutDigits` and `SecondCommaRejected` |
| KpiBoard.ParseDraftWithoutDigits | src/features/kpi/KPIBoard.tsx:137-138 | every non-blank draft without a digit and without the "I" of "Infinity" (such as "-", ",", "." or "-.") reads as NaN and is not committed |
| KpiBoard.ParseDraftOfDecimalComma | src/features/kpi/KPIBoard.tsx:135-138 | a draft `a,b` of two digit runs commits the number a.b |
| KpiBoard.ParseDraftOfDigits | src/features/kpi/KPIBoard.tsx:135-137 | the digits of a whole number commit that number |
| KpiBoard.DecimalCommaAccepted | src/features/kpi/KPIBoard.tsx:137 | "4,5" commits 4.5 |
| KpiBoard.SecondCommaRejected | src/features/kpi/KPIBoard.tsx:137-138 | only the first comma is replaced, so "1,2,3" is NaN and rejected |
| KpiBoard.SetValue | src/features/kpi/KPIBoard.tsx:141-142 | the card with the key takes the value; every other card is unchanged; keys, labels, kinds, units, subtitles and order are kept |
| KpiBoard.Commit | src/features/kpi/KPIBoard.tsx:134-146 | every path turns the key's editing flag off; a rejected draft changes no value; an accepted draft sets exactly that card's value |
| KpiBoard.CommitBlank | src/features/kpi/KPIBoard.tsx:135-136 | a blank draft changes no value and leaves edit mode |
| KpiBoard.CommitIdempotent | src/features/kpi/KPIBoard.tsx:134-146 | committing the same draft twice is committing it once |
| KpiBoard.StoredNumber | src/features/kpi/KPIBoard.tsx:85 | a card has a stored number iff the stored value is an object whose property for that key is a JSON number |
| KpiBoard.MergeFromStorage | src/features/kpi/KPIBoard.tsx:84-86 | keys, labels and order are those of the initial cards; a card takes the stored value only when it is a number, and keeps the default otherwise |
| KpiBoard.FindByKey | src/features/kpi/KPIBoard.tsx:95 | `find` returns the first row with the key, and nothing iff no row has it |
| KpiBoard.MergeFromDexie | src/features/kpi/KPIBoard.tsx:94-97 | keys, labels and order are those of the initial cards; a card takes the value of the first database row with its key, and keeps the default otherwise |
| KpiBoard.Hydrate | src/features/kpi/KPIBoard.tsx:82-101 | a truthy stored value wins; otherwise non-empty database rows are merged; otherwise the defaults stay; the database is seeded exactly when it is empty |
| KpiBoard.NumberJson | src/features/kpi/KPIBoard.tsx:57 | `JSON.stringify` writes a number iff it is finite |
| KpiBoard.SnapshotEntry | src/features/kpi/KPIBoard.tsx:55-57 | the stored object holds, under each key, the value of the last card with that key |
| KpiBoard.StorageRoundTrip | src/features/kpi/KPIBoard.tsx:53-86 | writing the cards and hydrating from what was written gives each card back; a non-finite value comes back as 0 |
| KpiBoard.DatabaseRoundTrip | src/features/kpi/KPIBoard.tsx:94-97 | merging database rows that are the cards themselves gives the cards back |
| KpiBoard.TrendOf | src/features/kpi/KPIBoard.tsx:166 | a count card is neutral; a percent card is positive iff its value is above 0 and negative iff below 0 |
| KpiBoard.TrendOfNegated | src/features/kpi/KPIBoard.tsx:166 | negating a value mirrors the trend |
| Radar.MaxCount | src/viz/DesignCollabRadar.tsx:27 | the largest count, or 0: at least every count, and attained unless 0 |
| Radar.MaxCriticidad | src/viz/DesignCollabRadar.tsx:28 | the largest criticality, or 0: at least every criticality, and attained unless 0 |
| Radar.RadarMax | src/viz/DesignCollabRadar.tsx:27-29 | the scale is at least 5, strictly above every count and at least every criticality |
| Radar.RadarMaxLeast | src/viz/DesignCollabRadar.tsx:29 | it is the smallest such scale |
| Radar.RadarOf | src/viz/DesignCollabRadar.tsx:17-37 | empty data gives only the placeholder; otherwise one indicator per team in order, with its name and the common scale, and both value series match the data in length and order |
| Radar.ValuesInsideAxes | src/viz/DesignCollabRadar.tsx:29-37 | every count plots strictly inside its axis and every criticality within it |
| Radar.ChartRoundTrip | src/viz/DesignCollabRadar.tsx:31-37 | the teams can be read back from the chart |
| CsatComments.FieldText | src/features/csat/CSATCommentsPanel.tsx:51-59 | a text field is trimmed and taken from the raw text; it is empty iff the column is missing or blank |
| CsatComments.Score | src/features/csat/CSATCommentsPanel.tsx:47-48 | a missing or blank score column is null, and a score comes from a non-blank column |
| CsatComments.ScoreOfIntText | src/features/csat/CSATCommentsPanel.tsx:47-48 | the decimal text of any integer scores that integer |
| CsatComments.RowOf | src/features/csat/CSATCommentsPanel.tsx:46-60 | every text of the row is trimmed, and the score is as above |
| CsatComments.ParseRecords | src/features/csat/CSATCommentsPanel.tsx:46-72 | one row per record, in order, so the comment count is the number of records |
| CsatComments.ScoreStopsAtNonDigit | src/features/csat/CSATCommentsPanel.tsx:47 | the score is the leading digit run, so "4,5" scores 4 |
| CsatComments.ScoreWithoutDigits | src/features/csat/CSATCommentsPanel.tsx:47-48 | a trimmed score that does not start with a digit or a signed digit is null |
| CsatComments.ParseIntOfIntText | src/features/csat/CSATCommentsPanel.tsx:47 | `parseInt` reads back the decimal text of any integer |
| CsatComments.RowRoundTrip | src/features/csat/CSATCommentsPanel.tsx:46-60 | writing a trimmed row out as a record and reading it back gives the row |
| CsatComments.ReadIdempotent | src/features/csat/CSATCommentsPanel.tsx:46-60 | reading a row back from its own record changes nothing |
| Manage.CandidateList | src/manage/Manage.tsx:28-31 | a top-level array is the list; an object's `projects` array is the list; any other document gives [] |
| Manage.ValidList | src/manage/Manage.tsx:33 | the list is kept verbatim when every element is a string, and is [] otherwise |
| Manage.OnLoadProjects | src/manage/Manage.tsx:24-39 | invalid JSON changes nothing and saves nothing; otherwise the list shown and the list saved are the same validated list |
| Manage.LoadRoundTrip | src/manage/Manage.tsx:28-35 | a list of strings loads verbatim, duplicates and empty names included, whether it is the whole document or its `projects` member |
| Manage.NonStringEmpties | src/manage/Manage.tsx:33-35 | one non-string element empties the saved list |
| Manage.OtherShapeEmpties | src/manage/Manage.tsx:31-35 | any other document shape saves the empty list |
| JsNumber.ToNumber | src/features/kpi/KPIBoard.tsx:137 | `Number` of a blank text is 0 |
| JsNumber.ParseIntPrefix | src/features/csat/CSATCommentsPanel.tsx:47 | `parseInt` gives a number iff, after leading whitespace, the text starts with a digit or a sign and a digit |
| JsNumber.DecimalCommaValue | src/features/kpi/KPIBoard.tsx:137 | with its first ',' made '.', the text `a,b` of two digit runs reads with `Number` as a.b |
| JsNumber.NatToStringRoundTrip | src/features/viz/Sentiment.ts:99 | the decimal text of a count reads back, with `Number`, as the count |
| Text.Trim | src/views/Proyectos.tsx:16 | `trim` leaves no whitespace at either end; the result is empty iff the text is all whitespace; it is a substring; a text without surrounding whitespace is unchanged |
| Text.TrimPadded | src/App.tsx:17 | trimming ignores added whitespace on both sides |
| Text.Lower | src/views/Datos.tsx:65 | `toLowerCase` keeps the length and maps each character on its own: A–Z to a–z, Latin-1 capitals to their small letters, everything else unchanged |
| Text.LowerIdempotent | src/views/Datos.tsx:65 | lower-casing twice is lower-casing once |
| Text.Upper | src/views/Datos.tsx:41 | `toUpperCase` keeps the length and maps each character on its own: a–z to A–Z, Latin-1 small letters to their capitals, everything else unchanged |
| Text.UpperOfLower | src/views/Datos.tsx:41 | upper-casing forgets a previous lower-casing |
| Text.Join | src/views/Datos.tsx:176 | `join` of one part is that part |
| Text.Split | src/views/Proyectos.tsx:56 | `split` gives at least one piece, and no piece contains the separator |
| Text.JoinSplit | src/views/Proyectos.tsx:56 | joining the pieces of a split with the separator gives the text back |
| Text.SplitWithout | src/views/Proyectos.tsx:56 | a text without the separator splits into itself alone |
| JsNumber.ToNumberWithoutDigits | src/features/viz/Sentiment.ts:72 | `Number` of a non-blank text with no digit is never finite, and is NaN when the text has no "I" |
| JsNumber.DecimalWithoutDigits | src/features/viz/Sentiment.ts:72 | a decimal literal needs a digit, so a text without one has no decimal reading |
| Text.ReplaceFirst | src/features/kpi/KPIBoard.tsx:137 | `replace` with a one-character string changes only the first occurrence |

## Left out

- Storage and I/O: Dexie tables, localStorage, `fetch`, `File.text()`, the
  Blob download and `console.error`. Stored values, parsed files and
  database rows are parameters. The text of `JSON.parse` errors and the
  parse itself are not modelled: a file is given as an optional parsed
  value.
- The `orderBy('name')` reloads in the master-list editor.
  `BulkEditor.ImportProjects` describes what is written to the table, not
  the order the reload shows.
- `localeCompare` with Spanish collation in the diagnostic table's sort.
  Only the comparator's key is modelled (`Datos.SortKey`). The select-all
  properties depend only on the set of visible ids, which a sort that
  finishes does not change; a sort that throws is listed under Findings.
- Datos.ToggleAll: the selection is a map read by own key. In the source
  it is a plain object, so an id "__proto__" assigned `true` makes no own
  entry. Ids are taken to be names that are not `Object.prototype`
  members; the store's ids have the form `row-N`.
- Datos.ToggleAllThenHeader: holds for ids that are not `Object.prototype`
  members. In the source, a visible row with id "toString" reads the
  inherited function as checked, and deleting it removes nothing, so the
  header would stay checked.
- Floating point: numbers are exact rationals, except the radar's counts
  and criticality levels and the JSON amounts, which are integers (see
  below). Binary64 rounding,
  overflow of `Number`/`parseInt` to Infinity and the percentages'
  floating-point error are not modelled. Percentages are computed exactly.
- `Intl.NumberFormat` formatting of KPI values, the caret and selection
  handling of the KPI card, and all ECharts option objects and layout.
- React scheduling: when a state-updater function runs is not modelled.
  The list `writeKpisToLS` receives is taken to be the updated list, and
  hydration is not interleaved with commits.
- KpiBoard.Commit: the database `put` of the committed card is not
  modelled. Only the card list, the editing flags and the localStorage
  snapshot are.
- JsNumber.ToNumber: its contract states only the blank case. Its other cases are stated by `NatToStringRoundTrip`, `DecimalCommaValue`, `ToNumberWithoutDigits`, `ParseDraftOfDigits`, `DecimalCommaAccepted` and `SecondCommaRejected`.
- SentimentBasics.CleanDriverName: the 48-character limit counts Unicode
  scalar values, while `s.length` and `s.slice` count UTF-16 code units.
  A label with characters outside the Basic Multilingual Plane (emoji,
  say) is cut at a different place, and the source can even split a
  surrogate pair. Strings are sequences of characters throughout.
- SentimentJson.RowItem: a present `cantidad` is a natural number. The
  source adds any finite number, so negative or fractional amounts are not
  modelled. Per-driver sums stay natural numbers, as the counts of a
  pre-counted file are.
- Radar.MaxCount: counts are integers, not JavaScript numbers. Fractional
  and NaN counts are not modelled; `Math.max` would propagate a NaN.
- Radar.MaxCriticidad: criticality levels are integers, for the same
  reason; a NaN criticality is not modelled.
- Radar.RadarMax: `Math.max(5, maxCount + 1, maxCrit)` is modelled over
  integers only, so the NaN scale a NaN input would give is not modelled.
  `RadarMaxLeast` (the least integer scale that fits) depends on this.
- Full Unicode case mapping: `Text.Lower` and `Text.Upper` map ASCII and
  Latin-1 letters only.
- CSV parsing (`parseCSVMatrix`, PapaParse): the driver-stack input is a
  matrix of cells, and a CSAT record is a map from the nine known columns
  to their text. Columns the panel never reads are not represented.
- CsatComments.Score: a non-string `nota_csat` (which the CSV parser does
  not produce) is not modelled.
- Datos.ChangeField: `producto`, `canal`, `squad` and `fuente` are absent
  from the declared row type and are modelled as optional fields. Absent
  fields join the filter text as the empty string.
- Proyectos.Normalize: `undefined` and `null` fields are not modelled,
  because every row field of the declared type is a string.
- App.ViewFromHash: the `hashchange` listener and the write to
  `window.location.hash` are not modelled; only the mapping between
  fragments and views is.

## Findings

| source | as written | input that shows it | evidently intended | confidence | as-written member | corrected member |
|---|---|---|---|---|---|---|
| src/features/viz/Sentiment.ts:67-85 | driver counts live in a plain object `{}` and a new entry is created only when `acc[name]` is falsy | a data row whose driver cell is "constructor" (or "toString", "valueOf", …): `acc[name]` is the inherited function, no own entry is made, and `Object.entries` omits the driver | every accepted driver gets its own entry | not executed | DriverStacks.AccumulateAsWritten, DriverStacks.PrototypeNameCounterexample | Tallies.Accumulate, DriverStacks.DriverEntriesCorrect |
| src/views/Datos.tsx:183-190 | the comparator reads `a[sort.column].toLowerCase()`, and the table headers offer sorting by `producto` and `squad`, fields the row type does not declare | sorting by product (header at line 372) while a visible row has no `producto`, as no stored sample row has: `undefined.toLowerCase()` throws a TypeError during rendering | a missing field sorts as the empty text | not executed | Datos.SortKeyAsWritten, Datos.MissingProductoSortThrows | Datos.SortKey |
| src/views/Proyectos.tsx:49-57 | links are keyed by `${source}\|${target}` and split back with `key.split('\|')` | a row whose driver is "a\|b" and whose other fields are "x": the link (a\|b → x) comes out as source "a", target "b"; "a" is not a node, and the real link is lost | each link keeps the exact source and target names | not executed | Proyectos.BuildSankeyAsWritten, Proyectos.PipeInNameCounterexample | Proyectos.BuildSankey, Proyectos.SankeyLinks |

=== FILE: app.dfy ===
/** Hash routing of src/App.tsx: the view named by the URL fragment, and
    the fragment written when the user changes view. */
module App {
  import opened Wrappers
  import opened Text

  datatype ViewKey = Home | DatosView | ProyectosView | Exportar

  /** The route name of each view, as listed in `allowedViews`. */
  function Name(v: ViewKey): string {
    match v
    case Home => "home"
    case DatosView => "datos"
    case ProyectosView => "proyectos"
    case Exportar => "exportar"
  }

  /** `allowedViews.includes(raw)`: exact, case-sensitive lookup. */
  function ViewNamed(raw: string): (r: Option<ViewKey>)
    ensures r.Some? ==> Name(r.value) == raw
    ensures r.None? ==> forall v: ViewKey :: Name(v) != raw
  {
    if raw == "home" then Some(Home)
    else if raw == "datos" then Some(DatosView)
    else if raw == "proyectos" then Some(ProyectosView)
    else if raw == "exportar" then Some(Exportar)
    else None
  }

  /** `hash.replace(/^#\/?/, '')`: a leading '#' and at most one '/' right
      after it are dropped; anything else is left alone. */
  function StripHashPrefix(hash: string): (r: string)
    ensures |hash| > 0 && hash[0] == '#' && (|hash| < 2 || hash[1] != '/') ==> r == hash[1..]
    ensures |hash| > 1 && hash[0] == '#' && hash[1] == '/' ==> r == hash[2..]
    ensures (|hash| == 0 || hash[0] != '#') ==> r == hash
  {
    if |hash| > 0 && hash[0] == '#' then
      if |hash| > 1 && hash[1] == '/' then hash[2..] else hash[1..]
    else hash
  }

  /** The view for the trimmed remainder of the fragment: a route name
      selects its view, anything else (the empty text included) is home. */
  function ViewOfRaw(raw: string): (v: ViewKey)
    ensures Name(v) == raw || v == Home
    ensures (exists w: ViewKey :: Name(w) == raw) ==> Name(v) == raw
  {
    if |raw| == 0 then Home
    else
      match ViewNamed(raw)
      case Some(v) => v
      case None => Home
  }

  /** `getViewFromHash`. `hash` is None when there is no window. A view
      other than home is chosen exactly when the trimmed remainder of the
      fragment is its route name. */
  function ViewFromHash(hash: Option<string>): (v: ViewKey)
    ensures hash.None? ==> v == Home
    ensures v != Home ==> hash.Some? && Trim(StripHashPrefix(hash.value)) == Name(v)
    ensures forall w: ViewKey :: hash.Some? && Trim(StripHashPrefix(hash.value)) == Name(w) ==> v == w
  {
    match hash
    case None => Home
    case Some(h) =>
      var raw := Trim(StripHashPrefix(h));
      ViewOfRawExact(raw);
      ViewOfRaw(raw)
  }

  /** A route name selects its own view and no other. */
  lemma ViewOfRawExact(raw: string)
    ensures ViewOfRaw(raw) != Home ==> Name(ViewOfRaw(raw)) == raw
    ensures forall w: ViewKey :: Name(w) == raw ==> ViewOfRaw(raw) == w
  {
    forall w: ViewKey | Name(w) == raw ensures ViewOfRaw(raw) == w {
      ViewOfName(w);
    }
  }

  /** A fragment with nothing but whitespace after the prefix is home. */
  lemma BlankHashIsHome(h: string)
    requires AllWhitespace(StripHashPrefix(h))
    ensures ViewFromHash(Some(h)) == Home
  {
  }

  /** The fragment `handleViewChange` writes: "/" for home, "/" and the
      name otherwise. */
  function HashFor(v: ViewKey): (h: string)
    ensures |h| > 0 && h[0] == '/'
  {
    if v == Home then "/" else "/" + Name(v)
  }

  /** Reading back the fragment written for a view, with the '#' the
      browser reports, gives the view. */
  lemma HashRoundTrip(v: ViewKey)
    ensures ViewFromHash(Some("#" + HashFor(v))) == v
  {
    WrittenRemainder(v);
    if v == Home {
      assert Trim("") == "" by { assert AllWhitespace(""); }
    } else {
      NameUntouchedByTrim(v);
    }
  }

  /** What is left of a written fragment once the prefix is stripped. */
  lemma WrittenRemainder(v: ViewKey)
    ensures StripHashPrefix("#" + HashFor(v)) == if v == Home then "" else Name(v)
  {
    var h := "#" + HashFor(v);
    assert h[1..] == HashFor(v);
    assert h[2..] == HashFor(v)[1..];
  }

  lemma NameUntouchedByTrim(v: ViewKey)
    ensures Trim(Name(v)) == Name(v)
  {
    var n := Name(v);
    assert !IsWhitespace(n[0]) && !IsWhitespace(n[|n| - 1]);
  }

  /** Matching is case-sensitive: "Datos" is not a route. */
  lemma RouteCaseSensitive()
    ensures ViewFromHash(Some("#/Datos")) == Home
  {
    var raw := StripHashPrefix("#/Datos");
    assert raw == "Datos";
    assert Trim(raw) == raw by {
      assert !IsWhitespace(raw[0]) && !IsWhitespace(raw[|raw| - 1]);
    }
  }

  /** Surrounding whitespace in the fragment is ignored. */
  lemma RoutePaddingIgnored(v: ViewKey, p: string, q: string)
    requires AllWhitespace(p) && AllWhitespace(q)
    ensures ViewFromHash(Some("#/" + p + Name(v) + q)) == v
  {
    PaddedRaw(v, p, q);
    ViewOfName(v);
  }

  lemma PaddedRaw(v: ViewKey, p: string, q: string)
    requires AllWhitespace(p) && AllWhitespace(q)
    ensures Trim(StripHashPrefix("#/" + p + Name(v) + q)) == Name(v)
  {
    var n := Name(v);
    var x := p + n + q;
    assert "#/" + p + n + q == "#/" + x;
    PaddedRemainder(x);
    assert StripHashPrefix("#/" + p + n + q) == x;
    TrimPadded(p, n, q);
    NameUntouchedByTrim(v);
    assert Trim(x) == Trim(n) == n;
  }

  /** Route names select their own view. */
  lemma ViewOfName(v: ViewKey)
    ensures ViewOfRaw(Name(v)) == v
  {
  }

  lemma PaddedRemainder(x: string)
    ensures StripHashPrefix("#/" + x) == x
  {
    assert ("#/" + x)[2..] == x;
  }
}

=== FILE: bulk_editor.dfy ===
/** The master-list editor of src/features/table/BulkEditor.tsx: the guard
    on adding a driver, project or status, and the project import that
    validates a JSON file and sanitises its names. */
module BulkEditor {
  import opened Wrappers
  import opened Text
  import opened Json

  // ---------------------------------------------------------------------
  // Adding one name.

  /** A name table and the text in its input box. */
  datatype NameForm = NameForm(table: seq<string>, input: string)

  /** `handleAddDriver`, `handleAddProject` and `handleAddStatus`: a blank
      input does nothing; otherwise the trimmed text is stored and the
      input is cleared. */
  function AddNamed(f: NameForm): (r: NameForm)
    ensures AllWhitespace(f.input) ==> r == f
    ensures !AllWhitespace(f.input) ==> r.table == f.table + [Trim(f.input)] && r.input == ""
  {
    var trimmed := Trim(f.input);
    if trimmed == [] then f
    else NameForm(f.table + [trimmed], "")
  }

  /** What gets stored is non-empty and already trimmed. */
  lemma AddNamedStoresTrimmed(f: NameForm)
    requires !AllWhitespace(f.input)
    ensures |AddNamed(f).table| == |f.table| + 1
    ensures var stored := AddNamed(f).table[|f.table|]; |stored| > 0 && Trim(stored) == stored
  {
    TrimIdempotent(f.input);
  }

  // ---------------------------------------------------------------------
  // Sanitising the imported names.

  /** Item `k` survives a first-occurrence filter: it satisfies `keep` and
      no earlier item that satisfies `keep` has its key. */
  predicate IsFirst<T, K(==)>(items: seq<T>, keep: T -> bool, key: T -> K, k: int) {
    && 0 <= k < |items| && keep(items[k])
    && forall m :: 0 <= m < k && keep(items[m]) ==> key(items[m]) != key(items[k])
  }

  /** The keys of the items before position `n` that satisfy `keep`. */
  function KeysBefore<T, K(==)>(items: seq<T>, keep: T -> bool, key: T -> K, n: nat): (ks: set<K>)
    requires n <= |items|
    ensures forall m :: 0 <= m < n && keep(items[m]) ==> key(items[m]) in ks
    ensures forall x :: x in ks ==> exists m :: 0 <= m < n && keep(items[m]) && key(items[m]) == x
  {
    set m | 0 <= m < n && keep(items[m]) :: key(items[m])
  }

  /** The positions, in order, of the items a first-occurrence filter keeps. */
  function FirstByKey<T, K(==)>(items: seq<T>, keep: T -> bool, key: T -> K): (idx: seq<nat>)
    ensures |idx| <= |items|
    ensures forall i :: 0 <= i < |idx| ==> idx[i] < |items|
  {
    if |items| == 0 then []
    else
      var n := |items| - 1;
      FirstByKey(items[..n], keep, key) + (if IsFirst(items, keep, key, n) then [n] else [])
  }

  /** Whether an item survives depends only on what comes before it. */
  lemma IsFirstPrefix<T, K>(items: seq<T>, keep: T -> bool, key: T -> K, n: nat, k: int)
    requires k < n <= |items|
    ensures IsFirst(items[..n], keep, key, k) <==> IsFirst(items, keep, key, k)
  {
    if 0 <= k {
      assert forall m :: 0 <= m <= k ==> items[..n][m] == items[m];
    }
  }

  /** FirstByKey lists exactly the surviving positions, in increasing order. */
  lemma {:induction false} FirstByKeyExact<T, K>(items: seq<T>, keep: T -> bool, key: T -> K)
    ensures forall k :: k in FirstByKey(items, keep, key) <==> IsFirst(items, keep, key, k)
    ensures forall i, j :: 0 <= i < j < |FirstByKey(items, keep, key)| ==>
              FirstByKey(items, keep, key)[i] < FirstByKey(items, keep, key)[j]
  {
    if |items| > 0 {
      var n := |items| - 1;
      var p := FirstByKey(items[..n], keep, key);
      FirstByKeyExact(items[..n], keep, key);
      forall k ensures k in p <==> (k < n && IsFirst(items, keep, key, k)) {
        if k < n { IsFirstPrefix(items, keep, key, n, k); }
      }
    }
  }

  /** Two survivors never share a key. */
  lemma FirstByKeyDistinct<T, K>(items: seq<T>, keep: T -> bool, key: T -> K)
    ensures var idx := FirstByKey(items, keep, key);
            forall i, j :: 0 <= i < j < |idx| ==> key(items[idx[i]]) != key(items[idx[j]])
  {
    var idx := FirstByKey(items, keep, key);
    FirstByKeyExact(items, keep, key);
    forall i, j | 0 <= i < j < |idx| ensures key(items[idx[i]]) != key(items[idx[j]]) {
      assert idx[i] in idx && idx[j] in idx;
      assert IsFirst(items, keep, key, idx[j]);
    }
  }

  /** Every item that satisfies `keep` is represented by a survivor at or
      before it with the same key. */
  lemma {:induction false} FirstByKeyCovers<T, K>(items: seq<T>, keep: T -> bool, key: T -> K, k: nat)
    requires k < |items| && keep(items[k])
    ensures exists m :: m <= k && m in FirstByKey(items, keep, key) && key(items[m]) == key(items[k])
    decreases k
  {
    FirstByKeyExact(items, keep, key);
    if !IsFirst(items, keep, key, k) {
      var m :| 0 <= m < k && keep(items[m]) && key(items[m]) == key(items[k]);
      FirstByKeyCovers(items, keep, key, m);
    }
  }

  predicate NonBlank(s: string) {
    |Trim(s)| > 0
  }

  /** The de-duplication key: trimmed, then lower-cased. */
  function Key(s: string): string {
    Lower(Trim(s))
  }

  /** The sanitised list: the items that are non-blank and the first with
      their case-insensitive key, trimmed. */
  function Sanitized(items: seq<string>): (r: seq<string>)
    ensures |r| <= |items|
  {
    Pick(items, FirstByKey(items, NonBlank, Key), Trim)
  }

  /** `f` of the items at the positions `idx`, in the order of `idx`. */
  function Pick<T, U>(items: seq<T>, idx: seq<nat>, f: T -> U): (r: seq<U>)
    requires forall i :: 0 <= i < |idx| ==> idx[i] < |items|
    ensures |r| == |idx|
    ensures forall i :: 0 <= i < |idx| ==> r[i] == f(items[idx[i]])
  {
    seq(|idx|, i requires 0 <= i < |idx| => f(items[idx[i]]))
  }

  /** Picking from one more item, with the new position possibly added. */
  lemma PickStep<T, U>(items: seq<T>, n: nat, p: seq<nat>, f: T -> U, add: bool)
    requires n < |items|
    requires forall i :: 0 <= i < |p| ==> p[i] < n
    ensures Pick(items[..n + 1], p + (if add then [n] else []), f)
            == Pick(items[..n], p, f) + (if add then [f(items[n])] else [])
  {
    var q := p + (if add then [n] else []);
    var b := Pick(items[..n + 1], q, f);
    var a := Pick(items[..n], p, f) + (if add then [f(items[n])] else []);
    forall i | 0 <= i < |b| ensures b[i] == a[i] {
      if i < |p| {
        assert q[i] == p[i];
      }
    }
  }

  /** The pair form of FirstByKeyDistinct. */
  lemma FirstByKeyPairDistinct<T, K>(items: seq<T>, keep: T -> bool, key: T -> K, i: nat, j: nat)
    requires i < j < |FirstByKey(items, keep, key)|
    ensures key(items[FirstByKey(items, keep, key)[i]]) != key(items[FirstByKey(items, keep, key)[j]])
  {
    FirstByKeyDistinct(items, keep, key);
  }

  /** Every sanitised name is non-empty and already trimmed. */
  lemma SanitizedTrimmed(items: seq<string>, i: nat)
    requires i < |Sanitized(items)|
    ensures |Sanitized(items)[i]| > 0 && Trim(Sanitized(items)[i]) == Sanitized(items)[i]
  {
    var idx := FirstByKey(items, NonBlank, Key);
    FirstByKeyExact(items, NonBlank, Key);
    assert idx[i] in idx;
    assert IsFirst(items, NonBlank, Key, idx[i]);
    TrimIdempotent(items[idx[i]]);
  }

  /** No two sanitised names agree after lower-casing. */
  lemma SanitizedDistinct(items: seq<string>, i: nat, j: nat)
    requires i < j < |Sanitized(items)|
    ensures Lower(Sanitized(items)[i]) != Lower(Sanitized(items)[j])
  {
    var idx := FirstByKey(items, NonBlank, Key);
    FirstByKeyPairDistinct(items, NonBlank, Key, i, j);
    assert Key(items[idx[i]]) != Key(items[idx[j]]);
  }

  /** Each non-blank item is represented: some sanitised name has its
      case-insensitive key. */
  lemma SanitizedRepresentsEveryItem(items: seq<string>, k: nat)
    requires k < |items| && NonBlank(items[k])
    ensures exists s :: s in Sanitized(items) && Lower(s) == Key(items[k])
  {
    var idx := FirstByKey(items, NonBlank, Key);
    var r := Sanitized(items);
    FirstByKeyCovers(items, NonBlank, Key, k);
    var m :| m <= k && m in idx && Key(items[m]) == Key(items[k]);
    var i :| 0 <= i < |idx| && idx[i] == m;
    assert r[i] == Trim(items[m]);
    assert Lower(r[i]) == Key(items[m]);
    assert r[i] in r;
  }

  /** The first spelling wins: an item whose key appeared on an earlier
      non-blank item does not reach the list with a different spelling. */
  lemma SanitizedKeepsFirstSpelling(items: seq<string>, m: nat, k: nat)
    requires m < k < |items| && NonBlank(items[m]) && Key(items[m]) == Key(items[k])
    ensures k !in FirstByKey(items, NonBlank, Key)
  {
    FirstByKeyExact(items, NonBlank, Key);
  }

  /** The import loop as written, with a `seen` set of lower-cased names;
      it computes Sanitized. */
  method SanitizeLoop(items: seq<string>) returns (sanitized: seq<string>)
    ensures sanitized == Sanitized(items)
  {
    var seen: set<string> := {};
    sanitized := [];
    for n := 0 to |items|
      invariant seen == KeysBefore(items, NonBlank, Key, n)
      invariant sanitized == Sanitized(items[..n])
    {
      KeysBeforeStep(items, NonBlank, Key, n);
      LoopStep(items, n);
      ghost var isNew := NonBlank(items[n]) && Key(items[n]) !in seen;
      ghost var next := Sanitized(items[..n + 1]);
      assert isNew ==> next == sanitized + [Trim(items[n])];
      assert !isNew ==> next == sanitized;
      var trimmed := Trim(items[n]);
      if |trimmed| > 0 {
        var lower := Lower(trimmed);
        assert lower == Key(items[n]);
        if lower !in seen {
          assert isNew;
          seen := seen + {lower};
          sanitized := sanitized + [trimmed];
        } else {
          assert !isNew;
        }
      } else {
        assert !isNew;
      }
    }
    assert items[..|items|] == items;
  }

  /** Extending the input by one item extends the survivors by that item
      exactly when it is kept and its key is new. */
  lemma FirstByKeyStep<T, K>(items: seq<T>, keep: T -> bool, key: T -> K, n: nat)
    requires n < |items|
    ensures FirstByKey(items[..n + 1], keep, key) ==
              FirstByKey(items[..n], keep, key)
              + (if keep(items[n]) && key(items[n]) !in KeysBefore(items, keep, key, n) then [n] else [])
  {
    var pre := items[..n + 1];
    assert pre[..n] == items[..n];
    assert forall m :: 0 <= m <= n ==> pre[m] == items[m];
    assert IsFirst(pre, keep, key, n) <==> keep(items[n]) && key(items[n]) !in KeysBefore(items, keep, key, n);
  }

  lemma KeysBeforeStep<T, K>(items: seq<T>, keep: T -> bool, key: T -> K, n: nat)
    requires n < |items|
    ensures KeysBefore(items, keep, key, n + 1) ==
              KeysBefore(items, keep, key, n) + (if keep(items[n]) then {key(items[n])} else {})
  {
  }

  /** One step of the import loop: item `n` joins the list, trimmed,
      exactly when it is non-blank and its key has not been seen. */
  lemma LoopStep(items: seq<string>, n: nat)
    requires n < |items|
    ensures Sanitized(items[..n + 1]) ==
              Sanitized(items[..n])
              + (if NonBlank(items[n]) && Key(items[n]) !in KeysBefore(items, NonBlank, Key, n)
                 then [Trim(items[n])] else [])
  {
    PickFirstStep(items, NonBlank, Key, Trim, n);
  }

  /** The generic form of LoopStep. */
  lemma PickFirstStep<T, K, U>(items: seq<T>, keep: T -> bool, key: T -> K, f: T -> U, n: nat)
    requires n < |items|
    ensures Pick(items[..n + 1], FirstByKey(items[..n + 1], keep, key), f)
            == Pick(items[..n], FirstByKey(items[..n], keep, key), f)
               + (if keep(items[n]) && key(items[n]) !in KeysBefore(items, keep, key, n)
                  then [f(items[n])] else [])
  {
    var p := FirstByKey(items[..n], keep, key);
    var add := keep(items[n]) && key(items[n]) !in KeysBefore(items, keep, key, n);
    FirstByKeyStep(items, keep, key, n);
    FirstByKeyExact(items[..n], keep, key);
    assert forall i :: 0 <= i < |p| ==> p[i] < n by {
      forall i | 0 <= i < |p| ensures p[i] < n {
        assert p[i] in p;
      }
    }
    PickStep(items, n, p, f, add);
  }

  // ---------------------------------------------------------------------
  // The import.

  const NotArrayMessage: string := "El archivo debe contener un array de strings."
  const NotStringsMessage: string := "El archivo debe contener solo strings."

  /** Why an import failed: the file text was not JSON (the message is the
      parser's), or the JSON had the wrong shape. */
  datatype ImportError = InvalidJson | Shape(message: string)

  datatype Summary = Summary(totalInFile: nat, totalImported: nat)

  /** The project table together with the import panel's state. */
  datatype ImportState = ImportState(projects: seq<string>, summary: Option<Summary>, error: Option<ImportError>)

  /** `handleImportProjects`. `file` is None when no file is chosen and
      Some(None) when its text is not valid JSON. A failure leaves the
      table as it was; a success replaces it with the sanitised list. */
  function ImportProjects(st: ImportState, file: Option<Option<Json>>): (r: ImportState)
    ensures file.None? ==> r == st
    ensures file == Some(None) ==> r == ImportState(st.projects, None, Some(InvalidJson))
    ensures file.Some? && file.value.Some? && !file.value.value.JArr? ==>
              r == ImportState(st.projects, None, Some(Shape(NotArrayMessage)))
    ensures file.Some? && file.value.Some? && file.value.value.JArr? && !AllStrings(file.value.value.items) ==>
              r == ImportState(st.projects, None, Some(Shape(NotStringsMessage)))
    ensures file.Some? && r.error.None? ==> r.summary.Some? && r.summary.value.totalImported <= r.summary.value.totalInFile
    ensures r.error.None? && file.Some? ==>
              && file.value.Some? && file.value.value.JArr? && AllStrings(file.value.value.items)
              && r.projects == Sanitized(StringsOf(file.value.value.items))
              && r.summary == Some(Summary(|file.value.value.items|, |r.projects|))
  {
    match file
    case None => st
    case Some(None) => ImportState(st.projects, None, Some(InvalidJson))
    case Some(Some(parsed)) =>
      if !parsed.JArr? then ImportState(st.projects, None, Some(Shape(NotArrayMessage)))
      else if !AllStrings(parsed.items) then ImportState(st.projects, None, Some(Shape(NotStringsMessage)))
      else
        var sanitized := Sanitized(StringsOf(parsed.items));
        ImportState(sanitized, Some(Summary(|parsed.items|, |sanitized|)), None)
  }
}

=== FILE: counting.dfy ===
/** Insertion-ordered collections as JavaScript iterates them: the distinct
    elements of a sequence in order of first appearance (a `Set` built by
    repeated `add`), and a count table (a `Map<K, number>` built by
    repeated `set(k, (get(k) ?? 0) + 1)`). */
module Counting {

  /** The distinct elements of `s` in order of first appearance. */
  function FirstAppearance<T(==,!new)>(s: seq<T>): (r: seq<T>)
    ensures forall i, j :: 0 <= i < j < |r| ==> r[i] != r[j]
    ensures forall x :: x in r <==> x in s
  {
    if |s| == 0 then []
    else
      var d := FirstAppearance(s[..|s| - 1]);
      assert forall x :: x in s <==> x in s[..|s| - 1] || x == s[|s| - 1];
      if s[|s| - 1] in d then d else d + [s[|s| - 1]]
  }

  /** The first element comes first. */
  lemma {:induction false} FirstAppearanceFirst<T(!new)>(s: seq<T>)
    requires |s| > 0
    ensures |FirstAppearance(s)| > 0 && FirstAppearance(s)[0] == s[0]
  {
    if |s| > 1 {
      FirstAppearanceFirst(s[..|s| - 1]);
    }
  }

  /** One key of a count table with its count. */
  datatype Entry<K> = Entry(key: K, count: nat)

  function KeysOf<K>(t: seq<Entry<K>>): (r: seq<K>)
    ensures |r| == |t|
    ensures forall i :: 0 <= i < |t| ==> r[i] == t[i].key
  {
    seq(|t|, i requires 0 <= i < |t| => t[i].key)
  }

  /** The sum of the counts of a table. */
  function Sum<K>(t: seq<Entry<K>>): nat {
    if |t| == 0 then 0 else Sum(t[..|t| - 1]) + t[|t| - 1].count
  }

  /** The position of `k` in the table, or -1. */
  function IndexOf<K(==)>(t: seq<Entry<K>>, k: K): (i: int)
    ensures -1 <= i < |t|
    ensures i >= 0 ==> t[i].key == k
    ensures i < 0 <==> k !in KeysOf(t)
  {
    if |t| == 0 then -1
    else if t[|t| - 1].key == k then |t| - 1
    else
      var i := IndexOf(t[..|t| - 1], k);
      assert KeysOf(t) == KeysOf(t[..|t| - 1]) + [t[|t| - 1].key];
      i
  }

  /** `map.set(k, (map.get(k) ?? 0) + 1)`: an existing key keeps its place
      and gains one; a new key goes last with count 1. */
  function Bump<K(==)>(t: seq<Entry<K>>, k: K): (r: seq<Entry<K>>)
    ensures k in KeysOf(t) ==> KeysOf(r) == KeysOf(t)
    ensures k !in KeysOf(t) ==> KeysOf(r) == KeysOf(t) + [k] && r[|t|].count == 1
    ensures forall j :: 0 <= j < |t| && j != IndexOf(t, k) ==> r[j] == t[j]
    ensures IndexOf(t, k) >= 0 ==> r[IndexOf(t, k)].count == t[IndexOf(t, k)].count + 1
    ensures Sum(r) == Sum(t) + 1
  {
    var i := IndexOf(t, k);
    if i < 0 then
      assert (t + [Entry(k, 1)])[..|t|] == t;
      t + [Entry(k, 1)]
    else
      var r := t[i := Entry(k, t[i].count + 1)];
      assert KeysOf(r) == KeysOf(t);
      SumUpdate(t, i, Entry(k, t[i].count + 1));
      r
  }

  lemma {:induction false} SumUpdate<K>(t: seq<Entry<K>>, i: nat, e: Entry<K>)
    requires i < |t|
    ensures Sum(t[i := e]) == Sum(t) - t[i].count + e.count
    decreases |t|
  {
    var n := |t| - 1;
    if i < n {
      assert t[i := e][..n] == t[..n][i := e];
      SumUpdate(t[..n], i, e);
    } else {
      assert t[i := e][..n] == t[..n];
    }
  }

  /** The count table of a key stream. */
  function CountAll<K(==)>(keys: seq<K>): (r: seq<Entry<K>>)
    ensures Sum(r) == |keys|
  {
    if |keys| == 0 then [] else Bump(CountAll(keys[..|keys| - 1]), keys[|keys| - 1])
  }

  /** The keys of the table are the distinct keys of the stream, in order
      of first appearance, and each count is the key's number of
      occurrences. */
  lemma CountAllCorrect<K(!new)>(keys: seq<K>)
    ensures KeysOf(CountAll(keys)) == FirstAppearance(keys)
    ensures forall i :: 0 <= i < |CountAll(keys)| ==>
              CountAll(keys)[i].count == multiset(keys)[CountAll(keys)[i].key]
  {
    CountAllKeys(keys);
    CountAllCounts(keys);
  }

  lemma {:induction false} CountAllKeys<K(!new)>(keys: seq<K>)
    ensures KeysOf(CountAll(keys)) == FirstAppearance(keys)
  {
    if |keys| > 0 {
      CountAllKeys(keys[..|keys| - 1]);
    }
  }

  lemma {:induction false} CountAllCounts<K(!new)>(keys: seq<K>)
    ensures forall i :: 0 <= i < |CountAll(keys)| ==>
              CountAll(keys)[i].count == multiset(keys)[CountAll(keys)[i].key]
  {
    if |keys| > 0 {
      var n := |keys| - 1;
      var k := keys[n];
      var p := CountAll(keys[..n]);
      CountAllCounts(keys[..n]);
      CountAllKeys(keys[..n]);
      assert keys == keys[..n] + [k];
      assert multiset(keys) == multiset(keys[..n]) + multiset{k};
      assert forall a, b :: 0 <= a < b < |p| ==> p[a].key != p[b].key by {
        assert forall a :: 0 <= a < |p| ==> KeysOf(p)[a] == p[a].key;
      }
      assert k !in KeysOf(p) ==> multiset(keys[..n])[k] == 0;
      forall i | 0 <= i < |CountAll(keys)|
        ensures CountAll(keys)[i].count == multiset(keys)[CountAll(keys)[i].key]
      {
        BumpCountAt(p, k, i, multiset(keys[..n]));
      }
    }
  }

  /** Bumping `k` in a table that counts `ms` gives a table that counts
      `ms` plus one `k`, position by position. */
  lemma BumpCountAt<K>(p: seq<Entry<K>>, k: K, i: nat, ms: multiset<K>)
    requires forall a, b :: 0 <= a < b < |p| ==> p[a].key != p[b].key
    requires forall j :: 0 <= j < |p| ==> p[j].count == ms[p[j].key]
    requires k !in KeysOf(p) ==> ms[k] == 0
    requires i < |Bump(p, k)|
    ensures Bump(p, k)[i].count == (ms + multiset{k})[Bump(p, k)[i].key]
  {
    var r := Bump(p, k);
    var j := IndexOf(p, k);
    assert |KeysOf(r)| == |r|;
    if j < 0 {
      if i < |p| {
        assert r[i] == p[i];
        assert KeysOf(p)[i] == p[i].key;
      } else {
        assert KeysOf(r)[i] == k;
      }
    } else if i != j {
      assert r[i] == p[i];
      assert p[i].key != p[j].key;
    }
  }

  /** Every count in a table built from a stream is at least one. */
  lemma CountAllPositive<K(!new)>(keys: seq<K>, i: nat)
    requires i < |CountAll(keys)|
    ensures CountAll(keys)[i].count >= 1
  {
    CountAllCorrect(keys);
    var r := CountAll(keys);
    assert r[i].key == KeysOf(r)[i];
    assert r[i].key in keys;
  }

  /** The image of a sequence under `f`, element by element. */
  function MapSeq<K, L>(s: seq<K>, f: K -> L): (r: seq<L>)
    ensures |r| == |s|
    ensures forall i :: 0 <= i < |s| ==> r[i] == f(s[i])
  {
    seq(|s|, i requires 0 <= i < |s| => f(s[i]))
  }

  /** A table with every key renamed by `f`. */
  function MapKeys<K, L>(t: seq<Entry<K>>, f: K -> L): (r: seq<Entry<L>>)
    ensures |r| == |t|
    ensures forall i :: 0 <= i < |t| ==> r[i] == Entry(f(t[i].key), t[i].count)
  {
    seq(|t|, i requires 0 <= i < |t| => Entry(f(t[i].key), t[i].count))
  }

  /** `f` never sends two different elements of `s` to the same value. */
  ghost predicate InjectiveOn<K, L>(s: seq<K>, f: K -> L) {
    forall a, b :: a in s && b in s && f(a) == f(b) ==> a == b
  }

  lemma {:induction false} IndexOfMapped<K, L>(t: seq<Entry<K>>, k: K, f: K -> L)
    requires InjectiveOn(KeysOf(t) + [k], f)
    ensures IndexOf(MapKeys(t, f), f(k)) == IndexOf(t, k)
    decreases |t|
  {
    if |t| > 0 {
      var n := |t| - 1;
      assert MapKeys(t, f)[..n] == MapKeys(t[..n], f);
      assert KeysOf(t) == KeysOf(t[..n]) + [t[n].key];
      assert forall e :: e in KeysOf(t[..n]) + [k] ==> e in KeysOf(t) + [k];
      assert t[n].key in KeysOf(t) + [k];
      if t[n].key != k {
        assert f(t[n].key) != f(k);
        IndexOfMapped(t[..n], k, f);
      }
    }
  }

  /** Renaming keys injectively commutes with counting one more key. */
  lemma BumpMapped<K, L>(t: seq<Entry<K>>, k: K, f: K -> L)
    requires InjectiveOn(KeysOf(t) + [k], f)
    ensures Bump(MapKeys(t, f), f(k)) == MapKeys(Bump(t, k), f)
  {
    IndexOfMapped(t, k, f);
    if IndexOf(t, k) < 0 {
      BumpMappedNew(t, k, f);
    } else {
      BumpMappedOld(t, k, f);
    }
  }

  lemma BumpMappedNew<K, L>(t: seq<Entry<K>>, k: K, f: K -> L)
    requires IndexOf(t, k) < 0 && IndexOf(MapKeys(t, f), f(k)) < 0
    ensures Bump(MapKeys(t, f), f(k)) == MapKeys(Bump(t, k), f)
  {
    var mt := MapKeys(t, f);
    assert Bump(t, k) == t + [Entry(k, 1)];
    assert Bump(mt, f(k)) == mt + [Entry(f(k), 1)];
    var b := MapKeys(t + [Entry(k, 1)], f);
    forall j | 0 <= j < |b| ensures b[j] == (mt + [Entry(f(k), 1)])[j] {
      if j < |t| {
        assert (t + [Entry(k, 1)])[j] == t[j];
      }
    }
  }

  lemma BumpMappedOld<K, L>(t: seq<Entry<K>>, k: K, f: K -> L)
    requires 0 <= IndexOf(t, k) == IndexOf(MapKeys(t, f), f(k))
    ensures Bump(MapKeys(t, f), f(k)) == MapKeys(Bump(t, k), f)
  {
    var i := IndexOf(t, k);
    var mt := MapKeys(t, f);
    var e := Entry(k, t[i].count + 1);
    assert Bump(t, k) == t[i := e];
    assert Bump(mt, f(k)) == mt[i := Entry(f(k), mt[i].count + 1)];
    var b := MapKeys(t[i := e], f);
    forall j | 0 <= j < |b| ensures b[j] == mt[i := Entry(f(k), mt[i].count + 1)][j] {
      if j != i {
        assert t[i := e][j] == t[j];
      }
    }
  }

  /** Counting a stream of keys renamed by an injective `f` is counting the
      stream and renaming the table. */
  lemma {:induction false} CountAllMapped<K(!new), L(!new)>(keys: seq<K>, f: K -> L)
    requires InjectiveOn(keys, f)
    ensures CountAll(MapSeq(keys, f)) == MapKeys(CountAll(keys), f)
  {
    if |keys| > 0 {
      var n := |keys| - 1;
      assert MapSeq(keys, f)[..n] == MapSeq(keys[..n], f);
      assert forall e :: e in keys[..n] ==> e in keys;
      CountAllMapped(keys[..n], f);
      var p := CountAll(keys[..n]);
      CountAllCorrect(keys[..n]);
      assert forall e :: e in KeysOf(p) + [keys[n]] ==> e in keys;
      BumpMapped(p, keys[n], f);
    }
  }
}

=== FILE: csat_comments.dfy ===
/** The comment rows of src/features/csat/CSATCommentsPanel.tsx: each
    record the CSV parser yields becomes one row of trimmed texts and an
    integer score. */
module CsatComments {
  import opened Wrappers
  import opened Text
  import opened JsNumber

  /** The columns the panel reads, by their header names `date`,
      `nota_csat`, `driver_detractor`, `driver_neutro`, `driver_promotor`,
      `comentario`, `segmento_cx`, `partyID` and `banca`. */
  datatype Column =
    | Date | NotaCsat | DriverDetractor | DriverNeutro | DriverPromotor
    | Comentario | SegmentoCx | PartyId | Banca

  /** One parsed CSV record: the text of each of those columns the record
      has. A column the record lacks is not a key; other columns are never
      read and are not represented. */
  type RawRecord = map<Column, string>

  datatype CsatCommentRow = CsatCommentRow(
    date: string,
    notaCsat: Option<int>,
    driverDetractor: string,
    driverNeutro: string,
    driverPromotor: string,
    comentario: string,
    segmentoCx: string,
    partyId: string,
    banca: string)

  /** `String(raw[name] ?? '').trim()`: a missing column reads as empty. */
  function FieldText(raw: RawRecord, name: Column): (r: string)
    ensures |r| > 0 ==> !IsWhitespace(r[0]) && !IsWhitespace(r[|r| - 1])
    ensures r == [] <==> name !in raw || AllWhitespace(raw[name])
    ensures name in raw ==> Contains(raw[name], r)
  {
    Trim(if name in raw then raw[name] else "")
  }

  /** The score: `parseInt` of the trimmed text when the column is there,
      None (null) when it is missing or has no leading integer. A missing
      or blank column never scores; what a score is, is the leading integer
      (ScoreStopsAtNonDigit, ScoreOfIntText). */
  function Score(raw: RawRecord): (r: Option<int>)
    ensures NotaCsat !in raw ==> r.None?
    ensures NotaCsat in raw && AllWhitespace(raw[NotaCsat]) ==> r.None?
    ensures r.Some? ==> NotaCsat in raw && !AllWhitespace(raw[NotaCsat])
  {
    if NotaCsat in raw then ParseIntPrefix(Trim(raw[NotaCsat])) else None
  }

  /** The row for one record. */
  function RowOf(raw: RawRecord): (row: CsatCommentRow)
    ensures Trimmed(row)
    ensures row.notaCsat == Score(raw)
  {
    CsatCommentRow(
      FieldText(raw, Date),
      Score(raw),
      FieldText(raw, DriverDetractor),
      FieldText(raw, DriverNeutro),
      FieldText(raw, DriverPromotor),
      FieldText(raw, Comentario),
      FieldText(raw, SegmentoCx),
      FieldText(raw, PartyId),
      FieldText(raw, Banca))
  }

  /** A text with no whitespace at either end. */
  predicate Bare(s: string) {
    |s| == 0 || (!IsWhitespace(s[0]) && !IsWhitespace(s[|s| - 1]))
  }

  /** Every text of the row is trimmed. */
  predicate Trimmed(row: CsatCommentRow) {
    && Bare(row.date) && Bare(row.driverDetractor) && Bare(row.driverNeutro)
    && Bare(row.driverPromotor) && Bare(row.comentario) && Bare(row.segmentoCx)
    && Bare(row.partyId) && Bare(row.banca)
  }

  /** The `complete` callback: one row per record, in order. The panel's
      comment count is the length of the result. */
  function ParseRecords(records: seq<RawRecord>): (rows: seq<CsatCommentRow>)
    ensures |rows| == |records|
    ensures forall i :: 0 <= i < |records| ==> rows[i] == RowOf(records[i])
  {
    seq(|records|, i requires 0 <= i < |records| => RowOf(records[i]))
  }

  /** The score is the leading run of digits: whatever follows it, a
      decimal comma included, is ignored, so "4,5" scores 4. */
  lemma ScoreStopsAtNonDigit(d: string, x: string)
    requires |d| > 0 && AllDigits(d)
    requires |x| == 0 || (!IsDigit(x[0]) && !IsWhitespace(x[|x| - 1]))
    ensures Score(map[NotaCsat := d + x]) == Some(DigitsValue(d) as int)
  {
    BareDigitsThen(d, x);
    ParseIntOfDigitsThenOther(d, x);
  }

  lemma BareDigitsThen(d: string, x: string)
    requires |d| > 0 && AllDigits(d)
    requires |x| == 0 || !IsWhitespace(x[|x| - 1])
    ensures Trim(d + x) == d + x
  {
    var s := d + x;
    assert s[0] == d[0];
    assert IsDigit(d[0]) && IsDigit(d[|d| - 1]);
    assert s[|s| - 1] == if |x| == 0 then d[|d| - 1] else x[|x| - 1];
  }

  /** A score without a leading integer is null. */
  lemma ScoreWithoutDigits(t: string)
    requires |Trim(t)| > 0 && !IsDigit(Trim(t)[0]) && Trim(t)[0] != '-' && Trim(t)[0] != '+'
    ensures Score(map[NotaCsat := t]) == None
  {
  }

  /** The decimal text of an integer. */
  function IntText(n: int): (s: string)
    ensures |s| > 0 && IsDigit(s[|s| - 1]) && (IsDigit(s[0]) || s[0] == '-')
  {
    if n >= 0 then NatToString(n) else "-" + NatToString(-n)
  }

  /** `parseInt` reads back the decimal text of an integer. */
  lemma ParseIntOfIntText(n: int)
    ensures ParseIntPrefix(IntText(n)) == Some(n)
  {
    var d := NatToString(if n >= 0 then n else -n);
    DigitsOfNatToString(if n >= 0 then n else -n);
    if n >= 0 {
      assert d + [] == d;
      ParseIntOfDigitsThenOther(d, []);
    } else {
      var s := "-" + d;
      assert s[1..] == d;
      assert TrimStart(s) == s by {
        assert !IsWhitespace(s[0]);
      }
      assert SplitSign(s) == (true, d);
      DigitRunOfConcat(d, []);
      assert d + [] == d && d[..|d|] == d;
    }
  }

  /** The decimal text of any integer scores that integer. */
  lemma ScoreOfIntText(n: int)
    ensures Score(map[NotaCsat := IntText(n)]) == Some(n)
  {
    BareIntText(n);
    ParseIntOfIntText(n);
  }

  /** A row written back as a record: every text under its column, the
      score as its decimal text (no column when it is null). */
  function RecordOf(row: CsatCommentRow): RawRecord {
    var texts := map[
      Date := row.date,
      DriverDetractor := row.driverDetractor,
      DriverNeutro := row.driverNeutro,
      DriverPromotor := row.driverPromotor,
      Comentario := row.comentario,
      SegmentoCx := row.segmentoCx,
      PartyId := row.partyId,
      Banca := row.banca];
    match row.notaCsat
    case Some(n) => texts[NotaCsat := IntText(n)]
    case None => texts
  }

  /** Writing a trimmed row out as a record and reading it back gives the
      row. */
  lemma RowRoundTrip(row: CsatCommentRow)
    requires Trimmed(row)
    ensures RowOf(RecordOf(row)) == row
  {
    var raw := RecordOf(row);
    ScoreRoundTrip(row);
    RecordTexts(row);
    FieldOfBare(raw, Date, row.date);
    FieldOfBare(raw, DriverDetractor, row.driverDetractor);
    FieldOfBare(raw, DriverNeutro, row.driverNeutro);
    FieldOfBare(raw, DriverPromotor, row.driverPromotor);
    FieldOfBare(raw, Comentario, row.comentario);
    FieldOfBare(raw, SegmentoCx, row.segmentoCx);
    FieldOfBare(raw, PartyId, row.partyId);
    FieldOfBare(raw, Banca, row.banca);
  }

  lemma RecordTexts(row: CsatCommentRow)
    ensures var raw := RecordOf(row);
            && Date in raw && raw[Date] == row.date
            && DriverDetractor in raw && raw[DriverDetractor] == row.driverDetractor
            && DriverNeutro in raw && raw[DriverNeutro] == row.driverNeutro
            && DriverPromotor in raw && raw[DriverPromotor] == row.driverPromotor
            && Comentario in raw && raw[Comentario] == row.comentario
            && SegmentoCx in raw && raw[SegmentoCx] == row.segmentoCx
            && PartyId in raw && raw[PartyId] == row.partyId
            && Banca in raw && raw[Banca] == row.banca
  {
  }

  lemma FieldOfBare(raw: RawRecord, c: Column, x: string)
    requires c in raw && raw[c] == x && Bare(x)
    ensures FieldText(raw, c) == x
  {
  }

  lemma ScoreRoundTrip(row: CsatCommentRow)
    ensures Score(RecordOf(row)) == row.notaCsat
  {
    match row.notaCsat
    case Some(n) =>
      assert RecordOf(row)[NotaCsat] == IntText(n);
      BareIntText(n);
      ParseIntOfIntText(n);
    case None =>
      assert NotaCsat !in RecordOf(row);
  }

  lemma BareIntText(n: int)
    ensures Trim(IntText(n)) == IntText(n)
  {
    var s := IntText(n);
    assert !IsWhitespace(s[0]) && !IsWhitespace(s[|s| - 1]);
  }

  /** Reading is idempotent: a row read from a record reads back as itself. */
  lemma ReadIdempotent(raw: RawRecord)
    ensures RowOf(RecordOf(RowOf(raw))) == RowOf(raw)
  {
    RowRoundTrip(RowOf(raw));
  }
}

=== FILE: datos.dfy ===
/** The diagnostic table of src/views/Datos.tsx: client-to-income bucket,
    the priority matrix, the per-row field updates, the text filter, the
    sort-toggle state and the select-all bookkeeping. */
module Datos {
  import opened Wrappers
  import opened Text

  // ---------------------------------------------------------------------
  // Income bucket and priority.

  datatype RentaBucket = ALTA | MEDIA | BAJA

  /** The three priority and criticality levels, 'Alta' | 'Media' | 'Baja'. */
  datatype Level = Alta | Media | Baja

  function LevelName(l: Level): string {
    match l
    case Alta => "Alta"
    case Media => "Media"
    case Baja => "Baja"
  }

  /** `getRentaBucketFromCliente`: the client type, trimmed and upper-cased,
      picks the bucket; anything unlisted is BAJA. */
  function RentaBucketOf(cliente: string): (b: RentaBucket)
    ensures b == ALTA <==> Upper(Trim(cliente)) in {"RENTA ALTA", "PYME PES", "AGRO GRANDES", "EMPRESAS"}
    ensures b == MEDIA <==> Upper(Trim(cliente)) in {"RENTA MEDIA", "PYME MICRO", "AGRO PES"}
  {
    var normalized := Upper(Trim(cliente));
    if normalized in {"RENTA ALTA", "PYME PES", "AGRO GRANDES", "EMPRESAS"} then ALTA
    else if normalized in {"RENTA MEDIA", "PYME MICRO", "AGRO PES"} then MEDIA
    else BAJA
  }

  /** Surrounding whitespace and letter case do not change the bucket. */
  lemma RentaBucketIgnoresPaddingAndCase(p: string, x: string, q: string)
    requires AllWhitespace(p) && AllWhitespace(q)
    ensures RentaBucketOf(p + x + q) == RentaBucketOf(x)
    ensures RentaBucketOf(Lower(x)) == RentaBucketOf(x)
  {
    TrimPadded(p, x, q);
    TrimOfLower(x);
    UpperOfLower(Trim(x));
  }

  /** Lower-casing commutes with trimming: no whitespace character changes
      case and no other character becomes whitespace. */
  lemma TrimOfLower(x: string)
    ensures Trim(Lower(x)) == Lower(Trim(x))
  {
    LowerKeepsWhitespace(x);
    TrimCommutes(x, Lower(x));
  }

  lemma LowerKeepsWhitespace(x: string)
    ensures forall i :: 0 <= i < |x| ==> (IsWhitespace(Lower(x)[i]) <==> IsWhitespace(x[i]))
  {
  }

  /** Trimming two strings of equal length whose characters are whitespace
      at the same positions cuts them at the same positions. */
  lemma {:induction false} TrimCommutes(x: string, y: string)
    requires |x| == |y| && forall i :: 0 <= i < |x| ==> (IsWhitespace(y[i]) <==> IsWhitespace(x[i]))
    requires y == Lower(x)
    ensures Trim(y) == Lower(Trim(x))
  {
    var a, b := TrimStart(x), TrimStart(y);
    SameTrimStart(x, y);
    assert b == Lower(a);
    SameTrimEnd(a, b);
  }

  lemma {:induction false} SameTrimStart(x: string, y: string)
    requires |x| == |y| && forall i :: 0 <= i < |x| ==> (IsWhitespace(y[i]) <==> IsWhitespace(x[i]))
    requires y == Lower(x)
    ensures TrimStart(y) == Lower(TrimStart(x))
    decreases |x|
  {
    if |x| > 0 && IsWhitespace(x[0]) {
      assert y[1..] == Lower(x[1..]);
      SameTrimStart(x[1..], y[1..]);
    }
  }

  lemma {:induction false} SameTrimEnd(x: string, y: string)
    requires |x| == |y| && forall i :: 0 <= i < |x| ==> (IsWhitespace(y[i]) <==> IsWhitespace(x[i]))
    requires y == Lower(x)
    ensures TrimEnd(y) == Lower(TrimEnd(x))
    decreases |x|
  {
    if |x| > 0 && IsWhitespace(x[|x| - 1]) {
      assert y[..|y| - 1] == Lower(x[..|x| - 1]);
      SameTrimEnd(x[..|x| - 1], y[..|y| - 1]);
    }
  }

  /** The criticality a free-text field names, after trim and lower-case. */
  function CriticidadOf(criticidad: string): (c: Option<Level>)
    ensures c == Some(Alta) <==> Lower(Trim(criticidad)) == "alta"
    ensures c == Some(Media) <==> Lower(Trim(criticidad)) == "media"
    ensures c == Some(Baja) <==> Lower(Trim(criticidad)) == "baja"
  {
    var critNorm := Lower(Trim(criticidad));
    if critNorm == "alta" then Some(Alta)
    else if critNorm == "media" then Some(Media)
    else if critNorm == "baja" then Some(Baja)
    else None
  }

  /** The bucket × criticality matrix; an unrecognised criticality falls
      through the switch to 'Media'. */
  function Matrix(b: RentaBucket, c: Option<Level>): Level {
    match (b, c)
    case (_, None) => Media
    case (ALTA, Some(Alta)) => Alta
    case (ALTA, Some(Media)) => Alta
    case (ALTA, Some(Baja)) => Media
    case (MEDIA, Some(l)) => l
    case (BAJA, Some(Alta)) => Media
    case (BAJA, Some(_)) => Baja
  }

  function LevelRank(l: Level): nat {
    match l
    case Alta => 2
    case Media => 1
    case Baja => 0
  }

  function BucketRank(b: RentaBucket): nat {
    match b
    case ALTA => 2
    case MEDIA => 1
    case BAJA => 0
  }

  /** `computePrioridadFromClienteAndCriticidad`. */
  function Prioridad(cliente: string, criticidad: string): (l: Level)
    ensures CriticidadOf(criticidad).None? ==> l == Media
    ensures CriticidadOf(criticidad).Some? && RentaBucketOf(cliente) == MEDIA ==> l == CriticidadOf(criticidad).value
    ensures CriticidadOf(criticidad) == Some(Alta) ==> LevelRank(l) >= 1
    ensures CriticidadOf(criticidad) == Some(Baja) ==> LevelRank(l) <= 1
  {
    var b, c := RentaBucketOf(cliente), CriticidadOf(criticidad);
    MatrixFacts(b, c);
    Matrix(b, c)
  }

  lemma MatrixFacts(b: RentaBucket, c: Option<Level>)
    ensures c.None? ==> Matrix(b, c) == Media
    ensures c.Some? && b == MEDIA ==> Matrix(b, c) == c.value
    ensures c == Some(Alta) ==> LevelRank(Matrix(b, c)) >= 1
    ensures c == Some(Baja) ==> LevelRank(Matrix(b, c)) <= 1
  {
  }

  /** A higher income bucket never lowers the priority. */
  lemma MatrixMonotoneInBucket(b1: RentaBucket, b2: RentaBucket, c: Option<Level>)
    requires BucketRank(b1) <= BucketRank(b2)
    ensures LevelRank(Matrix(b1, c)) <= LevelRank(Matrix(b2, c))
  {
  }

  /** A higher criticality never lowers the priority. */
  lemma MatrixMonotoneInCriticidad(b: RentaBucket, c1: Level, c2: Level)
    requires LevelRank(c1) <= LevelRank(c2)
    ensures LevelRank(Matrix(b, Some(c1))) <= LevelRank(Matrix(b, Some(c2)))
  {
  }

  // ---------------------------------------------------------------------
  // Rows and field updates.

  /** A table row. `producto`, `canal`, `squad` and `fuente` are absent from
      the declared row type, so a row may lack them. */
  datatype DatosRow = DatosRow(
    id: string, cliente: string, producto: Option<string>, canal: Option<string>,
    squad: Option<string>, comentario: string, fuente: Option<string>, driver: string,
    dolor: string, recurrencia: string, criticidad: string, prioridad: string,
    proyecto: string, estado: string)

  /** The text fields of a row, in the order the filter joins them. */
  datatype Field = Cliente | Producto | Canal | Squad | Comentario | Fuente | Driver
                 | Dolor | Recurrencia | Criticidad | PrioridadField | Proyecto | Estado

  function Get(row: DatosRow, f: Field): Option<string> {
    match f
    case Cliente => Some(row.cliente)
    case Producto => row.producto
    case Canal => row.canal
    case Squad => row.squad
    case Comentario => Some(row.comentario)
    case Fuente => row.fuente
    case Driver => Some(row.driver)
    case Dolor => Some(row.dolor)
    case Recurrencia => Some(row.recurrencia)
    case Criticidad => Some(row.criticidad)
    case PrioridadField => Some(row.prioridad)
    case Proyecto => Some(row.proyecto)
    case Estado => Some(row.estado)
  }

  /** Two rows with the same id and the same fields are the same row. */
  lemma RowExtensionality(a: DatosRow, b: DatosRow)
    requires a.id == b.id && forall f :: Get(a, f) == Get(b, f)
    ensures a == b
  {
    assert Get(a, Cliente) == Get(b, Cliente) && Get(a, Producto) == Get(b, Producto);
    assert Get(a, Canal) == Get(b, Canal) && Get(a, Squad) == Get(b, Squad);
    assert Get(a, Comentario) == Get(b, Comentario) && Get(a, Fuente) == Get(b, Fuente);
    assert Get(a, Driver) == Get(b, Driver) && Get(a, Dolor) == Get(b, Dolor);
    assert Get(a, Recurrencia) == Get(b, Recurrencia) && Get(a, Criticidad) == Get(b, Criticidad);
    assert Get(a, PrioridadField) == Get(b, PrioridadField);
    assert Get(a, Proyecto) == Get(b, Proyecto) && Get(a, Estado) == Get(b, Estado);
  }

  /** `{ ...row, [f]: v }`: sets one field and nothing else. */
  function Set(row: DatosRow, f: Field, v: string): (r: DatosRow)
    ensures r.id == row.id
    ensures Get(r, f) == Some(v)
    ensures forall g :: g != f ==> Get(r, g) == Get(row, g)
  {
    match f
    case Cliente => row.(cliente := v)
    case Producto => row.(producto := Some(v))
    case Canal => row.(canal := Some(v))
    case Squad => row.(squad := Some(v))
    case Comentario => row.(comentario := v)
    case Fuente => row.(fuente := Some(v))
    case Driver => row.(driver := v)
    case Dolor => row.(dolor := v)
    case Recurrencia => row.(recurrencia := v)
    case Criticidad => row.(criticidad := v)
    case PrioridadField => row.(prioridad := v)
    case Proyecto => row.(proyecto := v)
    case Estado => row.(estado := v)
  }

  /** The fields with a plain `handleChange*` handler. */
  predicate PlainField(f: Field) {
    f in {Producto, Squad, Canal, Driver, Recurrencia, Fuente, Proyecto, Estado}
  }

  /** `handleChangeProducto` … `handleChangeEstado`: every row with the id
      gets the new value in that one field. */
  function ChangeField(rows: seq<DatosRow>, id: string, f: Field, v: string): (r: seq<DatosRow>)
    requires PlainField(f)
    ensures |r| == |rows|
    ensures forall i :: 0 <= i < |rows| && rows[i].id != id ==> r[i] == rows[i]
    ensures forall i :: 0 <= i < |rows| && rows[i].id == id ==>
              r[i].id == id && Get(r[i], f) == Some(v)
              && forall g :: g != f ==> Get(r[i], g) == Get(rows[i], g)
  {
    seq(|rows|, i requires 0 <= i < |rows| => if rows[i].id == id then Set(rows[i], f, v) else rows[i])
  }

  /** `handleChangeCliente`: sets the client and recomputes the priority
      from the new client and the row's criticality. */
  function ChangeCliente(rows: seq<DatosRow>, id: string, v: string): (r: seq<DatosRow>)
    ensures |r| == |rows|
    ensures forall i :: 0 <= i < |rows| && rows[i].id != id ==> r[i] == rows[i]
    ensures forall i :: 0 <= i < |rows| && rows[i].id == id ==>
              && r[i].id == id && r[i].cliente == v
              && r[i].prioridad == LevelName(Prioridad(v, rows[i].criticidad))
              && forall g :: g != Cliente && g != PrioridadField ==> Get(r[i], g) == Get(rows[i], g)
  {
    seq(|rows|, i requires 0 <= i < |rows| =>
      if rows[i].id == id
      then Set(Set(rows[i], Cliente, v), PrioridadField, LevelName(Prioridad(v, rows[i].criticidad)))
      else rows[i])
  }

  /** `handleChangeCriticidad`: sets the criticality and recomputes the
      priority from the row's client and the new criticality. */
  function ChangeCriticidad(rows: seq<DatosRow>, id: string, v: string): (r: seq<DatosRow>)
    ensures |r| == |rows|
    ensures forall i :: 0 <= i < |rows| && rows[i].id != id ==> r[i] == rows[i]
    ensures forall i :: 0 <= i < |rows| && rows[i].id == id ==>
              && r[i].id == id && r[i].criticidad == v
              && r[i].prioridad == LevelName(Prioridad(rows[i].cliente, v))
              && forall g :: g != Criticidad && g != PrioridadField ==> Get(r[i], g) == Get(rows[i], g)
  {
    seq(|rows|, i requires 0 <= i < |rows| =>
      if rows[i].id == id
      then Set(Set(rows[i], Criticidad, v), PrioridadField, LevelName(Prioridad(rows[i].cliente, v)))
      else rows[i])
  }

  /** After either recomputing handler the row's priority agrees with the
      matrix again. */
  predicate Consistent(row: DatosRow) {
    row.prioridad == LevelName(Prioridad(row.cliente, row.criticidad))
  }

  lemma ChangesRestoreConsistency(rows: seq<DatosRow>, id: string, v: string)
    ensures forall i :: 0 <= i < |rows| && rows[i].id == id ==>
              Consistent(ChangeCliente(rows, id, v)[i]) && Consistent(ChangeCriticidad(rows, id, v)[i])
  {
    var byCliente, byCriticidad := ChangeCliente(rows, id, v), ChangeCriticidad(rows, id, v);
    forall i | 0 <= i < |rows| && rows[i].id == id
      ensures Consistent(byCliente[i]) && Consistent(byCriticidad[i])
    {
      assert Get(byCliente[i], Criticidad) == Get(rows[i], Criticidad);
      assert Get(byCriticidad[i], Cliente) == Get(rows[i], Cliente);
    }
  }

  // ---------------------------------------------------------------------
  // Query filter.

  /** The thirteen fields joined with single spaces; a missing field joins
      as the empty string. */
  function Haystack(row: DatosRow): string {
    Join([row.cliente, row.producto.GetOr(""), row.canal.GetOr(""), row.squad.GetOr(""),
          row.comentario, row.fuente.GetOr(""), row.driver, row.dolor, row.recurrencia,
          row.criticidad, row.prioridad, row.proyecto, row.estado], " ")
  }

  predicate Matches(row: DatosRow, needle: string) {
    Contains(Lower(Haystack(row)), needle)
  }

  /** The rows matching `needle`, in their order. */
  function KeepMatching(rows: seq<DatosRow>, needle: string): (r: seq<DatosRow>)
    ensures |r| <= |rows|
    ensures forall x :: x in r <==> x in rows && Matches(x, needle)
  {
    if |rows| == 0 then []
    else
      var init := KeepMatching(rows[..|rows| - 1], needle);
      var last := rows[|rows| - 1];
      assert forall x :: x in rows <==> x in rows[..|rows| - 1] || x == last;
      if Matches(last, needle) then init + [last] else init
  }

  /** Filtering a concatenation filters each part: the order is kept. */
  lemma {:induction false} KeepMatchingAppend(a: seq<DatosRow>, b: seq<DatosRow>, needle: string)
    ensures KeepMatching(a + b, needle) == KeepMatching(a, needle) + KeepMatching(b, needle)
    decreases |b|
  {
    if |b| == 0 {
      assert a + b == a;
    } else {
      var b' := b[..|b| - 1];
      assert (a + b)[..|a + b| - 1] == a + b';
      KeepMatchingAppend(a, b', needle);
    }
  }

  /** `filteredRows`: a blank query keeps every row; otherwise a row stays
      exactly when the lower-cased trimmed query occurs in its lower-cased
      joined fields. */
  function FilterRows(rows: seq<DatosRow>, query: string): (r: seq<DatosRow>)
    ensures AllWhitespace(query) ==> r == rows
    ensures !AllWhitespace(query) ==> forall x :: x in r <==> x in rows && Matches(x, Lower(Trim(query)))
    ensures |r| <= |rows|
  {
    var normalized := Lower(Trim(query));
    if normalized == [] then rows else KeepMatching(rows, normalized)
  }

  // ---------------------------------------------------------------------
  // Sort toggle.

  /** The columns whose headers toggle sorting. */
  datatype SortColumn = SortDriver | SortProyecto | SortEstado | SortProducto | SortSquad
  datatype Direction = Asc | Desc
  datatype SortState = SortState(column: SortColumn, direction: Direction)

  /** `toggleSort`: a new column starts ascending, the current one flips. */
  function ToggleSort(s: SortState, c: SortColumn): (r: SortState)
    ensures r.column == c
    ensures s.column != c ==> r.direction == Asc
    ensures s.column == c ==> r.direction != s.direction
  {
    if s.column != c then SortState(c, Asc)
    else SortState(c, if s.direction == Asc then Desc else Asc)
  }

  /** Toggling the current column twice restores the state; toggling a new
      column twice leaves it descending. */
  lemma ToggleSortTwice(s: SortState, c: SortColumn)
    ensures s.column == c ==> ToggleSort(ToggleSort(s, c), c) == s
    ensures s.column != c ==> ToggleSort(ToggleSort(s, c), c) == SortState(c, Desc)
  {
  }

  // ---------------------------------------------------------------------
  // Sort key.

  /** The row field a sortable column reads. */
  function ColumnField(c: SortColumn): Field {
    match c
    case SortDriver => Driver
    case SortProyecto => Proyecto
    case SortEstado => Estado
    case SortProducto => Producto
    case SortSquad => Squad
  }

  /** The comparator's key as written, `a[sort.column].toLowerCase()`.
      None stands for the TypeError thrown on a row without the field. */
  function SortKeyAsWritten(row: DatosRow, c: SortColumn): (k: Option<string>)
    ensures k.None? <==> Get(row, ColumnField(c)).None?
    ensures k.Some? ==> |k.value| == |Get(row, ColumnField(c)).value|
  {
    match Get(row, ColumnField(c))
    case None => None
    case Some(v) => Some(Lower(v))
  }

  /** The three columns of the declared sort type never throw. */
  lemma DeclaredColumnsNeverThrow(row: DatosRow, c: SortColumn)
    requires c == SortDriver || c == SortProyecto || c == SortEstado
    ensures SortKeyAsWritten(row, c).Some?
  {
  }

  /** A row shaped like the stored samples, which have no `producto`:
      sorting by the product column throws. */
  lemma MissingProductoSortThrows()
    ensures var row := DatosRow("row-1", "Renta Media", None, None, None, "", None,
                                "Experiencia App inversiones", "", "Alta", "Media", "Media",
                                "Análisis App inversiones", "En desarrollo");
            && SortKeyAsWritten(row, SortProducto) == None
            && SortKey(row, SortProducto) == ""
  {
  }

  /** The key the comparator evidently intends: a missing field sorts as
      the empty text, and a present one as written. */
  function SortKey(row: DatosRow, c: SortColumn): (k: string)
    ensures SortKeyAsWritten(row, c).Some? ==> k == SortKeyAsWritten(row, c).value
    ensures SortKeyAsWritten(row, c).None? ==> k == ""
  {
    Lower(Get(row, ColumnField(c)).GetOr(""))
  }

  // ---------------------------------------------------------------------
  // Selection.

  /** `selected`: row id to checkbox state. */
  type Selection = map<string, bool>

  predicate IsSelected(sel: Selection, id: string) {
    id in sel && sel[id]
  }

  /** `allSelected`: something is visible and every visible row is checked. */
  predicate AllSelected(sel: Selection, visible: seq<string>) {
    |visible| > 0 && forall i :: 0 <= i < |visible| ==> IsSelected(sel, visible[i])
  }

  /** `partiallySelected`: some visible row is checked but not all. */
  predicate PartiallySelected(sel: Selection, visible: seq<string>) {
    (exists i :: 0 <= i < |visible| && IsSelected(sel, visible[i])) && !AllSelected(sel, visible)
  }

  /** `toggleRow`. */
  function ToggleRow(sel: Selection, id: string, next: bool): (r: Selection)
    ensures IsSelected(r, id) == next
    ensures forall k :: k != id ==> (k in r <==> k in sel) && (k in sel ==> r[k] == sel[k])
  {
    sel[id := next]
  }

  /** `toggleAll`: checking marks every visible id, unchecking deletes
      exactly the visible ids; other entries are untouched. */
  function ToggleAll(sel: Selection, visible: seq<string>, next: bool): (r: Selection)
    ensures next ==> forall i :: 0 <= i < |visible| ==> visible[i] in r && r[visible[i]]
    ensures !next ==> forall i :: 0 <= i < |visible| ==> visible[i] !in r
    ensures forall k :: k !in visible ==> (k in r <==> k in sel) && (k in sel ==> r[k] == sel[k])
  {
    var ids := set i | 0 <= i < |visible| :: visible[i];
    if next then map k | k in sel.Keys + ids :: if k in ids then true else sel[k]
    else map k | k in sel.Keys - ids :: sel[k]
  }

  /** The two header states never hold together, and an empty view is
      never all selected. */
  lemma SelectionStatesExclusive(sel: Selection, visible: seq<string>)
    ensures !(AllSelected(sel, visible) && PartiallySelected(sel, visible))
    ensures |visible| == 0 ==> !AllSelected(sel, visible) && !PartiallySelected(sel, visible)
  {
  }

  /** Checking the header selects the whole non-empty view; unchecking
      clears it. */
  lemma ToggleAllThenHeader(sel: Selection, visible: seq<string>)
    ensures |visible| > 0 ==> AllSelected(ToggleAll(sel, visible, true), visible)
    ensures !AllSelected(ToggleAll(sel, visible, false), visible)
    ensures !PartiallySelected(ToggleAll(sel, visible, false), visible)
  {
    var r := ToggleAll(sel, visible, false);
    if |visible| > 0 {
      assert !IsSelected(r, visible[0]);
    }
    assert forall i :: 0 <= i < |visible| ==> !IsSelected(r, visible[i]);
  }

  /** The header state depends only on which ids are visible, not on their
      order, so the display sort does not affect it. */
  lemma HeaderIgnoresOrder(sel: Selection, v1: seq<string>, v2: seq<string>)
    requires forall x :: x in v1 <==> x in v2
    ensures AllSelected(sel, v1) == AllSelected(sel, v2)
    ensures PartiallySelected(sel, v1) == PartiallySelected(sel, v2)
  {
    EverySelectedTransfers(sel, v1, v2);
    EverySelectedTransfers(sel, v2, v1);
    SomeSelectedTransfers(sel, v1, v2);
    SomeSelectedTransfers(sel, v2, v1);
  }

  lemma EverySelectedTransfers(sel: Selection, v1: seq<string>, v2: seq<string>)
    requires forall x :: x in v1 <==> x in v2
    ensures AllSelected(sel, v1) ==> AllSelected(sel, v2)
  {
    if AllSelected(sel, v1) {
      assert v1[0] in v2;
      forall j | 0 <= j < |v2| ensures IsSelected(sel, v2[j]) {
        assert v2[j] in v1;
        var i :| 0 <= i < |v1| && v1[i] == v2[j];
      }
    }
  }

  lemma SomeSelectedTransfers(sel: Selection, v1: seq<string>, v2: seq<string>)
    requires forall x :: x in v1 <==> x in v2
    ensures (exists i :: 0 <= i < |v1| && IsSelected(sel, v1[i])) ==> (exists j :: 0 <= j < |v2| && IsSelected(sel, v2[j]))
  {
    if exists i :: 0 <= i < |v1| && IsSelected(sel, v1[i]) {
      var i :| 0 <= i < |v1| && IsSelected(sel, v1[i]);
      assert v1[i] in v2;
      var j :| 0 <= j < |v2| && v2[j] == v1[i];
      assert IsSelected(sel, v2[j]);
    }
  }
}

=== FILE: driver_stacks.dfy ===
/** `computeDriverStacks` (src/features/viz/Sentiment.ts): per-driver
    sentiment counts and rounded percentages over an already parsed CSV
    matrix whose first row is a header, column 1 the score and columns 2-4
    driver labels. */
module DriverStacks {
  import opened Wrappers
  import opened Text
  import opened JsNumber
  import opened SentimentBasics
  import opened Tallies
  import Counting
  import StableSort

  const ScoreColumn: nat := 1

  /** `row[i] ?? ''`. */
  function CellAt(row: seq<string>, i: nat): string {
    if i < |row| then row[i] else ""
  }

  /** The score of a data row, or None when the row is skipped: an empty
      or missing score cell, or one that `Number` (after the first ',' became
      '.') does not read as a finite number. A cell of blanks is not empty
      and `Number` reads it as 0, so it scores as a detractor. */
  function RowScore(row: seq<string>): (r: Option<real>)
    ensures CellAt(row, ScoreColumn) == "" ==> r.None?
    ensures r.Some? ==> CellAt(row, ScoreColumn) != ""
    ensures CellAt(row, ScoreColumn) != "" && AllWhitespace(CellAt(row, ScoreColumn)) ==> r == Some(0.0)
  {
    var raw := CellAt(row, ScoreColumn);
    if raw == "" then None
    else
      BlankHasNoComma(raw);
      match ToNumber(ReplaceFirst(raw, ',', '.'))
      case Finite(v) => Some(v)
      case _ => None
  }

  lemma BlankHasNoComma(s: string)
    ensures AllWhitespace(s) ==> ',' !in s
  {
    forall i | 0 <= i < |s| ensures AllWhitespace(s) ==> s[i] != ',' {
      assert AllWhitespace(s) ==> IsWhitespace(s[i]);
    }
  }

  /** A non-blank score cell without a digit is not a finite number, so
      the row is skipped. */
  lemma RowScoreWithoutDigits(row: seq<string>)
    requires !AllWhitespace(CellAt(row, ScoreColumn))
    requires forall i :: 0 <= i < |CellAt(row, ScoreColumn)| ==> !IsDigit(CellAt(row, ScoreColumn)[i])
    ensures RowScore(row).None?
  {
    var raw := CellAt(row, ScoreColumn);
    var t := ReplaceFirst(raw, ',', '.');
    ReplaceFirstChars(raw, ',', '.');
    assert forall j :: 0 <= j < |t| ==> !IsDigit(t[j]);
    ToNumberWithoutDigits(t);
  }

  /** `Number("Infinity")` is not finite: such a row is skipped. */
  lemma RowScoreOfInfinity(row: seq<string>)
    requires CellAt(row, ScoreColumn) == "Infinity" || CellAt(row, ScoreColumn) == "-Infinity"
    ensures RowScore(row).None?
  {
    var c := CellAt(row, ScoreColumn);
    assert "Infinity" == ['I', 'n', 'f', 'i', 'n', 'i', 't', 'y'];
    assert "-Infinity" == ['-', 'I', 'n', 'f', 'i', 'n', 'i', 't', 'y'];
    assert !IsWhitespace(c[0]);
    RowScoreWithoutDigits(row);
  }

  /** A score cell of plain digits scores their value. */
  lemma RowScoreOfDigits(row: seq<string>, d: string)
    requires CellAt(row, ScoreColumn) == d && |d| > 0 && AllDigits(d)
    ensures RowScore(row) == Some(DigitsValue(d) as real)
  {
    assert ',' !in d by {
      forall i | 0 <= i < |d| ensures d[i] != ',' {
        assert IsDigit(d[i]);
      }
    }
    ToNumberOfDigits(d);
  }

  /** A decimal comma is read as a decimal point: "3,5" scores 3.5. */
  lemma RowScoreOfDecimalComma(row: seq<string>, a: string, b: string)
    requires |a| > 0 && AllDigits(a) && |b| > 0 && AllDigits(b)
    requires CellAt(row, ScoreColumn) == a + [','] + b
    ensures AllDigits(a + b)
    ensures RowScore(row) == Some(DigitsValue(a + b) as real / Pow10(|b|) as real)
  {
    DecimalCommaValue(a, b);
  }

  /** One accepted driver cell counts once, in its row's class. */
  function CellObservation(cell: string, cls: SentimentClass): (r: seq<Item>)
    ensures |r| <= 1
    ensures |r| == 1 <==> CleanDriverName(cell).Some?
    ensures |r| == 1 ==> r[0] == Item(CleanDriverName(cell).value, Some(cls), 1)
    ensures Units(r)
  {
    match CleanDriverName(cell)
    case None => []
    case Some(name) => [Item(name, Some(cls), 1)]
  }

  /** 1 when `cell` cleans to the driver name `x`, else 0. */
  function Hit(cell: string, x: string): nat {
    if CleanDriverName(cell) == Some(x) then 1 else 0
  }

  /** How many of the driver columns 2, 3 and 4 of `row` name driver `x`. */
  function Hits(row: seq<string>, x: string): nat {
    Hit(CellAt(row, 2), x) + Hit(CellAt(row, 3), x) + Hit(CellAt(row, 4), x)
  }

  /** The accepted cells of one data row, columns 2, 3 and 4 in order; a
      skipped row contributes nothing. A scored row counts each driver once
      per column naming it, every unit in the row's class. */
  function RowObservations(row: seq<string>): (r: seq<Item>)
    ensures RowScore(row).None? ==> r == []
    ensures RowScore(row).Some? ==> forall x :: Total(r, x) == Hits(row, x)
    ensures RowScore(row).Some? ==> forall i :: 0 <= i < |r| ==>
              r[i].bucket == Some(InlineClassification(RowScore(row).value))
    ensures |r| <= 3
    ensures Units(r)
  {
    match RowScore(row)
    case None => []
    case Some(score) =>
      var cls := InlineClassification(score);
      var a := CellObservation(CellAt(row, 2), cls);
      var b := CellObservation(CellAt(row, 3), cls);
      var c := CellObservation(CellAt(row, 4), cls);
      UnitsAppend(a, b);
      UnitsAppend(a + b, c);
      CellsTotalAll(CellAt(row, 2), CellAt(row, 3), CellAt(row, 4), cls);
      SameClass(a, b, c, cls);
      a + b + c
  }

  /** The observations of three cells count each name once per cell
      naming it. */
  lemma CellsTotalAll(c2: string, c3: string, c4: string, cls: SentimentClass)
    ensures forall x :: Total(CellObservation(c2, cls) + CellObservation(c3, cls) + CellObservation(c4, cls), x)
                        == Hit(c2, x) + Hit(c3, x) + Hit(c4, x)
  {
    forall x
      ensures Total(CellObservation(c2, cls) + CellObservation(c3, cls) + CellObservation(c4, cls), x)
              == Hit(c2, x) + Hit(c3, x) + Hit(c4, x)
    {
      CellsTotal(c2, c3, c4, cls, x);
    }
  }

  lemma CellsTotal(c2: string, c3: string, c4: string, cls: SentimentClass, x: string)
    ensures Total(CellObservation(c2, cls) + CellObservation(c3, cls) + CellObservation(c4, cls), x)
            == Hit(c2, x) + Hit(c3, x) + Hit(c4, x)
  {
    var a, b, c := CellObservation(c2, cls), CellObservation(c3, cls), CellObservation(c4, cls);
    CellTotal(c2, cls, x);
    CellTotal(c3, cls, x);
    CellTotal(c4, cls, x);
    TotalAppend(a, b, x);
    TotalAppend(a + b, c, x);
  }

  lemma SameClass(a: seq<Item>, b: seq<Item>, c: seq<Item>, cls: SentimentClass)
    requires forall i :: 0 <= i < |a| ==> a[i].bucket == Some(cls)
    requires forall i :: 0 <= i < |b| ==> b[i].bucket == Some(cls)
    requires forall i :: 0 <= i < |c| ==> c[i].bucket == Some(cls)
    ensures forall i :: 0 <= i < |a + b + c| ==> (a + b + c)[i].bucket == Some(cls)
  {
    forall i | 0 <= i < |a + b + c| ensures (a + b + c)[i].bucket == Some(cls) {
      if i < |a| {
        assert (a + b + c)[i] == a[i];
      } else if i < |a| + |b| {
        assert (a + b + c)[i] == b[i - |a|];
      } else {
        assert (a + b + c)[i] == c[i - |a| - |b|];
      }
    }
  }

  lemma CellTotal(cell: string, cls: SentimentClass, x: string)
    ensures Total(CellObservation(cell, cls), x) == Hit(cell, x)
  {
    match CleanDriverName(cell)
    case None =>
    case Some(name) =>
      TotalSingle(Item(name, Some(cls), 1), x);
  }

  lemma UnitsAppend(a: seq<Item>, b: seq<Item>)
    requires Units(a) && Units(b)
    ensures Units(a + b)
  {
    forall i | 0 <= i < |a + b| ensures (a + b)[i].bucket.Some? && (a + b)[i].amount == 1 {
      if i >= |a| {
        assert (a + b)[i] == b[i - |a|];
      }
    }
  }

  /** Every observation is one recognised unit. */
  ghost predicate Units(obs: seq<Item>) {
    forall i :: 0 <= i < |obs| ==> obs[i].bucket.Some? && obs[i].amount == 1
  }

  /** Every accepted cell of the data rows, in reading order. */
  function Observations(data: seq<seq<string>>): (r: seq<Item>)
    ensures Units(r)
  {
    if |data| == 0 then []
    else
      var init := Observations(data[..|data| - 1]);
      var last := RowObservations(data[|data| - 1]);
      UnitsAppend(init, last);
      init + last
  }

  /** The accepted cells of a whole matrix: its first row is a header. */
  function MatrixObservations(rows: seq<seq<string>>): (r: seq<Item>)
    ensures Units(r)
  {
    if |rows| == 0 then [] else Observations(rows[1..])
  }

  /** The names an object literal already answers through its prototype:
      `acc[name]` is truthy for them before any entry is created. */
  const PrototypeNames: set<string> :=
    {"constructor", "__defineGetter__", "__defineSetter__", "hasOwnProperty",
     "__lookupGetter__", "__lookupSetter__", "isPrototypeOf", "propertyIsEnumerable",
     "toString", "valueOf", "__proto__", "toLocaleString"}

  /** The accumulation loop as written: `acc` is a plain object, so a name
      that is a prototype member never gets an entry of its own and is lost.
      The corrected loop is `Tallies.Accumulate`. */
  function AccumulateAsWritten(obs: seq<Item>): (r: seq<Tally>)
    ensures |r| <= |obs|
  {
    if |obs| == 0 then []
    else
      var o := obs[|obs| - 1];
      var acc := AccumulateAsWritten(obs[..|obs| - 1]);
      if o.name in PrototypeNames then acc else Record(acc, o)
  }

  function Tabulate(obs: seq<Item>, asWritten: bool): seq<Tally> {
    if asWritten then AccumulateAsWritten(obs) else Accumulate(obs)
  }

  // ---------------------------------------------------------------------
  // Percentages and output entries.

  /** One driver's output record: name, absolute counts and percentages. */
  datatype DriverEntry = DriverEntry(name: string, total: nat, detrAbs: nat, neutAbs: nat, promAbs: nat, pct: Triple)

  /** `(c / t) * 100` with exact arithmetic. */
  function Percent(c: nat, t: nat): real
    requires t > 0
  {
    (c as real / t as real) * 100.0
  }

  /** The percentages of one driver, largest-remainder rounded, with
      `Math.max(1, total)` as the divisor. */
  function ToEntry(t: Tally): (e: DriverEntry)
    ensures e.name == t.name && e.total == t.total
    ensures e.detrAbs == t.detr && e.neutAbs == t.neut && e.promAbs == t.prom
    ensures t.total > 0 && t.detr + t.neut + t.prom == t.total ==> e.pct.Sum() == 100
    ensures var tt := if t.total > 1 then t.total else 1;
            && (e.pct.d == (100 * t.detr) / tt || e.pct.d == (100 * t.detr) / tt + 1)
            && (e.pct.n == (100 * t.neut) / tt || e.pct.n == (100 * t.neut) / tt + 1)
            && (e.pct.p == (100 * t.prom) / tt || e.pct.p == (100 * t.prom) / tt + 1)
  {
    var tt := if t.total > 1 then t.total else 1;
    PercentsSumToHundred(t.detr, t.neut, t.prom, tt);
    PercentFloor(t.detr, tt);
    PercentFloor(t.neut, tt);
    PercentFloor(t.prom, tt);
    DriverEntry(t.name, t.total, t.detr, t.neut, t.prom,
                RoundRowTo100(Percent(t.detr, tt), Percent(t.neut, tt), Percent(t.prom, tt)))
  }

  lemma PercentsSumToHundred(d: nat, n: nat, p: nat, t: nat)
    requires t > 0
    ensures d + n + p == t ==> Percent(d, t) + Percent(n, t) + Percent(p, t) == 100.0
  {
    var tr := t as real;
    assert Percent(d, t) + Percent(n, t) + Percent(p, t) == ((d + n + p) as real / tr) * 100.0;
  }

  /** The floor of a percentage is an integer division and its fractional
      part is the remainder over the total, so no floating point is needed. */
  lemma PercentFloor(c: nat, t: nat)
    requires t > 0
    ensures Percent(c, t).Floor == (100 * c) / t
    ensures Frac(Percent(c, t)) == ((100 * c) % t) as real / t as real
  {
    var q, m := (100 * c) / t, (100 * c) % t;
    assert 100 * c == q * t + m;
    var tr := t as real;
    assert Percent(c, t) == (100 * c) as real / tr;
    assert (100 * c) as real / tr == q as real + m as real / tr by {
      assert (100 * c) as real == q as real * tr + m as real;
    }
    assert 0.0 <= m as real / tr < 1.0;
  }

  function DetrKey(e: DriverEntry): int {
    e.pct.d
  }

  function EntryName(e: DriverEntry): string {
    e.name
  }

  function ToEntries(acc: seq<Tally>): (r: seq<DriverEntry>)
    ensures |r| == |acc|
    ensures forall i :: 0 <= i < |acc| ==> r[i] == ToEntry(acc[i])
  {
    seq(|acc|, i requires 0 <= i < |acc| => ToEntry(acc[i]))
  }

  /** The entries before sorting, in first-appearance order. */
  function UnsortedEntries(rows: seq<seq<string>>, asWritten: bool): seq<DriverEntry> {
    ToEntries(Tabulate(MatrixObservations(rows), asWritten))
  }

  /** `entries` after `entries.sort((u, v) => v.detrPct - u.detrPct)`. */
  function SortedEntries(rows: seq<seq<string>>, asWritten: bool): seq<DriverEntry> {
    StableSort.Sort(UnsortedEntries(rows, asWritten), DetrKey)
  }

  function EntryNames(es: seq<DriverEntry>): seq<string> {
    Counting.MapSeq(es, (e: DriverEntry) => e.name)
  }

  /** What the entry for driver `e.name` must hold after `obs`. */
  ghost predicate GoodEntry(obs: seq<Item>, e: DriverEntry) {
    && e.total == Total(obs, e.name)
    && e.detrAbs == BucketTotal(obs, e.name, Detractor)
    && e.neutAbs == BucketTotal(obs, e.name, Neutro)
    && e.promAbs == BucketTotal(obs, e.name, Promotor)
    && e.detrAbs + e.neutAbs + e.promAbs == e.total
    && e.total >= 1
    && e.pct.Sum() == 100
  }

  /** The per-driver results of the corrected accumulation (see
      DriverEntriesCorrect). */
  function DriverEntries(rows: seq<seq<string>>): (r: seq<DriverEntry>)
    ensures |rows| <= 1 ==> r == []
    ensures forall i :: 0 <= i < |r| ==> GoodEntry(MatrixObservations(rows), r[i])
    ensures StableSort.SortedDesc(r, DetrKey)
  {
    DriverEntriesCorrect(rows);
    SortedEntries(rows, false)
  }

  /** One entry per distinct driver, with its exact counts and percentages
      summing to 100, ordered by detractor percentage with ties kept in
      order of first appearance. */
  lemma DriverEntriesCorrect(rows: seq<seq<string>>)
    ensures forall i, j :: 0 <= i < j < |SortedEntries(rows, false)| ==>
              SortedEntries(rows, false)[i].name != SortedEntries(rows, false)[j].name
    ensures forall x :: x in EntryNames(SortedEntries(rows, false)) <==> x in ItemNames(MatrixObservations(rows))
    ensures forall i :: 0 <= i < |SortedEntries(rows, false)| ==>
              GoodEntry(MatrixObservations(rows), SortedEntries(rows, false)[i])
    ensures StableSort.SortedDesc(SortedEntries(rows, false), DetrKey)
    ensures forall k :: StableSort.KeyFilter(SortedEntries(rows, false), DetrKey, k)
                        == StableSort.KeyFilter(UnsortedEntries(rows, false), DetrKey, k)
    ensures EntryNames(UnsortedEntries(rows, false)) == Counting.FirstAppearance(ItemNames(MatrixObservations(rows)))
  {
    var obs := MatrixObservations(rows);
    var unsorted := UnsortedEntries(rows, false);
    UnsortedEntriesCorrect(rows);
    SortedFacts(obs, unsorted, SortedEntries(rows, false));
  }

  /** Before sorting: one entry per distinct driver in order of first
      appearance, each with its exact counts. */
  lemma UnsortedEntriesCorrect(rows: seq<seq<string>>)
    ensures forall i :: 0 <= i < |UnsortedEntries(rows, false)| ==>
              GoodEntry(MatrixObservations(rows), UnsortedEntries(rows, false)[i])
    ensures forall i, j :: 0 <= i < j < |UnsortedEntries(rows, false)| ==>
              EntryName(UnsortedEntries(rows, false)[i]) != EntryName(UnsortedEntries(rows, false)[j])
    ensures forall x :: x in EntryNames(UnsortedEntries(rows, false)) <==> x in ItemNames(MatrixObservations(rows))
    ensures EntryNames(UnsortedEntries(rows, false)) == Counting.FirstAppearance(ItemNames(MatrixObservations(rows)))
  {
    var obs := MatrixObservations(rows);
    var acc := Accumulate(obs);
    var unsorted := UnsortedEntries(rows, false);
    AccumulateNames(obs);
    assert EntryNames(unsorted) == Names(acc);
    EntriesFacts(obs, acc, unsorted);
  }

  lemma SortedFacts(obs: seq<Item>, es: seq<DriverEntry>, r: seq<DriverEntry>)
    requires forall i :: 0 <= i < |es| ==> GoodEntry(obs, es[i])
    requires forall i, j :: 0 <= i < j < |es| ==> EntryName(es[i]) != EntryName(es[j])
    requires r == StableSort.Sort(es, DetrKey)
    ensures forall i, j :: 0 <= i < j < |r| ==> r[i].name != r[j].name
    ensures forall x :: x in EntryNames(r) <==> x in EntryNames(es)
    ensures forall i :: 0 <= i < |r| ==> GoodEntry(obs, r[i])
  {
    StableSort.PermutationSameElements(es, r);
    StableSort.PermutationKeepsDistinct(es, r, EntryName);
    NamesOfSameElements(es, r);
    forall i | 0 <= i < |r| ensures GoodEntry(obs, r[i]) {
      assert r[i] in r;
    }
  }

  lemma EntriesFacts(obs: seq<Item>, acc: seq<Tally>, es: seq<DriverEntry>)
    requires Units(obs)
    requires acc == Accumulate(obs) && es == ToEntries(acc)
    ensures forall i :: 0 <= i < |es| ==> GoodEntry(obs, es[i])
  {
    AccumulateCounts(obs);
    AccumulateNames(obs);
    forall i | 0 <= i < |es|
      ensures GoodEntry(obs, es[i])
    {
      var x := acc[i].name;
      assert acc[i] in acc;
      assert x in ItemNames(obs) by {
        assert Names(acc)[i] == x;
      }
      BucketsMakeTotal(obs, x);
      NoUnknown(obs, x);
      TotalPositive(obs, x);
    }
  }

  lemma NamesOfSameElements(es: seq<DriverEntry>, r: seq<DriverEntry>)
    requires forall e :: e in r <==> e in es
    ensures forall x :: x in EntryNames(r) <==> x in EntryNames(es)
  {
    forall x ensures x in EntryNames(r) ==> x in EntryNames(es) {
      if x in EntryNames(r) {
        var i :| 0 <= i < |r| && EntryNames(r)[i] == x;
        assert r[i] in r;
        var j :| 0 <= j < |es| && es[j] == r[i];
        assert EntryNames(es)[j] == x;
      }
    }
    forall x ensures x in EntryNames(es) ==> x in EntryNames(r) {
      if x in EntryNames(es) {
        var i :| 0 <= i < |es| && EntryNames(es)[i] == x;
        assert es[i] in es;
        var j :| 0 <= j < |r| && r[j] == es[i];
        assert EntryNames(r)[j] == x;
      }
    }
  }

  // ---------------------------------------------------------------------
  // The eight output arrays.

  /** The chart-ready result: eight parallel arrays. */
  datatype Stacks = Stacks(
    labels: seq<string>,
    detractorPct: seq<int>, neutralPct: seq<int>, promotorPct: seq<int>,
    detractorAbs: seq<nat>, neutralAbs: seq<nat>, promotorAbs: seq<nat>,
    totals: seq<nat>)
  {
    predicate Parallel(n: nat) {
      && |labels| == n && |detractorPct| == n && |neutralPct| == n && |promotorPct| == n
      && |detractorAbs| == n && |neutralAbs| == n && |promotorAbs| == n && |totals| == n
    }
  }

  /** The axis label of one driver: its name and sample size. */
  function Label(e: DriverEntry): (l: string)
    ensures |l| > |e.name| + 5 && l[..|e.name|] == e.name && l[|l| - 1] == ')'
  {
    e.name + " (n=" + NatToString(e.total) + ")"
  }

  /** The count inside a label reads back as the driver's total. */
  lemma LabelCarriesTotal(e: DriverEntry)
    ensures |Label(e)| >= |e.name| + 5
    ensures Label(e)[|e.name|..|e.name| + 4] == " (n="
    ensures ToNumber(Label(e)[|e.name| + 4..|Label(e)| - 1]) == Finite(e.total as real)
  {
    var sep: string := " (n=";
    assert |sep| == 4;
    ConcatSlices(e.name, sep, NatToString(e.total), ")");
    NatToStringRoundTrip(e.total);
  }

  lemma ConcatSlices(a: string, b: string, c: string, d: string)
    requires |d| == 1
    ensures var l := a + b + c + d;
            && |l| == |a| + |b| + |c| + 1
            && l[|a|..|a| + |b|] == b
            && l[|a| + |b|..|l| - 1] == c
  {
    var l := a + b + c + d;
    assert l[|a|..|a| + |b|] == b;
    assert l[|a| + |b|..|l| - 1] == c;
  }

  /** Position `i` of the chart arrays shows entry `e`: its label
      `name (n=total)`, its three counts, its total and its percentages. */
  predicate ShowsAt(r: Stacks, i: int, e: DriverEntry) {
    && r.Parallel(|r.labels|) && 0 <= i < |r.labels|
    && r.labels[i] == Label(e)
    && r.detractorPct[i] == e.pct.d && r.neutralPct[i] == e.pct.n && r.promotorPct[i] == e.pct.p
    && r.detractorAbs[i] == e.detrAbs && r.neutralAbs[i] == e.neutAbs
    && r.promotorAbs[i] == e.promAbs && r.totals[i] == e.total
  }

  /** The chart arrays built from the entries, one position per entry. */
  function StacksOf(es: seq<DriverEntry>): (r: Stacks)
    ensures r.Parallel(|es|)
    ensures forall i :: 0 <= i < |es| ==> ShowsAt(r, i, es[i])
  {
    Stacks(
      seq(|es|, i requires 0 <= i < |es| => Label(es[i])),
      seq(|es|, i requires 0 <= i < |es| => es[i].pct.d),
      seq(|es|, i requires 0 <= i < |es| => es[i].pct.n),
      seq(|es|, i requires 0 <= i < |es| => es[i].pct.p),
      seq(|es|, i requires 0 <= i < |es| => es[i].detrAbs),
      seq(|es|, i requires 0 <= i < |es| => es[i].neutAbs),
      seq(|es|, i requires 0 <= i < |es| => es[i].promAbs),
      seq(|es|, i requires 0 <= i < |es| => es[i].total))
  }

  /** What every position of the chart arrays satisfies: the three counts
      add up to a positive total, the three percentages add up to 100, and
      the detractor percentages never increase. */
  predicate GoodStacks(r: Stacks) {
    && (forall i :: 0 <= i < |r.labels| && i < |r.detractorAbs| && i < |r.neutralAbs|
                    && i < |r.promotorAbs| && i < |r.totals| && i < |r.detractorPct|
                    && i < |r.neutralPct| && i < |r.promotorPct| ==>
          && r.detractorAbs[i] + r.neutralAbs[i] + r.promotorAbs[i] == r.totals[i]
          && r.totals[i] >= 1
          && r.detractorPct[i] + r.neutralPct[i] + r.promotorPct[i] == 100)
    && (forall i, j :: 0 <= i < j < |r.labels| && j < |r.detractorPct| ==>
          r.detractorPct[i] >= r.detractorPct[j])
  }

  /** `computeDriverStacks` with every driver name counted. */
  function ComputeDriverStacks(rows: seq<seq<string>>): (r: Stacks)
    ensures r.Parallel(|DriverEntries(rows)|)
    ensures |rows| <= 1 ==> r.Parallel(0)
    ensures GoodStacks(r)
    ensures forall i :: 0 <= i < |DriverEntries(rows)| ==>
              && ShowsAt(r, i, DriverEntries(rows)[i])
              && GoodEntry(MatrixObservations(rows), DriverEntries(rows)[i])
    ensures forall x :: x in EntryNames(DriverEntries(rows)) <==> x in ItemNames(MatrixObservations(rows))
  {
    ComputeDriverStacksFacts(rows);
    DriverEntriesCorrect(rows);
    StacksOf(DriverEntries(rows))
  }

  lemma ComputeDriverStacksFacts(rows: seq<seq<string>>)
    ensures StacksOf(DriverEntries(rows)).Parallel(|DriverEntries(rows)|)
    ensures |rows| <= 1 ==> StacksOf(DriverEntries(rows)).Parallel(0)
    ensures GoodStacks(StacksOf(DriverEntries(rows)))
  {
    StacksOfFacts(MatrixObservations(rows), DriverEntries(rows));
  }

  lemma StacksOfFacts(obs: seq<Item>, es: seq<DriverEntry>)
    requires forall i :: 0 <= i < |es| ==> GoodEntry(obs, es[i])
    requires StableSort.SortedDesc(es, DetrKey)
    ensures GoodStacks(StacksOf(es))
  {
    var r := StacksOf(es);
    forall i | 0 <= i < |r.labels|
      ensures && r.detractorAbs[i] + r.neutralAbs[i] + r.promotorAbs[i] == r.totals[i]
              && r.totals[i] >= 1
              && r.detractorPct[i] + r.neutralPct[i] + r.promotorPct[i] == 100
    {
      assert GoodEntry(obs, es[i]);
    }
    forall i, j | 0 <= i < j < |r.labels| ensures r.detractorPct[i] >= r.detractorPct[j] {
      assert DetrKey(es[i]) >= DetrKey(es[j]);
    }
  }

  /** `computeDriverStacks` exactly as written: names that are members of
      the prototype of a plain object are lost (AsWrittenEntriesCorrect),
      but the chart arrays keep every invariant of the corrected version. */
  function ComputeDriverStacksAsWritten(rows: seq<seq<string>>): (r: Stacks)
    ensures r.Parallel(|SortedEntries(rows, true)|)
    ensures |rows| <= 1 ==> r.Parallel(0)
    ensures GoodStacks(r)
    ensures forall i :: 0 <= i < |SortedEntries(rows, true)| ==>
              && ShowsAt(r, i, SortedEntries(rows, true)[i])
              && GoodEntry(MatrixObservations(rows), SortedEntries(rows, true)[i])
    ensures forall x :: x in EntryNames(SortedEntries(rows, true)) <==>
              x in ItemNames(MatrixObservations(rows)) && x !in PrototypeNames
  {
    AsWrittenEntriesCorrect(rows);
    StacksOfFacts(MatrixObservations(rows), SortedEntries(rows, true));
    StacksOf(SortedEntries(rows, true))
  }

  /** As written, every driver that is reported has its exact counts and
      percentages, the order is the corrected one, and the drivers reported
      are exactly the accepted names that are not prototype members. */
  lemma AsWrittenEntriesCorrect(rows: seq<seq<string>>)
    ensures forall i :: 0 <= i < |SortedEntries(rows, true)| ==>
              GoodEntry(MatrixObservations(rows), SortedEntries(rows, true)[i])
    ensures forall x :: x in EntryNames(SortedEntries(rows, true)) <==>
              x in ItemNames(MatrixObservations(rows)) && x !in PrototypeNames
    ensures StableSort.SortedDesc(SortedEntries(rows, true), DetrKey)
  {
    var obs := MatrixObservations(rows);
    var w := WithoutPrototypeNames(obs);
    AsWrittenDropsPrototypeNames(obs);
    WithoutKeepsUnits(obs);
    var acc := Accumulate(w);
    var unsorted := UnsortedEntries(rows, true);
    var sorted := SortedEntries(rows, true);
    assert unsorted == ToEntries(acc);
    AccumulateNames(w);
    assert EntryNames(unsorted) == Names(acc);
    EntriesFacts(w, acc, unsorted);
    SortedFacts(w, unsorted, sorted);
    WithoutNames(obs);
    forall i | 0 <= i < |sorted| ensures GoodEntry(obs, sorted[i]) {
      var x := sorted[i].name;
      assert EntryNames(sorted)[i] == x;
      SameCountsWithout(obs, x);
    }
  }

  lemma WithoutKeepsUnits(obs: seq<Item>)
    requires Units(obs)
    ensures Units(WithoutPrototypeNames(obs))
  {
    var w := WithoutPrototypeNames(obs);
    forall i | 0 <= i < |w| ensures w[i].bucket.Some? && w[i].amount == 1 {
      assert w[i] in w;
      var j :| 0 <= j < |obs| && obs[j] == w[i];
    }
  }

  /** The names left are the names that are not prototype members. */
  lemma WithoutNames(obs: seq<Item>)
    ensures forall x :: x in ItemNames(WithoutPrototypeNames(obs)) <==>
              x in ItemNames(obs) && x !in PrototypeNames
  {
    var w := WithoutPrototypeNames(obs);
    forall x ensures x in ItemNames(w) <==> x in ItemNames(obs) && x !in PrototypeNames {
      if x in ItemNames(w) {
        var i :| 0 <= i < |w| && ItemNames(w)[i] == x;
        assert w[i] in w;
        var j :| 0 <= j < |obs| && obs[j] == w[i];
        assert ItemNames(obs)[j] == x;
      }
      if x in ItemNames(obs) && x !in PrototypeNames {
        var j :| 0 <= j < |obs| && ItemNames(obs)[j] == x;
        assert obs[j] in obs;
        var i :| 0 <= i < |w| && w[i] == obs[j];
        assert ItemNames(w)[i] == x;
      }
    }
  }

  /** Dropping the prototype names leaves every other name's sums alone. */
  lemma {:induction false} SameCountsWithout(obs: seq<Item>, x: string)
    requires x !in PrototypeNames
    ensures Total(WithoutPrototypeNames(obs), x) == Total(obs, x)
    ensures BucketTotal(WithoutPrototypeNames(obs), x, Detractor) == BucketTotal(obs, x, Detractor)
    ensures BucketTotal(WithoutPrototypeNames(obs), x, Neutro) == BucketTotal(obs, x, Neutro)
    ensures BucketTotal(WithoutPrototypeNames(obs), x, Promotor) == BucketTotal(obs, x, Promotor)
    decreases |obs|
  {
    if |obs| > 0 {
      var init := obs[..|obs| - 1];
      var o := obs[|obs| - 1];
      var w := WithoutPrototypeNames(init);
      SameCountsWithout(init, x);
      if o.name !in PrototypeNames {
        assert (w + [o])[..|w + [o]| - 1] == w;
      }
    }
  }

  // ---------------------------------------------------------------------
  // Header row, duplicate columns and the prototype-name finding.

  /** The first row never contributes, whatever it holds. */
  lemma HeaderIgnored(h1: seq<string>, h2: seq<string>, data: seq<seq<string>>)
    ensures ComputeDriverStacks([h1] + data) == ComputeDriverStacks([h2] + data)
  {
    assert ([h1] + data)[1..] == data == ([h2] + data)[1..];
  }

  /** A driver written in two driver columns of one row is counted twice. */
  lemma SameDriverTwiceInRow(row: seq<string>, x: string)
    requires RowScore(row).Some?
    requires CleanDriverName(CellAt(row, 2)) == Some(x)
    requires CleanDriverName(CellAt(row, 3)) == Some(x)
    ensures Total(RowObservations(row), x) >= 2
  {
    var cls := InlineClassification(RowScore(row).value);
    var a := CellObservation(CellAt(row, 2), cls);
    var b := CellObservation(CellAt(row, 3), cls);
    var c := CellObservation(CellAt(row, 4), cls);
    assert RowObservations(row) == a + b + c;
    var one := Item(x, Some(cls), 1);
    assert a == [one] && b == [one];
    TotalSingle(one, x);
    TotalAppend(a, b, x);
    TotalAppend(a + b, c, x);
  }

  lemma TotalSingle(it: Item, x: string)
    ensures Total([it], x) == if it.name == x then it.amount else 0
  {
    assert [it][..0] == [];
  }

  /** The stream without the names the plain-object accumulator loses. */
  function WithoutPrototypeNames(obs: seq<Item>): (r: seq<Item>)
    ensures |r| <= |obs|
    ensures forall o :: o in r <==> o in obs && o.name !in PrototypeNames
  {
    if |obs| == 0 then []
    else
      var init := WithoutPrototypeNames(obs[..|obs| - 1]);
      var o := obs[|obs| - 1];
      assert forall q :: q in obs <==> q in obs[..|obs| - 1] || q == o;
      if o.name in PrototypeNames then init else init + [o]
  }

  /** As written, the accumulator is the corrected one run on the stream
      with the prototype names removed. */
  lemma {:induction false} AsWrittenDropsPrototypeNames(obs: seq<Item>)
    ensures AccumulateAsWritten(obs) == Accumulate(WithoutPrototypeNames(obs))
    decreases |obs|
  {
    if |obs| > 0 {
      var init := obs[..|obs| - 1];
      var o := obs[|obs| - 1];
      AsWrittenDropsPrototypeNames(init);
      if o.name !in PrototypeNames {
        var w := WithoutPrototypeNames(init);
        assert (w + [o])[..|w + [o]| - 1] == w;
      }
    }
  }

  /** A one-row matrix whose only driver is "constructor": the source
      reports no drivers at all, the corrected accumulation reports it. */
  lemma PrototypeNameCounterexample()
    ensures AccumulateAsWritten([Item("constructor", Some(Promotor), 1)]) == []
    ensures Accumulate([Item("constructor", Some(Promotor), 1)]) == [Tally("constructor", 0, 0, 1, 1)]
  {
    var obs := [Item("constructor", Some(Promotor), 1)];
    assert obs[..0] == [];
    assert "constructor" in PrototypeNames;
  }

  /** The counterexample row gets through the score and name filters. */
  lemma PrototypeNameRowAccepted()
    ensures RowObservations(["5", "5", "constructor"]) == [Item("constructor", Some(Promotor), 1)]
  {
    var row := ["5", "5", "constructor"];
    FiveScores();
    assert CellAt(row, ScoreColumn) == "5";
    assert RowScore(row) == Some(5.0);
    assert InlineClassification(5.0) == Promotor by {
      InlineClassificationAgrees(5.0);
    }
    CleanConstructor();
    OneCellRow(row, 5.0, Item("constructor", Some(Promotor), 1));
  }

  lemma OneCellRow(row: seq<string>, v: real, o: Item)
    requires RowScore(row) == Some(v)
    requires CellObservation(CellAt(row, 2), InlineClassification(v)) == [o]
    requires |row| <= 3
    ensures RowObservations(row) == [o]
  {
    assert CellAt(row, 3) == "" && CellAt(row, 4) == "";
    assert CleanDriverName("") == None by {
      assert Trim("") == "";
    }
  }

  lemma FiveScores()
    ensures ToNumber(ReplaceFirst("5", ',', '.')) == Finite(5.0)
  {
    assert ReplaceFirst("5", ',', '.') == "5";
    ToNumberOfDigits("5");
  }

  predicate LowerAsciiWord(s: string) {
    forall i :: 0 <= i < |s| ==> 'a' <= s[i] <= 'z'
  }

  /** A short lower-case ASCII word without noise is kept as it is. */
  lemma CleanLowerWord(s: string)
    requires 0 < |s| <= MaxDriverLength && LowerAsciiWord(s) && !HasNoise(s)
    ensures CleanDriverName(s) == Some(s)
  {
    assert !IsWhitespace(s[0]) && !IsWhitespace(s[|s| - 1]);
    assert Trim(s) == s;
    assert StripQuotes(s) == s;
    assert IsDriverLetter(s[0]);
  }

  lemma CleanConstructor()
    ensures CleanDriverName("constructor") == Some("constructor")
  {
    var s := "constructor";
    assert LowerAsciiWord(s);
    assert Lower(s) == s;
    MissingFirstChar(s, "http");
    MissingFirstChar(s, "@import");
    MissingFirstChar(s, "display=swap");
    CleanLowerWord(s);
  }
}

=== FILE: jsnumber.dfy ===
/** The two JavaScript string-to-number conversions the dashboard relies on:
    `Number(text)` (the StringToNumber algorithm) and `parseInt(text, 10)`.
    Values are exact rationals: binary64 rounding, overflow to Infinity and
    underflow to zero are not modelled. */
module JsNumber {
  import opened Wrappers
  import opened Text

  /** A JavaScript number value, with the value of a finite number kept
      exactly. */
  datatype Num = Finite(value: real) | Infinite(negative: bool) | NaN {
    predicate IsFinite() { Finite? }
  }

  /** Length of the run of decimal digits at the start of `s`. */
  function DigitRun(s: string): (n: nat)
    ensures n <= |s|
    ensures forall i :: 0 <= i < n ==> IsDigit(s[i])
    ensures n == |s| || !IsDigit(s[n])
  {
    if |s| > 0 && IsDigit(s[0]) then 1 + DigitRun(s[1..]) else 0
  }

  predicate AllDigits(s: string) {
    forall i :: 0 <= i < |s| ==> IsDigit(s[i])
  }

  /** The value of a string of decimal digits, most significant first. */
  function DigitsValue(d: string): nat
    requires AllDigits(d)
  {
    if |d| == 0 then 0
    else DigitsValue(d[..|d| - 1]) * 10 + (d[|d| - 1] as int - '0' as int)
  }

  function Pow10(n: nat): (r: nat)
    ensures r >= 1
  {
    if n == 0 then 1 else 10 * Pow10(n - 1)
  }

  /** Digit value of `c` in base 16, or 16 when `c` is not a hex digit. */
  function HexValue(c: char): (v: nat)
    ensures v <= 16
  {
    if '0' <= c <= '9' then c as int - '0' as int
    else if 'a' <= c <= 'f' then c as int - 'a' as int + 10
    else if 'A' <= c <= 'F' then c as int - 'A' as int + 10
    else 16
  }

  /** Value of `d` read in base `radix` (2, 8 or 16), when every character
      is a digit of that base. */
  function RadixValue(d: string, radix: nat): Option<nat>
    requires radix == 2 || radix == 8 || radix == 16
  {
    if |d| == 0 then Some(0)
    else
      var v := HexValue(d[|d| - 1]);
      if v >= radix then None
      else match RadixValue(d[..|d| - 1], radix)
        case None => None
        case Some(p) => Some(p * radix + v)
  }

  /** The NonDecimalIntegerLiteral forms `0x…`, `0o…`, `0b…` (no sign). */
  function ParseRadixLiteral(t: string): Option<nat> {
    if |t| < 3 || t[0] != '0' then None
    else if t[1] == 'x' || t[1] == 'X' then RadixValue(t[2..], 16)
    else if t[1] == 'o' || t[1] == 'O' then RadixValue(t[2..], 8)
    else if t[1] == 'b' || t[1] == 'B' then RadixValue(t[2..], 2)
    else None
  }

  /** Splits an optional leading sign off `t`: (is it '-', the rest). */
  function SplitSign(t: string): (r: (bool, string))
    ensures r.1 == t || (|t| > 0 && r.1 == t[1..] && (t[0] == '-' || t[0] == '+'))
    ensures r.0 <==> |t| > 0 && t[0] == '-'
    ensures |t| > 0 && t[0] != '-' && t[0] != '+' ==> r.1 == t
  {
    if |t| > 0 && (t[0] == '-' || t[0] == '+') then (t[0] == '-', t[1..]) else (false, t)
  }

  /** The optional exponent part `e[+|-]digits` of a decimal literal;
      Some(0) when `t` is empty. */
  function ParseExponent(t: string): (r: Option<int>)
    ensures t == [] ==> r == Some(0)
  {
    if |t| == 0 then Some(0)
    else if t[0] != 'e' && t[0] != 'E' then None
    else
      var (neg, digits) := SplitSign(t[1..]);
      if |digits| == 0 || !AllDigits(digits) then None
      else
        var v := DigitsValue(digits) as int;
        Some(if neg then -v else v)
  }

  /** The optional fraction `.digits` at the start of `rest`: the fraction
      digits and what follows them. */
  function SplitFraction(rest: string): (r: (string, string))
    ensures AllDigits(r.0)
    ensures rest == [] ==> r == ([], [])
  {
    if |rest| > 0 && rest[0] == '.' then
      var after := rest[1..];
      var n := DigitRun(after);
      (after[..n], after[n..])
    else ([], rest)
  }

  /** StrUnsignedDecimalLiteral without Infinity:
      `(digits [. [digits]] | . digits) [exponent]`. */
  function ParseUnsignedDecimal(body: string): Option<real> {
    var intLen := DigitRun(body);
    var ip := body[..intLen];
    var (fp, tail) := SplitFraction(body[intLen..]);
    if intLen + |fp| == 0 then None
    else match ParseExponent(tail)
      case None => None
      case Some(e) =>
        var mantissa := DigitsValue(ip + fp) as real / Pow10(|fp|) as real;
        Some(if e >= 0 then mantissa * Pow10(e) as real else mantissa / Pow10(-e) as real)
  }

  /** StrDecimalLiteral without the Infinity spellings. */
  function ParseDecimal(t: string): Option<real> {
    var (neg, body) := SplitSign(t);
    match ParseUnsignedDecimal(body)
    case None => None
    case Some(v) => Some(if neg then -v else v)
  }

  /** `Number(s)` for a string `s`. */
  function ToNumber(s: string): (r: Num)
    ensures AllWhitespace(s) ==> r == Finite(0.0)
  {
    var t := Trim(s);
    if t == "" then Finite(0.0)
    else if t == "Infinity" || t == "+Infinity" then Infinite(false)
    else if t == "-Infinity" then Infinite(true)
    else match ParseRadixLiteral(t)
      case Some(v) => Finite(v as real)
      case None =>
        match ParseDecimal(t)
        case Some(v) => Finite(v)
        case None => NaN
  }

  /** A text without a digit has no decimal value: a decimal literal needs
      a digit before or after its point. */
  lemma DecimalWithoutDigits(t: string)
    requires forall i :: 0 <= i < |t| ==> !IsDigit(t[i])
    ensures ParseDecimal(t) == None
  {
    var (neg, body) := SplitSign(t);
    assert forall i :: 0 <= i < |body| ==> !IsDigit(body[i]);
    assert DigitRun(body) == 0;
    assert body[0..] == body;
    if |body| > 0 && body[0] == '.' {
      assert DigitRun(body[1..]) == 0;
    }
  }

  /** `Number` of a text that is not blank and has no digit is never a
      finite number; without the letter 'I' of "Infinity" it is NaN. */
  lemma ToNumberWithoutDigits(s: string)
    requires !AllWhitespace(s)
    requires forall i :: 0 <= i < |s| ==> !IsDigit(s[i])
    ensures !ToNumber(s).Finite?
    ensures (forall i :: 0 <= i < |s| ==> s[i] != 'I') ==> ToNumber(s) == NaN
  {
    var t := Trim(s);
    TrimWithoutDigits(s);
    assert t[0] != '0';
    DecimalWithoutDigits(t);
    if forall i :: 0 <= i < |s| ==> s[i] != 'I' {
      NotInfinity(t);
    }
  }

  /** Trimming keeps a text non-empty and adds no character. */
  lemma TrimWithoutDigits(s: string)
    requires !AllWhitespace(s)
    requires forall i :: 0 <= i < |s| ==> !IsDigit(s[i])
    ensures |Trim(s)| > 0
    ensures forall j :: 0 <= j < |Trim(s)| ==> !IsDigit(Trim(s)[j])
    ensures (forall i :: 0 <= i < |s| ==> s[i] != 'I') ==> forall j :: 0 <= j < |Trim(s)| ==> Trim(s)[j] != 'I'
  {
    TrimChars(s);
  }

  /** A text whose first two characters are not 'I' spells no infinity. */
  lemma NotInfinity(t: string)
    requires |t| > 0 && t[0] != 'I'
    requires |t| > 1 ==> t[1] != 'I'
    ensures t != "Infinity" && t != "+Infinity" && t != "-Infinity"
  {
    assert "Infinity"[0] == 'I' && "+Infinity"[1] == 'I' && "-Infinity"[1] == 'I';
  }

  /** `parseInt(s, 10)`: the integer spelled by the optional sign and the
      digit run at the start of `s` once leading whitespace is skipped;
      None stands for NaN. */
  function ParseIntPrefix(s: string): (r: Option<int>)
    ensures r.Some? <==> var t := TrimStart(s);
      || (|t| > 0 && IsDigit(t[0]))
      || (|t| > 1 && (t[0] == '-' || t[0] == '+') && IsDigit(t[1]))
  {
    var t := TrimStart(s);
    var (neg, body) := SplitSign(t);
    var n := DigitRun(body);
    assert n > 0 <==> |body| > 0 && IsDigit(body[0]);
    assert |t| > 0 && (t[0] == '-' || t[0] == '+') ==> body == t[1..];
    assert |t| == 0 || (t[0] != '-' && t[0] != '+') ==> body == t;
    if n == 0 then None
    else
      var v := DigitsValue(body[..n]) as int;
      Some(if neg then -v else v)
  }

  /** Printing a count and reading it back with `Number` gives the count. */
  lemma {:induction false} NatToStringRoundTrip(n: nat)
    ensures AllDigits(NatToString(n))
    ensures DigitsValue(NatToString(n)) == n
    ensures ToNumber(NatToString(n)) == Finite(n as real)
  {
    DigitsOfNatToString(n);
    ToNumberOfDigits(NatToString(n));
  }

  /** `Number` reads a plain digit string as its decimal value. */
  lemma {:induction false} ToNumberOfDigits(d: string)
    requires |d| > 0 && AllDigits(d)
    ensures ToNumber(d) == Finite(DigitsValue(d) as real)
  {
    TrimOfDigits(d);
    DigitsNotInfinity(d);
    DigitsNotRadix(d);
    DecimalOfDigits(d);
  }

  lemma TrimOfDigits(d: string)
    requires |d| > 0 && AllDigits(d)
    ensures Trim(d) == d
  {
    assert IsDigit(d[0]) && IsDigit(d[|d| - 1]);
  }

  lemma DigitsNotInfinity(d: string)
    requires |d| > 0 && AllDigits(d)
    ensures d != "Infinity" && d != "+Infinity" && d != "-Infinity"
  {
    assert IsDigit(d[0]);
    assert "Infinity"[0] == 'I' && "+Infinity"[0] == '+' && "-Infinity"[0] == '-';
  }

  lemma DigitsNotRadix(d: string)
    requires |d| > 0 && AllDigits(d)
    ensures ParseRadixLiteral(d) == None
  {
    if |d| >= 3 {
      assert IsDigit(d[1]);
    }
  }

  lemma {:induction false} DigitsOfNatToString(n: nat)
    ensures AllDigits(NatToString(n))
    ensures DigitsValue(NatToString(n)) == n
  {
    if n >= 10 {
      DigitsOfNatToString(n / 10);
      var d := NatToString(n);
      assert d[..|d| - 1] == NatToString(n / 10);
    }
  }

  /** A plain digit string is read by ParseDecimal as its value. */
  lemma {:induction false} DecimalOfDigits(d: string)
    requires |d| > 0 && AllDigits(d)
    ensures ParseDecimal(d) == Some(DigitsValue(d) as real)
  {
    assert SplitSign(d) == (false, d);
    DigitRunOfConcat(d, []);
    assert d + [] == d;
    assert DigitRun(d) == |d|;
    assert d[..|d|] == d;
    assert d[|d|..] == [];
    assert SplitFraction([]) == ([], []);
    assert ParseExponent([]) == Some(0);
    assert Pow10(0) == 1;
    assert ParseUnsignedDecimal(d) == Some(DigitsValue(d) as real);
  }

  /** `parseInt` stops at the first character that is not a digit, so
      "4,5" reads as 4. */
  lemma {:induction false} ParseIntOfDigitsThenOther(d: string, x: string)
    requires |d| > 0 && AllDigits(d)
    requires |x| == 0 || !IsDigit(x[0])
    ensures ParseIntPrefix(d + x) == Some(DigitsValue(d) as int)
  {
    var s := d + x;
    assert s[0] == d[0] && IsDigit(d[0]);
    TrimStartOfDigitStart(s);
    DigitRunOfConcat(d, x);
    assert s[..|d|] == d;
    ParseIntOfUnsigned(s, d);
  }

  lemma {:induction false} TrimStartOfDigitStart(s: string)
    requires |s| > 0 && IsDigit(s[0])
    ensures TrimStart(s) == s
  {
  }

  lemma {:induction false} ParseIntOfUnsigned(s: string, d: string)
    requires |s| > 0 && IsDigit(s[0])
    requires TrimStart(s) == s
    requires |d| > 0 && AllDigits(d) && DigitRun(s) == |d| && s[..|d|] == d
    ensures ParseIntPrefix(s) == Some(DigitsValue(d) as int)
  {
    assert SplitSign(s) == (false, s);
  }

  lemma {:induction false} DigitRunOfConcat(d: string, x: string)
    requires AllDigits(d)
    requires |x| == 0 || !IsDigit(x[0])
    ensures DigitRun(d + x) == |d|
    decreases |d|
  {
    if |d| > 0 {
      assert (d + x)[0] == d[0];
      assert (d + x)[1..] == d[1..] + x;
      DigitRunOfConcat(d[1..], x);
    } else {
      assert d + x == x;
    }
  }
  /** A decimal comma: with its first ',' made a '.', the text `a,b`
      reads as the number a.b. */
  lemma DecimalCommaValue(a: string, b: string)
    requires |a| > 0 && AllDigits(a) && |b| > 0 && AllDigits(b)
    ensures AllDigits(a + b)
    ensures ToNumber(ReplaceFirst(a + [','] + b, ',', '.'))
            == Finite(DigitsValue(a + b) as real / Pow10(|b|) as real)
  {
    CommaBecomesPoint(a, b);
    ToNumberOfPointed(a, b, a + ['.'] + b);
  }

  lemma ToNumberOfPointed(a: string, b: string, t: string)
    requires |a| > 0 && AllDigits(a) && |b| > 0 && AllDigits(b)
    requires t == a + ['.'] + b
    ensures AllDigits(a + b)
    ensures ToNumber(t) == Finite(DigitsValue(a + b) as real / Pow10(|b|) as real)
  {
    PointedPlain(a, b, t);
    DecimalOfPointed(a, b, t);
  }

  /** A pointed decimal has no padding and is neither an Infinity spelling
      nor a radix literal. */
  lemma PointedPlain(a: string, b: string, t: string)
    requires |a| > 0 && AllDigits(a) && |b| > 0 && AllDigits(b)
    requires t == a + ['.'] + b
    ensures Trim(t) == t
    ensures t != "Infinity" && t != "+Infinity" && t != "-Infinity"
    ensures ParseRadixLiteral(t) == None
  {
    assert t[0] == a[0] && t[|t| - 1] == b[|b| - 1];
    assert IsDigit(t[0]) && IsDigit(t[|t| - 1]);
    assert "Infinity"[0] == 'I' && "+Infinity"[0] == '+' && "-Infinity"[0] == '-';
    assert t[1] == if |a| > 1 then a[1] else '.';
  }

  lemma CommaBecomesPoint(a: string, b: string)
    requires AllDigits(a)
    ensures ReplaceFirst(a + [','] + b, ',', '.') == a + ['.'] + b
  {
    var s := a + [','] + b;
    var r := ReplaceFirst(s, ',', '.');
    assert s[|a|] == ',';
    var k :| 0 <= k < |s| && s[k] == ',' && r[k] == '.' && ',' !in s[..k]
             && r[..k] == s[..k] && r[k + 1..] == s[k + 1..];
    FirstCommaAfterDigits(a, b, s, k);
    assert s[..k] == a && s[k + 1..] == b;
    Splice(r, a, b, k);
  }

  lemma FirstCommaAfterDigits(a: string, b: string, s: string, k: nat)
    requires AllDigits(a) && s == a + [','] + b
    requires k < |s| && s[k] == ',' && ',' !in s[..k]
    ensures k == |a|
  {
    forall i | 0 <= i < k ensures s[i] != ',' {
      assert s[..k][i] == s[i];
    }
    assert s[|a|] == ',';
    assert forall i :: 0 <= i < |a| ==> s[i] == a[i] && IsDigit(a[i]);
  }

  lemma Splice(r: string, a: string, b: string, k: nat)
    requires k == |a| && |r| == |a| + 1 + |b|
    requires r[..k] == a && r[k] == '.' && r[k + 1..] == b
    ensures r == a + ['.'] + b
  {
    assert r == r[..k] + [r[k]] + r[k + 1..];
  }

  lemma DecimalOfPointed(a: string, b: string, t: string)
    requires |a| > 0 && AllDigits(a) && |b| > 0 && AllDigits(b)
    requires t == a + ['.'] + b
    ensures AllDigits(a + b)
    ensures ParseDecimal(t) == Some(DigitsValue(a + b) as real / Pow10(|b|) as real)
  {
    assert t[0] == a[0] && IsDigit(a[0]);
    assert SplitSign(t) == (false, t);
    PointedParts(a, b, t);
    FractionOfPoint(b);
    assert ParseExponent([]) == Some(0);
    assert Pow10(0) == 1;
    var m := DigitsValue(a + b) as real / Pow10(|b|) as real;
    assert m * Pow10(0) as real == m;
  }

  lemma PointedParts(a: string, b: string, t: string)
    requires AllDigits(a) && t == a + ['.'] + b
    ensures DigitRun(t) == |a| && t[..|a|] == a && t[|a|..] == ['.'] + b
  {
    assert t == a + (['.'] + b);
    DigitRunOfConcat(a, ['.'] + b);
  }

  lemma FractionOfPoint(b: string)
    requires AllDigits(b)
    ensures SplitFraction(['.'] + b) == (b, [])
  {
    DigitRunOfConcat(b, []);
    assert b + [] == b;
    assert (['.'] + b)[1..] == b;
    assert b[..|b|] == b && b[|b|..] == [];
  }
}

=== FILE: json.dfy ===
/** A parsed JSON value, as `JSON.parse` hands it to the dashboard code. */
module Json {

  /** Object members are a map: `JSON.parse` keeps the last of repeated
      keys, and no caller here depends on member order. */
  datatype Json =
    | JNull
    | JBool(b: bool)
    | JNum(n: real)
    | JStr(s: string)
    | JArr(items: seq<Json>)
    | JObj(fields: map<string, Json>)

  /** JavaScript truthiness of a parsed JSON value. */
  predicate Truthy(j: Json) {
    match j
    case JNull => false
    case JBool(b) => b
    case JNum(n) => n != 0.0
    case JStr(s) => s != ""
    case JArr(_) => true
    case JObj(_) => true
  }

  /** Every element of a parsed array is a string. */
  predicate AllStrings(items: seq<Json>) {
    forall i :: 0 <= i < |items| ==> items[i].JStr?
  }

  /** The texts of an array of strings. */
  function StringsOf(items: seq<Json>): (r: seq<string>)
    requires AllStrings(items)
    ensures |r| == |items| && forall i :: 0 <= i < |items| ==> r[i] == items[i].s
  {
    seq(|items|, i requires 0 <= i < |items| => items[i].s)
  }

  /** The array of strings `JSON.stringify` writes for a list of texts. */
  function StringArray(list: seq<string>): (r: seq<Json>)
    ensures AllStrings(r) && StringsOf(r) == list
  {
    seq(|list|, i requires 0 <= i < |list| => JStr(list[i]))
  }
}

=== FILE: kpi_board.dfy ===
/** The editable KPI cards of src/features/kpi/KPIBoard.tsx: the character
    filter of the inline editor, the commit of a draft, the editing flags,
    the hydration of the values from browser storage or the database, and
    the trend shown next to each value. */
module KpiBoard {
  import opened Wrappers
  import opened Text
  import opened JsNumber
  import opened Json

  datatype KpiKey = CsatChannel | CsatInvestments | CsatComments | Placeholder
  datatype KpiKind = Percent | Count

  datatype Kpi = Kpi(key: KpiKey, title: string, value: Num, kind: KpiKind,
                     unit: Option<string>, subtitle: Option<string>)

  /** The property name of each key in the stored JSON object. */
  function KeyName(k: KpiKey): string {
    match k
    case CsatChannel => "csatChannel"
    case CsatInvestments => "csatInvestments"
    case CsatComments => "csatComments"
    case Placeholder => "placeholder"
  }

  /** The four cards, every value zero. */
  const InitialKpis: seq<Kpi> := [
    Kpi(CsatChannel, "CSAT Canal", Finite(0.0), Percent, Some("%"), Some("vs Q3 · -2pp")),
    Kpi(CsatInvestments, "CSAT Inversiones", Finite(0.0), Percent, Some("%"), Some("vs Q3 · -2pp")),
    Kpi(CsatComments, "Comentarios", Finite(0.0), Count, None, Some("")),
    Kpi(Placeholder, "Proyectos", Finite(0.0), Count, None, None)
  ]

  /** Every key has exactly one initial card, so the key-indexed table built
      from the list loses nothing, and the stored property names are
      distinct. */
  lemma InitialKeysExact(k: KpiKey)
    ensures exists i :: 0 <= i < |InitialKpis| && InitialKpis[i].key == k
    ensures forall i, j :: 0 <= i < j < |InitialKpis| ==>
              InitialKpis[i].key != InitialKpis[j].key
              && KeyName(InitialKpis[i].key) != KeyName(InitialKpis[j].key)
  {
    match k
    case CsatChannel => assert InitialKpis[0].key == k;
    case CsatInvestments => assert InitialKpis[1].key == k;
    case CsatComments => assert InitialKpis[2].key == k;
    case Placeholder => assert InitialKpis[3].key == k;
  }

  /** A card with its value forgotten: what no merge or commit may change. */
  function Shape(k: Kpi): Kpi {
    k.(value := Finite(0.0))
  }

  /** `b` is `a` with possibly other values: same length, and position by
      position the same key, label (`title`), kind, unit and subtitle. */
  predicate SameShape(a: seq<Kpi>, b: seq<Kpi>) {
    |a| == |b| && forall i :: 0 <= i < |a| ==> Shape(a[i]) == Shape(b[i])
  }

  // ---------------------------------------------------------------------
  // Input filter

  /** The characters the editor keeps: `\d`, '-', ',' and '.'. */
  predicate Numeric(c: char) {
    IsDigit(c) || c == '-' || c == ',' || c == '.'
  }

  /** The characters of `s` that `Numeric` keeps, in order. */
  function Kept(s: string): string {
    if |s| == 0 then [] else Kept(s[..|s| - 1]) + if Numeric(s[|s| - 1]) then [s[|s| - 1]] else []
  }

  lemma KeptFacts(s: string)
    ensures forall i :: 0 <= i < |Kept(s)| ==> Numeric(Kept(s)[i])
    ensures forall c :: Numeric(c) ==> multiset(Kept(s))[c] == multiset(s)[c]
    ensures forall c :: !Numeric(c) ==> multiset(Kept(s))[c] == 0
    ensures (forall i :: 0 <= i < |s| ==> Numeric(s[i])) ==> Kept(s) == s
  {
    KeptNumeric(s);
    KeptCounts(s);
    KeptAllNumeric(s);
  }

  lemma {:induction false} KeptNumeric(s: string)
    ensures forall i :: 0 <= i < |Kept(s)| ==> Numeric(Kept(s)[i])
  {
    if |s| > 0 {
      KeptNumeric(s[..|s| - 1]);
    }
  }

  lemma {:induction false} KeptCounts(s: string)
    ensures forall c :: multiset(Kept(s))[c] == if Numeric(c) then multiset(s)[c] else 0
  {
    if |s| > 0 {
      var n := |s| - 1;
      var tail := if Numeric(s[n]) then [s[n]] else [];
      KeptCounts(s[..n]);
      assert s == s[..n] + [s[n]];
      assert multiset(s) == multiset(s[..n]) + multiset{s[n]};
      assert multiset(Kept(s)) == multiset(Kept(s[..n])) + multiset(tail);
    }
  }

  lemma {:induction false} KeptAllNumeric(s: string)
    ensures (forall i :: 0 <= i < |s| ==> Numeric(s[i])) ==> Kept(s) == s
  {
    if |s| > 0 && forall i :: 0 <= i < |s| ==> Numeric(s[i]) {
      var n := |s| - 1;
      KeptAllNumeric(s[..n]);
      assert s == s[..n] + [s[n]];
    }
  }

  lemma {:induction false} KeptConcat(a: string, b: string)
    ensures Kept(a + b) == Kept(a) + Kept(b)
    decreases |b|
  {
    if |b| > 0 {
      var n := |b| - 1;
      var ab := a + b;
      assert ab[..|ab| - 1] == a + b[..n];
      assert ab[|ab| - 1] == b[n];
      KeptConcat(a, b[..n]);
    } else {
      assert a + b == a;
    }
  }

  /** `textContent.replace(/[^\d\-,.]/g, "")`. */
  function FilterInput(s: string): (r: string)
    ensures forall i :: 0 <= i < |r| ==> Numeric(r[i])
    ensures forall c :: Numeric(c) ==> multiset(r)[c] == multiset(s)[c]
    ensures forall c :: !Numeric(c) ==> multiset(r)[c] == 0
    ensures (forall i :: 0 <= i < |s| ==> Numeric(s[i])) ==> r == s
  {
    KeptFacts(s);
    Kept(s)
  }

  /** Filtering is done piecewise, so the kept characters stay in their
      order. */
  lemma FilterConcat(a: string, b: string)
    ensures FilterInput(a + b) == FilterInput(a) + FilterInput(b)
  {
    KeptConcat(a, b);
  }

  /** Filtering an already filtered text changes nothing. */
  lemma FilterIdempotent(s: string)
    ensures FilterInput(FilterInput(s)) == FilterInput(s)
  {
  }

  // ---------------------------------------------------------------------
  // Editing flags

  /** Which cards are in edit mode; every key is present. */
  type Editing = map<KpiKey, bool>

  /** `createDraftFlags`: one flag per initial card. */
  function DraftFlags(): Editing {
    map[CsatChannel := false, CsatInvestments := false,
        CsatComments := false, Placeholder := false]
  }

  /** At first every card has a flag and no card is being edited. */
  lemma DraftFlagsOff(k: KpiKey)
    ensures k in DraftFlags() && !DraftFlags()[k]
  {
    match k
    case CsatChannel =>
    case CsatInvestments =>
    case CsatComments =>
    case Placeholder =>
  }

  /** `enterEdit`: the card goes into edit mode, the others keep theirs. */
  function EnterEdit(e: Editing, key: KpiKey): (r: Editing)
    ensures key in r && r[key]
    ensures forall k :: k != key ==> (k in r <==> k in e) && (k in e ==> r[k] == e[k])
  {
    e[key := true]
  }

  /** `cancelEdit`: the card leaves edit mode, the others keep theirs. */
  function CancelEdit(e: Editing, key: KpiKey): (r: Editing)
    ensures key in r && !r[key]
    ensures forall k :: k != key ==> (k in r <==> k in e) && (k in e ==> r[k] == e[k])
  {
    e[key := false]
  }

  /** Entering and then leaving edit mode is the same as leaving it. */
  lemma CancelAfterEnter(e: Editing, key: KpiKey)
    ensures CancelEdit(EnterEdit(e, key), key) == CancelEdit(e, key)
  {
    assert forall k :: k in CancelEdit(EnterEdit(e, key), key) <==> k in CancelEdit(e, key);
  }

  // ---------------------------------------------------------------------
  // Commit

  /** The value a draft commits: None when the trimmed draft is empty or
      `Number` of it, with its first ',' read as '.', is NaN. A committed
      value is never NaN, and a blank draft never commits. */
  function ParseDraft(raw: string): (r: Option<Num>)
    ensures AllWhitespace(raw) ==> r.None?
    ensures r.Some? ==> !AllWhitespace(raw) && !r.value.NaN?
  {
    var trimmed := Trim(raw);
    if trimmed == [] then None
    else
      var next := ToNumber(ReplaceFirst(trimmed, ',', '.'));
      if next.NaN? then None else Some(next)
  }

  /** A non-blank draft without a digit and without the 'I' of
      "Infinity" reads as NaN and never commits: "-", ",", "." and "-."
      pass the input filter and are rejected here. */
  lemma ParseDraftWithoutDigits(raw: string)
    requires !AllWhitespace(raw)
    requires forall i :: 0 <= i < |raw| ==> !IsDigit(raw[i]) && raw[i] != 'I'
    ensures ParseDraft(raw).None?
  {
    var trimmed := Trim(raw);
    TrimWithoutDigits(raw);
    assert !AllWhitespace(trimmed) by {
      assert !IsWhitespace(trimmed[0]);
    }
    var t := ReplaceFirst(trimmed, ',', '.');
    ReplaceCommaWithoutDigits(trimmed);
    ToNumberWithoutDigits(t);
  }

  /** Turning the first comma into a point keeps a text without digits and
      without 'I' non-blank and adds neither. */
  lemma ReplaceCommaWithoutDigits(t: string)
    requires !AllWhitespace(t)
    requires forall j :: 0 <= j < |t| ==> !IsDigit(t[j]) && t[j] != 'I'
    ensures !AllWhitespace(ReplaceFirst(t, ',', '.'))
    ensures forall j :: 0 <= j < |ReplaceFirst(t, ',', '.')| ==>
      !IsDigit(ReplaceFirst(t, ',', '.')[j]) && ReplaceFirst(t, ',', '.')[j] != 'I'
  {
    ReplaceFirstChars(t, ',', '.');
  }

  /** The digits of a whole number commit that number. */
  lemma ParseDraftOfDigits(n: nat)
    ensures ParseDraft(NatToString(n)) == Some(Finite(n as real))
  {
    var s := NatToString(n);
    assert !IsWhitespace(s[0]) && !IsWhitespace(s[|s| - 1]);
    assert Trim(s) == s;
    assert ',' !in s by {
      forall i | 0 <= i < |s| ensures s[i] != ',' {
        assert IsDigit(s[i]);
      }
    }
    NatToStringRoundTrip(n);
  }

  /** A draft `a,b` of two digit runs commits the number a.b. */
  lemma ParseDraftOfDecimalComma(a: string, b: string)
    requires |a| > 0 && AllDigits(a) && |b| > 0 && AllDigits(b)
    ensures AllDigits(a + b)
    ensures ParseDraft(a + [','] + b) == Some(Finite(DigitsValue(a + b) as real / Pow10(|b|) as real))
  {
    var s := a + [','] + b;
    assert s[0] == a[0] && s[|s| - 1] == b[|b| - 1];
    PlainTrim(s);
    DecimalCommaValue(a, b);
  }

  /** A decimal comma is read as a decimal point: "4,5" commits 4.5. */
  lemma DecimalCommaAccepted()
    ensures ParseDraft("4,5") == Some(Finite(4.5))
  {
    PlainTrim("4,5");
    CommaOfFourFive();
    NumberOfFourPointFive();
  }

  /** Only the first comma becomes a point, so "1,2,3" reads as "1.2,3",
      which is not a number: the draft is dropped. */
  lemma SecondCommaRejected()
    ensures ParseDraft("1,2,3") == None
  {
    PlainTrim("1,2,3");
    CommaOfOneTwoThree();
    NumberOfPointThenComma();
  }

  lemma PlainTrim(t: string)
    requires |t| > 0 && IsDigit(t[0]) && IsDigit(t[|t| - 1])
    ensures Trim(t) == t
  {
  }

  lemma CommaOfFourFive()
    ensures ReplaceFirst("4,5", ',', '.') == "4.5"
  {
    assert ",5"[1..] == "5";
    assert ReplaceFirst(",5", ',', '.') == ".5";
    assert "4,5"[1..] == ",5";
  }

  lemma CommaOfOneTwoThree()
    ensures ReplaceFirst("1,2,3", ',', '.') == "1.2,3"
  {
    assert ",2,3"[1..] == "2,3";
    assert ReplaceFirst(",2,3", ',', '.') == ".2,3";
    assert "1,2,3"[1..] == ",2,3";
  }

  lemma NumberOfFourPointFive()
    ensures ToNumber("4.5") == Finite(4.5)
  {
    PlainTrim("4.5");
    UnsignedDecimalFourPointFive();
  }

  lemma UnsignedDecimalFourPointFive()
    ensures ParseUnsignedDecimal("4.5") == Some(4.5)
  {
    DigitRunOne("4", ".5");
    DigitRunOne("5", "");
    assert "4.5"[1..] == ".5";
    assert ".5"[1..] == "5";
    assert "5" + "" == "5";
    assert "5"[..1] == "5" && "5"[1..] == [];
    assert SplitFraction(".5") == ("5", []);
    assert "4.5"[..1] == "4" && "4" + "5" == "45";
    DigitsFortyFive();
    assert ParseExponent([]) == Some(0);
    assert Pow10(1) == 10 && Pow10(0) == 1;
  }

  lemma DigitsFortyFive()
    ensures AllDigits("45") && DigitsValue("45") == 45
  {
    assert "45"[..1] == "4";
  }

  /** A digit followed by a non-digit is a run of one. */
  lemma DigitRunOne(d: string, rest: string)
    requires |d| == 1 && IsDigit(d[0]) && (|rest| == 0 || !IsDigit(rest[0]))
    ensures DigitRun(d + rest) == 1
  {
    assert (d + rest)[1..] == rest;
  }

  lemma NumberOfPointThenComma()
    ensures ToNumber("1.2,3") == NaN
  {
    PlainTrim("1.2,3");
    UnsignedDecimalPointThenComma();
  }

  lemma UnsignedDecimalPointThenComma()
    ensures ParseUnsignedDecimal("1.2,3") == None
  {
    DigitRunOne("1", ".2,3");
    DigitRunOne("2", ",3");
    assert "1.2,3"[1..] == ".2,3";
    assert ".2,3"[1..] == "2,3";
    assert "2" + ",3" == "2,3";
    assert "2,3"[..1] == "2" && "2,3"[1..] == ",3";
    assert SplitFraction(".2,3") == ("2", ",3");
    assert ParseExponent(",3") == None;
  }

  /** `prev.map(item => item.key === key ? {...item, value} : item)`. */
  function SetValue(kpis: seq<Kpi>, key: KpiKey, v: Num): (r: seq<Kpi>)
    ensures SameShape(kpis, r)
    ensures forall i :: 0 <= i < |r| && r[i].key == key ==> r[i].value == v
    ensures forall i :: 0 <= i < |r| && r[i].key != key ==> r[i] == kpis[i]
  {
    seq(|kpis|, i requires 0 <= i < |kpis| =>
      if kpis[i].key == key then kpis[i].(value := v) else kpis[i])
  }

  /** The cards and the editing flags together. */
  datatype Board = Board(kpis: seq<Kpi>, editing: Editing)

  /** `commit(key, rawValue)`: a blank or unreadable draft only leaves edit
      mode; a readable one also sets that card's value. */
  function Commit(b: Board, key: KpiKey, raw: string): (r: Board)
    ensures r.editing == CancelEdit(b.editing, key)
    ensures SameShape(b.kpis, r.kpis)
    ensures ParseDraft(raw).None? ==> r.kpis == b.kpis
    ensures ParseDraft(raw).Some? ==> r.kpis == SetValue(b.kpis, key, ParseDraft(raw).value)
  {
    match ParseDraft(raw)
    case None => Board(b.kpis, CancelEdit(b.editing, key))
    case Some(v) => Board(SetValue(b.kpis, key, v), CancelEdit(b.editing, key))
  }

  /** A blank draft changes no value and leaves edit mode. */
  lemma CommitBlank(b: Board, key: KpiKey, raw: string)
    requires AllWhitespace(raw)
    ensures Commit(b, key, raw).kpis == b.kpis
    ensures !Commit(b, key, raw).editing[key]
  {
  }

  /** Committing the same draft twice is committing it once. */
  lemma CommitIdempotent(b: Board, key: KpiKey, raw: string)
    ensures Commit(Commit(b, key, raw), key, raw) == Commit(b, key, raw)
  {
    CancelTwice(b.editing, key);
    if ParseDraft(raw).Some? {
      SetValueTwice(b.kpis, key, ParseDraft(raw).value);
    }
  }

  /** Leaving edit mode twice is leaving it once. */
  lemma CancelTwice(e: Editing, key: KpiKey)
    ensures CancelEdit(CancelEdit(e, key), key) == CancelEdit(e, key)
  {
    assert forall k :: k in CancelEdit(CancelEdit(e, key), key) <==> k in CancelEdit(e, key);
  }

  /** Setting a card's value twice to the same number is setting it once. */
  lemma SetValueTwice(kpis: seq<Kpi>, key: KpiKey, v: Num)
    ensures SetValue(SetValue(kpis, key, v), key, v) == SetValue(kpis, key, v)
  {
    var once := SetValue(kpis, key, v);
    var twice := SetValue(once, key, v);
    forall i | 0 <= i < |twice| ensures twice[i] == once[i] {
      if once[i].key == key {
        assert Shape(twice[i]) == Shape(once[i]);
      }
    }
  }

  // ---------------------------------------------------------------------
  // Hydration

  /** The number stored for a card in the parsed localStorage value: only a
      JSON number counts, anything else (or no object at all) is nothing. */
  function StoredNumber(fromLS: Json, k: KpiKey): (r: Option<real>)
    ensures r.Some? <==> fromLS.JObj? && KeyName(k) in fromLS.fields && fromLS.fields[KeyName(k)].JNum?
  {
    match fromLS
    case JObj(f) =>
      if KeyName(k) in f && f[KeyName(k)].JNum? then Some(f[KeyName(k)].n) else None
    case _ => None
  }

  /** The merge with the localStorage object. */
  function MergeFromStorage(fromLS: Json): (r: seq<Kpi>)
    ensures SameShape(InitialKpis, r)
    ensures forall i :: 0 <= i < |r| ==>
              r[i].value == match StoredNumber(fromLS, r[i].key)
                            case Some(v) => Finite(v)
                            case None => InitialKpis[i].value
  {
    seq(|InitialKpis|, i requires 0 <= i < |InitialKpis| =>
      match StoredNumber(fromLS, InitialKpis[i].key)
      case Some(v) => InitialKpis[i].(value := Finite(v))
      case None => InitialKpis[i])
  }

  /** `persisted.find(e => e.key === key)`. */
  function FindByKey(persisted: seq<Kpi>, key: KpiKey): (r: Option<Kpi>)
    ensures r.None? <==> forall i :: 0 <= i < |persisted| ==> persisted[i].key != key
    ensures r.Some? ==> exists i :: 0 <= i < |persisted| && persisted[i] == r.value
                          && r.value.key == key
                          && forall j :: 0 <= j < i ==> persisted[j].key != key
  {
    if |persisted| == 0 then None
    else if persisted[0].key == key then Some(persisted[0])
    else
      var r := FindByKey(persisted[1..], key);
      assert forall i :: 1 <= i < |persisted| ==> persisted[i] == persisted[1..][i - 1];
      r
  }

  /** The merge with the database rows. */
  function MergeFromDexie(persisted: seq<Kpi>): (r: seq<Kpi>)
    ensures SameShape(InitialKpis, r)
    ensures forall i :: 0 <= i < |r| ==>
              r[i].value == match FindByKey(persisted, r[i].key)
                            case Some(m) => m.value
                            case None => InitialKpis[i].value
  {
    seq(|InitialKpis|, i requires 0 <= i < |InitialKpis| =>
      match FindByKey(persisted, InitialKpis[i].key)
      case Some(m) => InitialKpis[i].(value := m.value)
      case None => InitialKpis[i])
  }

  /** What hydration ends with: the cards, and whether the database is
      seeded with the initial cards. */
  datatype Hydrated = Hydrated(kpis: seq<Kpi>, seedsDatabase: bool)

  /** The hydration effect. `fromLS` is what `readKpisFromLS` returns (JSON
      null when the key is missing or its text does not parse) and
      `persisted` the database rows. A truthy stored value wins over the
      database; the database is seeded exactly when it is empty. */
  function Hydrate(fromLS: Json, persisted: seq<Kpi>): (r: Hydrated)
    ensures SameShape(InitialKpis, r.kpis)
    ensures Truthy(fromLS) ==> r.kpis == MergeFromStorage(fromLS)
    ensures !Truthy(fromLS) && |persisted| > 0 ==> r.kpis == MergeFromDexie(persisted)
    ensures !Truthy(fromLS) && |persisted| == 0 ==> r.kpis == InitialKpis
    ensures r.seedsDatabase <==> |persisted| == 0
  {
    var afterLS := if Truthy(fromLS) then MergeFromStorage(fromLS) else InitialKpis;
    if |persisted| > 0 && !Truthy(fromLS) then Hydrated(MergeFromDexie(persisted), false)
    else Hydrated(afterLS, |persisted| == 0)
  }

  /** How `JSON.stringify` writes a value: non-finite numbers become null. */
  function NumberJson(v: Num): (j: Json)
    ensures j.JNum? <==> v.Finite?
  {
    match v
    case Finite(x) => JNum(x)
    case _ => JNull
  }

  /** The object `writeKpisToLS` stores: each card's value under its key,
      a later card overwriting an earlier one with the same key. */
  function Snapshot(kpis: seq<Kpi>): map<string, Json> {
    if |kpis| == 0 then map[]
    else
      var n := |kpis| - 1;
      Snapshot(kpis[..n])[KeyName(kpis[n].key) := NumberJson(kpis[n].value)]
  }

  /** The entry of a snapshot is the value of the last card with that key. */
  lemma {:induction false} SnapshotEntry(kpis: seq<Kpi>, i: nat)
    requires i < |kpis|
    requires forall j :: i < j < |kpis| ==> kpis[j].key != kpis[i].key
    ensures KeyName(kpis[i].key) in Snapshot(kpis)
    ensures Snapshot(kpis)[KeyName(kpis[i].key)] == NumberJson(kpis[i].value)
  {
    var n := |kpis| - 1;
    if i < n {
      KeyNameInjective(kpis[n].key, kpis[i].key);
      SnapshotEntry(kpis[..n], i);
    }
  }

  lemma KeyNameInjective(a: KpiKey, b: KpiKey)
    requires a != b
    ensures KeyName(a) != KeyName(b)
  {
    assert KeyName(a)[|KeyName(a)| - 1] != KeyName(b)[|KeyName(b)| - 1] || KeyName(a)[4] != KeyName(b)[4];
  }

  /** Writing the cards to localStorage and hydrating from what was written
      gives each card back, except that a non-finite value returns as the
      default zero. */
  lemma StorageRoundTrip(kpis: seq<Kpi>, i: nat)
    requires SameShape(InitialKpis, kpis) && i < |kpis|
    ensures Shape(MergeFromStorage(JObj(Snapshot(kpis)))[i]) == Shape(kpis[i])
    ensures MergeFromStorage(JObj(Snapshot(kpis)))[i].value
            == if kpis[i].value.Finite? then kpis[i].value else Finite(0.0)
  {
    var snap := JObj(Snapshot(kpis));
    StoredSnapshotAt(kpis, i);
    assert Shape(MergeFromStorage(snap)[i]) == Shape(InitialKpis[i]);
  }

  lemma StoredSnapshotAt(kpis: seq<Kpi>, i: nat)
    requires SameShape(InitialKpis, kpis) && i < |kpis|
    ensures StoredNumber(JObj(Snapshot(kpis)), kpis[i].key)
            == if kpis[i].value.Finite? then Some(kpis[i].value.value) else None
    ensures InitialKpis[i].key == kpis[i].key
  {
    InitialKeysExact(CsatChannel);
    assert Shape(kpis[i]) == Shape(InitialKpis[i]);
    forall j | i < j < |kpis| ensures kpis[j].key != kpis[i].key {
      assert Shape(kpis[j]) == Shape(InitialKpis[j]);
    }
    SnapshotEntry(kpis, i);
  }

  /** Hydrating from database rows that are the cards themselves gives the
      cards back. */
  lemma DatabaseRoundTrip(kpis: seq<Kpi>)
    requires SameShape(InitialKpis, kpis)
    ensures MergeFromDexie(kpis) == kpis
  {
    var r := MergeFromDexie(kpis);
    InitialKeysExact(CsatChannel);
    forall i | 0 <= i < |kpis| ensures r[i] == kpis[i] {
      assert Shape(kpis[i]) == Shape(InitialKpis[i]);
      var m := FindByKey(kpis, kpis[i].key);
      assert m.Some?;
      var j :| 0 <= j < |kpis| && kpis[j] == m.value && m.value.key == kpis[i].key
               && forall l :: 0 <= l < j ==> kpis[l].key != kpis[i].key;
      assert Shape(kpis[j]) == Shape(InitialKpis[j]);
      assert j == i;
      assert Shape(r[i]) == Shape(kpis[i]);
    }
  }

  // ---------------------------------------------------------------------
  // Trend

  datatype Trend = Positive | Negative | Neutral

  /** `value > 0` on a JavaScript number. */
  predicate AboveZero(v: Num) {
    match v
    case Finite(x) => x > 0.0
    case Infinite(neg) => !neg
    case NaN => false
  }

  /** `value < 0` on a JavaScript number. */
  predicate BelowZero(v: Num) {
    match v
    case Finite(x) => x < 0.0
    case Infinite(neg) => neg
    case NaN => false
  }

  /** The trend of a card: by the sign of a percent value, and always
      neutral for a count. */
  function TrendOf(k: Kpi): (t: Trend)
    ensures k.kind == Count ==> t == Neutral
    ensures k.kind == Percent ==> (t == Positive <==> AboveZero(k.value))
    ensures k.kind == Percent ==> (t == Negative <==> BelowZero(k.value))
  {
    if k.kind == Percent then
      if AboveZero(k.value) then Positive
      else if BelowZero(k.value) then Negative
      else Neutral
    else Neutral
  }

  /** `-value`. */
  function Negate(v: Num): Num {
    match v
    case Finite(x) => Finite(-x)
    case Infinite(neg) => Infinite(!neg)
    case NaN => NaN
  }

  function Mirror(t: Trend): Trend {
    match t
    case Positive => Negative
    case Negative => Positive
    case Neutral => Neutral
  }

  /** Negating a percent value mirrors its trend. */
  lemma TrendOfNegated(k: Kpi)
    ensures TrendOf(k.(value := Negate(k.value))) == Mirror(TrendOf(k))
  {
  }
}

=== FILE: manage.dfy ===
/** The project-list import of src/manage/Manage.tsx (`onLoadProjects`):
    which part of a JSON document is taken as the list, and when the list
    is saved. */
module Manage {
  import opened Wrappers
  import opened Json

  /** The candidate list: a top-level array, or the `projects` array of an
      object; any other document gives the empty list. */
  function CandidateList(parsed: Json): (r: seq<Json>)
    ensures parsed.JArr? ==> r == parsed.items
    ensures parsed.JObj? && "projects" in parsed.fields && parsed.fields["projects"].JArr? ==>
              r == parsed.fields["projects"].items
    ensures !parsed.JArr? && !(parsed.JObj? && "projects" in parsed.fields && parsed.fields["projects"].JArr?) ==>
              r == []
  {
    match parsed
    case JArr(items) => items
    case JObj(f) => if "projects" in f && f["projects"].JArr? then f["projects"].items else []
    case _ => []
  }

  /** The validated list: the candidate when every element is a string,
      otherwise empty. */
  function ValidList(parsed: Json): (r: seq<string>)
    ensures AllStrings(CandidateList(parsed)) ==> r == StringsOf(CandidateList(parsed))
    ensures !AllStrings(CandidateList(parsed)) ==> r == []
  {
    var list := CandidateList(parsed);
    if AllStrings(list) then StringsOf(list) else []
  }

  /** The project list shown and the list written to storage by one load. */
  datatype LoadResult = LoadResult(projects: seq<string>, saved: Option<seq<string>>)

  /** `onLoadProjects`. `parsed` is None when the file text is not valid
      JSON: then nothing changes and nothing is saved. Otherwise the list
      shown and the list saved are the same validated list. */
  function OnLoadProjects(projects: seq<string>, parsed: Option<Json>): (r: LoadResult)
    ensures parsed.None? ==> r == LoadResult(projects, None)
    ensures parsed.Some? ==> r.saved == Some(r.projects) && r.projects == ValidList(parsed.value)
  {
    match parsed
    case None => LoadResult(projects, None)
    case Some(j) =>
      var valid := ValidList(j);
      LoadResult(valid, Some(valid))
  }

  /** A list of strings loads verbatim, duplicates and empty names
      included, whether it is the whole document or its `projects`
      member. */
  lemma LoadRoundTrip(current: seq<string>, list: seq<string>, others: map<string, Json>)
    ensures OnLoadProjects(current, Some(JArr(StringArray(list)))).projects == list
    ensures OnLoadProjects(current, Some(JObj(others["projects" := JArr(StringArray(list))]))).projects == list
  {
  }

  /** One element that is not a string empties the list. */
  lemma NonStringEmpties(current: seq<string>, items: seq<Json>, i: nat)
    requires i < |items| && !items[i].JStr?
    ensures OnLoadProjects(current, Some(JArr(items))) == LoadResult([], Some([]))
  {
  }

  /** A document that is neither an array nor an object with a `projects`
      array loads the empty list. */
  lemma OtherShapeEmpties(current: seq<string>, j: Json)
    requires !j.JArr? && !(j.JObj? && "projects" in j.fields && j.fields["projects"].JArr?)
    ensures OnLoadProjects(current, Some(j)) == LoadResult([], Some([]))
  {
  }
}

=== FILE: proyectos.dfy ===
/** The Sankey graph of src/views/Proyectos.tsx: every row contributes its
    driver, prioridad, proyecto and estado as nodes and the three links
    between consecutive columns; links are counted per source and target.
    The component keys its link table by the string `source|target` and
    splits the key again when it builds the links; `BuildSankeyAsWritten`
    models that, `BuildSankey` keys the table by the pair itself. */
module Proyectos {
  import opened Wrappers
  import opened Text
  import opened Counting
  import Datos

  const Fallback: string := "Sin completar"

  /** `normalize`: the trimmed text, or the fallback label when nothing is
      left. `None` stands for `undefined` and `null`. */
  function Normalize(v: Option<string>): (r: string)
    ensures AllWhitespace(v.GetOr("")) ==> r == Fallback
    ensures !AllWhitespace(v.GetOr("")) ==> r == Trim(v.GetOr(""))
  {
    var trimmed := Trim(v.GetOr(""));
    if |trimmed| > 0 then trimmed else Fallback
  }

  /** A normalised name is never empty and has nothing left to trim. */
  lemma NormalizeClean(v: Option<string>)
    ensures Plain(Normalize(v)) && Trim(Normalize(v)) == Normalize(v)
  {
    assert !IsWhitespace(Fallback[0]) && !IsWhitespace(Fallback[|Fallback| - 1]);
  }

  /** Normalising twice changes nothing. */
  lemma NormalizeIdempotent(v: Option<string>)
    ensures Normalize(Some(Normalize(v))) == Normalize(v)
  {
    NormalizeClean(v);
    assert !AllWhitespace(Normalize(v)) by {
      assert !IsWhitespace(Normalize(v)[0]);
    }
  }

  // ---------------------------------------------------------------------
  // What each row contributes.

  /** A row's driver, prioridad, proyecto and estado, normalised. */
  datatype Path = Path(driver: string, prioridad: string, proyecto: string, estado: string)

  function PathOf(row: Datos.DatosRow): Path {
    Path(Normalize(Some(row.driver)), Normalize(Some(row.prioridad)),
         Normalize(Some(row.proyecto)), Normalize(Some(row.estado)))
  }

  function Paths(rows: seq<Datos.DatosRow>): (r: seq<Path>)
    ensures |r| == |rows|
  {
    if |rows| == 0 then [] else Paths(rows[..|rows| - 1]) + [PathOf(rows[|rows| - 1])]
  }

  /** A name that is non-empty and neither starts nor ends with
      whitespace, so trimming leaves it as it is. */
  predicate Plain(x: string) {
    |x| > 0 && !IsWhitespace(x[0]) && !IsWhitespace(x[|x| - 1])
  }

  /** All four names of a path are plain. */
  predicate Clean(p: Path) {
    Plain(p.driver) && Plain(p.prioridad) && Plain(p.proyecto) && Plain(p.estado)
  }

  lemma PathOfClean(row: Datos.DatosRow)
    ensures Clean(PathOf(row))
  {
    var p := PathOf(row);
    NormalizeClean(Some(row.driver));
    NormalizeClean(Some(row.prioridad));
    NormalizeClean(Some(row.proyecto));
    NormalizeClean(Some(row.estado));
  }

  lemma {:induction false} PathsClean(rows: seq<Datos.DatosRow>)
    ensures forall p :: p in Paths(rows) ==> Clean(p)
  {
    if |rows| > 0 {
      PathsClean(rows[..|rows| - 1]);
      PathOfClean(rows[|rows| - 1]);
    }
  }

  /** The path's four names, left to right: the nodes the row adds. */
  function Steps(p: Path): (r: seq<string>)
    ensures |r| == 4
  {
    [p.driver, p.prioridad, p.proyecto, p.estado]
  }

  /** The three links of a path: each column to the next. */
  function Pairs(p: Path): (r: seq<(string, string)>)
    ensures |r| == 3
    ensures forall i :: 0 <= i < 3 ==> r[i] == (Steps(p)[i], Steps(p)[i + 1])
  {
    [(p.driver, p.prioridad), (p.prioridad, p.proyecto), (p.proyecto, p.estado)]
  }

  /** Every name the rows add to the node set, in the order they add them. */
  function AllNames(paths: seq<Path>): (r: seq<string>)
    ensures |r| == 4 * |paths|
  {
    if |paths| == 0 then [] else AllNames(paths[..|paths| - 1]) + Steps(paths[|paths| - 1])
  }

  /** Every link occurrence the rows count, in the order they count them. */
  function AllPairs(paths: seq<Path>): (r: seq<(string, string)>)
    ensures |r| == 3 * |paths|
  {
    if |paths| == 0 then [] else AllPairs(paths[..|paths| - 1]) + Pairs(paths[|paths| - 1])
  }

  /** Both ends of every counted link are names added to the node set. */
  lemma {:induction false} PairsUseNames(paths: seq<Path>)
    ensures forall p :: p in AllPairs(paths) ==> p.0 in AllNames(paths) && p.1 in AllNames(paths)
  {
    if |paths| > 0 {
      var n := |paths| - 1;
      PairsUseNames(paths[..n]);
      var s := Steps(paths[n]);
      assert AllNames(paths) == AllNames(paths[..n]) + s;
      assert AllPairs(paths) == AllPairs(paths[..n]) + Pairs(paths[n]);
      forall p | p in AllPairs(paths) ensures p.0 in AllNames(paths) && p.1 in AllNames(paths) {
        if p in Pairs(paths[n]) {
          var i :| 0 <= i < 3 && Pairs(paths[n])[i] == p;
          assert AllNames(paths)[4 * n + i] == s[i];
          assert AllNames(paths)[4 * n + i + 1] == s[i + 1];
        } else {
          assert p in AllPairs(paths[..n]);
        }
      }
    }
  }

  /** Every name of clean paths is non-empty and trimmed. */
  lemma {:induction false} NamesClean(paths: seq<Path>)
    requires forall p :: p in paths ==> Clean(p)
    ensures forall x :: x in AllNames(paths) ==> Plain(x)
  {
    if |paths| > 0 {
      var n := |paths| - 1;
      assert forall p :: p in paths[..n] ==> p in paths;
      NamesClean(paths[..n]);
      assert paths[n] in paths;
      var last := paths[n];
      assert Clean(last);
      assert AllNames(paths) == AllNames(paths[..n]) + Steps(last);
      forall x | x in AllNames(paths) ensures Plain(x) {
        if x !in AllNames(paths[..n]) {
          assert x in Steps(last);
        }
      }
    }
  }

  // ---------------------------------------------------------------------
  // The graph.

  datatype Link = Link(source: string, target: string, value: nat)

  datatype Sankey = Sankey(nodes: seq<string>, links: seq<Link>)

  /** The sum of the link values. */
  function ValueTotal(links: seq<Link>): nat {
    if |links| == 0 then 0 else ValueTotal(links[..|links| - 1]) + links[|links| - 1].value
  }

  /** The links of a count table keyed by (source, target). */
  function LinksOf(t: seq<Entry<(string, string)>>): (r: seq<Link>)
    ensures |r| == |t|
    ensures forall i :: 0 <= i < |t| ==> r[i] == Link(t[i].key.0, t[i].key.1, t[i].count)
  {
    seq(|t|, i requires 0 <= i < |t| => Link(t[i].key.0, t[i].key.1, t[i].count))
  }

  lemma {:induction false} LinksTotal(t: seq<Entry<(string, string)>>)
    ensures ValueTotal(LinksOf(t)) == Sum(t)
  {
    if |t| > 0 {
      var n := |t| - 1;
      assert LinksOf(t)[..n] == LinksOf(t[..n]);
      LinksTotal(t[..n]);
    }
  }

  /** The graph of a sequence of paths, links counted per (source, target)
      pair. */
  function Graph(paths: seq<Path>): (g: Sankey)
    ensures paths == [] ==> g == Sankey([], [])
    ensures forall i, j :: 0 <= i < j < |g.nodes| ==> g.nodes[i] != g.nodes[j]
    ensures forall x :: x in g.nodes <==> x in AllNames(paths)
  {
    Sankey(FirstAppearance(AllNames(paths)), LinksOf(CountAll(AllPairs(paths))))
  }

  /** The `useMemo` of the component: the graph of the rows. */
  function BuildSankey(rows: seq<Datos.DatosRow>): (g: Sankey)
    ensures rows == [] ==> g == Sankey([], [])
    ensures forall i, j :: 0 <= i < j < |g.nodes| ==> g.nodes[i] != g.nodes[j]
  {
    Graph(Paths(rows))
  }

  /** The nodes are the normalised names in order of first appearance, and
      none is empty or untrimmed. */
  lemma SankeyNodes(rows: seq<Datos.DatosRow>)
    ensures BuildSankey(rows).nodes == FirstAppearance(AllNames(Paths(rows)))
    ensures forall x :: x in BuildSankey(rows).nodes ==> Plain(x)
  {
    PathsClean(rows);
    NamesClean(Paths(rows));
  }

  /** Each row adds three to the link values in total. */
  lemma SankeyTotal(rows: seq<Datos.DatosRow>)
    ensures ValueTotal(BuildSankey(rows).links) == 3 * |rows|
  {
    LinksTotal(CountAll(AllPairs(Paths(rows))));
  }

  /** One link per distinct (source, target) pair, valued by the number of
      times the rows produce that pair, with both ends among the nodes. */
  lemma SankeyLinks(rows: seq<Datos.DatosRow>)
    ensures var links := BuildSankey(rows).links;
            && (forall i, j :: 0 <= i < j < |links| ==>
                  (links[i].source, links[i].target) != (links[j].source, links[j].target))
            && (forall i :: 0 <= i < |links| ==>
                  links[i].value == multiset(AllPairs(Paths(rows)))[(links[i].source, links[i].target)] >= 1)
            && (forall i :: 0 <= i < |links| ==>
                  links[i].source in BuildSankey(rows).nodes && links[i].target in BuildSankey(rows).nodes)
  {
    GraphLinks(Paths(rows));
  }

  /** The links of a count table: distinct pairs, each valued by its
      multiplicity, each from the stream. */
  lemma LinksCounted(pairs: seq<(string, string)>)
    ensures var links := LinksOf(CountAll(pairs));
            && (forall i, j :: 0 <= i < j < |links| ==>
                  (links[i].source, links[i].target) != (links[j].source, links[j].target))
            && (forall i :: 0 <= i < |links| ==>
                  links[i].value == multiset(pairs)[(links[i].source, links[i].target)] >= 1)
            && (forall i :: 0 <= i < |links| ==> (links[i].source, links[i].target) in pairs)
  {
    var t := CountAll(pairs);
    var links := LinksOf(t);
    CountAllCorrect(pairs);
    forall i | 0 <= i < |links|
      ensures links[i].value == multiset(pairs)[(links[i].source, links[i].target)] >= 1
      ensures (links[i].source, links[i].target) in pairs
    {
      assert (links[i].source, links[i].target) == t[i].key == KeysOf(t)[i];
      assert KeysOf(t)[i] in FirstAppearance(pairs);
      assert t[i].key in multiset(pairs);
    }
    forall i, j | 0 <= i < j < |links|
      ensures (links[i].source, links[i].target) != (links[j].source, links[j].target)
    {
      assert KeysOf(t)[i] != KeysOf(t)[j];
    }
  }

  lemma GraphLinks(paths: seq<Path>)
    ensures var links := Graph(paths).links;
            && (forall i, j :: 0 <= i < j < |links| ==>
                  (links[i].source, links[i].target) != (links[j].source, links[j].target))
            && (forall i :: 0 <= i < |links| ==>
                  links[i].value == multiset(AllPairs(paths))[(links[i].source, links[i].target)] >= 1)
            && (forall i :: 0 <= i < |links| ==>
                  links[i].source in Graph(paths).nodes && links[i].target in Graph(paths).nodes)
  {
    assert Graph(paths).links == LinksOf(CountAll(AllPairs(paths)));
    LinksCounted(AllPairs(paths));
    forall i | 0 <= i < |Graph(paths).links|
      ensures Graph(paths).links[i].source in Graph(paths).nodes
      ensures Graph(paths).links[i].target in Graph(paths).nodes
    {
      LinkEnds(paths, i);
    }
  }

  lemma LinkEnds(paths: seq<Path>, i: nat)
    requires i < |Graph(paths).links|
    ensures Graph(paths).links[i].source in Graph(paths).nodes
    ensures Graph(paths).links[i].target in Graph(paths).nodes
  {
    var link := Graph(paths).links[i];
    assert Graph(paths).links == LinksOf(CountAll(AllPairs(paths)));
    LinksCounted(AllPairs(paths));
    assert (link.source, link.target) in AllPairs(paths);
    PairsUseNames(paths);
  }

  // ---------------------------------------------------------------------
  // The component as written: string keys, split again.

  /** `${source}|${target}`. */
  function LinkKey(p: (string, string)): string {
    p.0 + "|" + p.1
  }

  lemma {:induction false} SplitAtFirst(a: string, c: char, b: string)
    requires c !in a
    ensures Split(a + [c] + b, c) == [a] + Split(b, c)
    decreases |a|
  {
    var s := a + [c] + b;
    if |a| == 0 {
      assert s[1..] == b;
    } else {
      assert s[1..] == a[1..] + [c] + b;
      SplitAtFirst(a[1..], c, b);
      assert [a[0]] + a[1..] == a;
    }
  }

  /** Splitting a key built from two names without '|' gives the names
      back. */
  lemma SplitLinkKey(p: (string, string))
    requires '|' !in p.0 && '|' !in p.1
    ensures Split(LinkKey(p), '|') == [p.0, p.1]
  {
    SplitAtFirst(p.0, '|', p.1);
    SplitWithout(p.1, '|');
  }

  /** `const [source, target] = key.split('|')`. */
  function LinkOfKey(e: Entry<string>): Link {
    var parts := Split(e.key, '|');
    Link(parts[0], if |parts| > 1 then parts[1] else "", e.count)
  }

  function LinksAsWritten(t: seq<Entry<string>>): (r: seq<Link>)
    ensures |r| == |t|
    ensures forall i :: 0 <= i < |t| ==> r[i] == LinkOfKey(t[i])
  {
    seq(|t|, i requires 0 <= i < |t| => LinkOfKey(t[i]))
  }

  /** The graph as the component builds it, keyed by `source|target`. */
  function GraphAsWritten(paths: seq<Path>): (g: Sankey)
    ensures g.nodes == Graph(paths).nodes
  {
    Sankey(FirstAppearance(AllNames(paths)), LinksAsWritten(CountAll(MapSeq(AllPairs(paths), LinkKey))))
  }

  function BuildSankeyAsWritten(rows: seq<Datos.DatosRow>): (g: Sankey)
    ensures g.nodes == BuildSankey(rows).nodes
  {
    GraphAsWritten(Paths(rows))
  }

  /** When no name contains '|', string keys lose nothing: the component
      builds the graph keyed by pairs. */
  lemma AsWrittenAgreesWithoutSeparator(rows: seq<Datos.DatosRow>)
    requires forall x :: x in AllNames(Paths(rows)) ==> '|' !in x
    ensures BuildSankeyAsWritten(rows) == BuildSankey(rows)
  {
    GraphAsWrittenAgrees(Paths(rows));
  }

  lemma GraphAsWrittenAgrees(paths: seq<Path>)
    requires forall x :: x in AllNames(paths) ==> '|' !in x
    ensures GraphAsWritten(paths) == Graph(paths)
  {
    var pairs := AllPairs(paths);
    PairsUseNames(paths);
    KeysInjective(pairs);
    CountAllMapped(pairs, LinkKey);
    var t := CountAll(pairs);
    CountAllCorrect(pairs);
    var u := MapKeys(t, LinkKey);
    forall i | 0 <= i < |t| ensures LinkOfKey(u[i]) == LinksOf(t)[i] {
      assert t[i].key == KeysOf(t)[i];
      assert KeysOf(t)[i] in FirstAppearance(pairs);
      SplitLinkKey(t[i].key);
    }
    assert LinksAsWritten(u) == LinksOf(t);
  }

  /** Keys of pairs of names without '|' tell the pairs apart. */
  lemma KeysInjective(pairs: seq<(string, string)>)
    requires forall p :: p in pairs ==> '|' !in p.0 && '|' !in p.1
    ensures InjectiveOn(pairs, LinkKey)
  {
    forall a, b | a in pairs && b in pairs && LinkKey(a) == LinkKey(b) ensures a == b {
      SplitLinkKey(a);
      SplitLinkKey(b);
    }
  }

  /** A row whose driver contains '|'. */
  function PipeRow(): Datos.DatosRow {
    Datos.DatosRow("r", "", None, None, None, "", None, "a|b", "", "", "", "x", "x", "x")
  }

  lemma PipeRowPath()
    ensures Paths([PipeRow()]) == [Path("a|b", "x", "x", "x")]
  {
    PlainNames();
    assert [PipeRow()][..0] == [];
  }

  /** With the driver "a|b" and prioridad "x", the component draws a link
      from "a" to "b", neither of which is a node, where the pair-keyed
      graph has the link from "a|b" to "x". */
  lemma PipeInNameCounterexample()
    ensures BuildSankeyAsWritten([PipeRow()]).links[0] == Link("a", "b", 1)
    ensures "a" !in BuildSankeyAsWritten([PipeRow()]).nodes
    ensures BuildSankey([PipeRow()]).links[0] == Link("a|b", "x", 1)
  {
    PipeRowPath();
    PipeGraphs();
  }

  lemma PipeGraphs()
    ensures GraphAsWritten([Path("a|b", "x", "x", "x")]).links[0] == Link("a", "b", 1)
    ensures "a" !in GraphAsWritten([Path("a|b", "x", "x", "x")]).nodes
    ensures Graph([Path("a|b", "x", "x", "x")]).links[0] == Link("a|b", "x", 1)
  {
    PipeStreams();
    PipeAsWrittenLink();
    PipePairLink();
  }

  /** The names and pairs the example path contributes. */
  lemma PipeStreams()
    ensures AllNames([Path("a|b", "x", "x", "x")]) == ["a|b", "x", "x", "x"]
    ensures AllPairs([Path("a|b", "x", "x", "x")]) == [("a|b", "x"), ("x", "x"), ("x", "x")]
  {
    var paths := [Path("a|b", "x", "x", "x")];
    assert paths[..0] == [];
  }

  lemma PipeAsWrittenLink()
    ensures GraphAsWritten([Path("a|b", "x", "x", "x")]).links[0] == Link("a", "b", 1)
  {
    var paths := [Path("a|b", "x", "x", "x")];
    PipeKeys();
    var e := CountAll(MapSeq(AllPairs(paths), LinkKey))[0];
    assert GraphAsWritten(paths).links[0] == LinkOfKey(e);
    SplitPipeKey();
    var parts := Split("a|b|x", '|');
    assert parts[0] == "a" && parts[1] == "b";
  }

  lemma PipeKeys()
    ensures var keys := MapSeq(AllPairs([Path("a|b", "x", "x", "x")]), LinkKey);
            |CountAll(keys)| > 0 && CountAll(keys)[0] == Entry("a|b|x", 1)
  {
    PipeKeyStream();
    PipeKeyCount();
  }

  lemma PipeKeyStream()
    ensures MapSeq(AllPairs([Path("a|b", "x", "x", "x")]), LinkKey) == ["a|b|x", "x|x", "x|x"]
  {
    PipeStreams();
    assert LinkKey(("a|b", "x")) == "a|b|x";
    assert LinkKey(("x", "x")) == "x|x";
  }

  lemma PipeKeyCount()
    ensures |CountAll(["a|b|x", "x|x", "x|x"])| > 0
    ensures CountAll(["a|b|x", "x|x", "x|x"])[0] == Entry("a|b|x", 1)
  {
    var keys := ["a|b|x", "x|x", "x|x"];
    assert |keys[1]| == 3 && |keys[0]| == 5;
    assert multiset(keys)["a|b|x"] == 1;
    CountAllFirst(keys);
  }

  lemma SplitPipeKey()
    ensures Split("a|b|x", '|')[..2] == ["a", "b"]
  {
    SplitAtFirst("a", '|', "b|x");
    SplitAtFirst("b", '|', "x");
    assert "a|b|x" == "a" + ['|'] + "b|x";
    assert "b|x" == "b" + ['|'] + "x";
  }

  lemma PipePairLink()
    ensures Graph([Path("a|b", "x", "x", "x")]).links[0] == Link("a|b", "x", 1)
  {
    var paths := [Path("a|b", "x", "x", "x")];
    PipeStreams();
    assert multiset(AllPairs(paths))[("a|b", "x")] == 1;
    CountAllFirst(AllPairs(paths));
  }

  /** The first entry of a count table is the first key. */
  lemma CountAllFirst<K(!new)>(keys: seq<K>)
    requires |keys| > 0
    ensures |CountAll(keys)| > 0 && CountAll(keys)[0] == Entry(keys[0], multiset(keys)[keys[0]])
  {
    CountAllCorrect(keys);
    FirstAppearanceFirst(keys);
  }

  /** The names of the example row have nothing to trim. */
  lemma PlainNames()
    ensures Normalize(Some("a|b")) == "a|b" && Normalize(Some("x")) == "x"
  {
    NormalizePlain("a|b");
    NormalizePlain("x");
  }

  /** A name that neither starts nor ends with whitespace is kept as is. */
  lemma NormalizePlain(s: string)
    requires |s| > 0 && !IsWhitespace(s[0]) && !IsWhitespace(s[|s| - 1])
    ensures Normalize(Some(s)) == s
  {
    assert !AllWhitespace(s);
  }
}

=== FILE: radar.dfy ===
/** The team radar of src/viz/DesignCollabRadar.tsx: one axis per team,
    all axes sharing one scale, with the project count and the criticality
    of each team plotted against it. */
module Radar {

  /** One team: its name, project count and criticality. */
  datatype TeamProjects = TeamProjects(name: string, count: int, criticidad: int)

  /** One radar axis. */
  datatype Indicator = Indicator(name: string, max: int)

  /** What the component renders: the "no data" text, or the chart. */
  datatype RadarView =
    | NoData
    | Chart(indicators: seq<Indicator>, projectValues: seq<int>,
            criticidadValues: seq<int>, radarMax: int)

  /** `data.reduce((max, item) => Math.max(max, item.count), 0)`. */
  function MaxCount(data: seq<TeamProjects>): (m: int)
    ensures m >= 0
    ensures forall i :: 0 <= i < |data| ==> data[i].count <= m
    ensures m == 0 || exists i :: 0 <= i < |data| && data[i].count == m
  {
    if |data| == 0 then 0
    else
      var n := |data| - 1;
      var p := MaxCount(data[..n]);
      assert forall i :: 0 <= i < n ==> data[..n][i] == data[i];
      if data[n].count > p then data[n].count else p
  }

  /** `data.reduce((max, item) => Math.max(max, item.criticidad), 0)`. */
  function MaxCriticidad(data: seq<TeamProjects>): (m: int)
    ensures m >= 0
    ensures forall i :: 0 <= i < |data| ==> data[i].criticidad <= m
    ensures m == 0 || exists i :: 0 <= i < |data| && data[i].criticidad == m
  {
    if |data| == 0 then 0
    else
      var n := |data| - 1;
      var p := MaxCriticidad(data[..n]);
      assert forall i :: 0 <= i < n ==> data[..n][i] == data[i];
      if data[n].criticidad > p then data[n].criticidad else p
  }

  /** A scale that fits the data: at least 5, above every count (so no
      count touches the rim) and at least every criticality. */
  predicate Fits(data: seq<TeamProjects>, m: int) {
    && m >= 5
    && (forall i :: 0 <= i < |data| ==> data[i].count < m)
    && (forall i :: 0 <= i < |data| ==> data[i].criticidad <= m)
  }

  /** `Math.max(5, maxCount + 1, maxCrit)`. */
  function RadarMax(data: seq<TeamProjects>): (m: int)
    ensures Fits(data, m)
  {
    var a := MaxCount(data) + 1;
    var b := MaxCriticidad(data);
    if a >= b && a >= 5 then a else if b >= 5 then b else 5
  }

  /** The scale is the smallest that fits. */
  lemma RadarMaxLeast(data: seq<TeamProjects>, m: int)
    requires Fits(data, m)
    ensures RadarMax(data) <= m
  {
    if MaxCount(data) > 0 {
      var i :| 0 <= i < |data| && data[i].count == MaxCount(data);
    }
    if MaxCriticidad(data) > 0 {
      var i :| 0 <= i < |data| && data[i].criticidad == MaxCriticidad(data);
    }
  }

  /** The component: the "no data" text for an empty list, otherwise one
      axis per team in order, all with the common scale, and the two value
      series in the same order. */
  function RadarOf(data: seq<TeamProjects>): (v: RadarView)
    ensures v.NoData? <==> |data| == 0
    ensures v.Chart? ==> v.radarMax == RadarMax(data)
    ensures v.Chart? ==> |v.indicators| == |v.projectValues| == |v.criticidadValues| == |data|
    ensures v.Chart? ==> forall i :: 0 <= i < |data| ==>
              && v.indicators[i] == Indicator(data[i].name, v.radarMax)
              && v.projectValues[i] == data[i].count
              && v.criticidadValues[i] == data[i].criticidad
  {
    if |data| == 0 then NoData
    else
      var m := RadarMax(data);
      Chart(seq(|data|, i requires 0 <= i < |data| => Indicator(data[i].name, m)),
            seq(|data|, i requires 0 <= i < |data| => data[i].count),
            seq(|data|, i requires 0 <= i < |data| => data[i].criticidad),
            m)
  }

  /** Every plotted value lies inside its axis: counts strictly, the
      criticality possibly on the rim. */
  lemma ValuesInsideAxes(data: seq<TeamProjects>, i: nat)
    requires i < |data|
    ensures RadarOf(data).Chart?
    ensures RadarOf(data).projectValues[i] < RadarOf(data).indicators[i].max
    ensures RadarOf(data).criticidadValues[i] <= RadarOf(data).indicators[i].max
  {
  }

  /** The teams can be read back from the chart. */
  lemma ChartRoundTrip(data: seq<TeamProjects>)
    requires |data| > 0
    ensures var v := RadarOf(data);
            seq(|data|, i requires 0 <= i < |data| =>
              TeamProjects(v.indicators[i].name, v.projectValues[i], v.criticidadValues[i])) == data
  {
  }
}

=== FILE: sentiment_basics.dfy ===
/** Score classification, the driver-label sanitiser and the
    largest-remainder rounding of three percentages (src/features/viz/Sentiment.ts). */
module SentimentBasics {
  import opened Wrappers
  import opened Text

  datatype SentimentClass = Detractor | Neutro | Promotor

  /** `scoreToSentiment`: only a score of exactly 4 is neutral, so 3.5 and
      4.5 are both promoters. */
  function ScoreToSentiment(score: real): (r: SentimentClass)
    ensures r == Detractor <==> score <= 3.0
    ensures r == Neutro <==> score == 4.0
    ensures r == Promotor <==> score > 3.0 && score != 4.0
  {
    if score <= 3.0 then Detractor
    else if score == 4.0 then Neutro
    else Promotor
  }

  /** The conditional expression the row loop uses instead of calling
      `scoreToSentiment`. */
  function InlineClassification(score: real): SentimentClass {
    if score <= 3.0 then Detractor else (if score == 4.0 then Neutro else Promotor)
  }

  lemma InlineClassificationAgrees(score: real)
    ensures InlineClassification(score) == ScoreToSentiment(score)
    ensures InlineClassification(3.5) == Promotor && InlineClassification(4.5) == Promotor
  {
  }

  /** Three integers, one per sentiment class. */
  datatype Triple = Triple(d: int, n: int, p: int) {
    function Sum(): int { d + n + p }
    function At(i: nat): int
      requires i < 3
    {
      if i == 0 then d else if i == 1 then n else p
    }
  }

  function Frac(x: real): (f: real)
    ensures 0.0 <= f < 1.0
  {
    x - x.Floor as real
  }

  /** Index j sorts before index i when the fractional parts are sorted
      descending by a stable sort: a larger fraction, or an equal fraction
      and an earlier argument. */
  predicate Before(fa: real, fb: real, fc: real, j: nat, i: nat)
    requires j < 3 && i < 3
  {
    var f := [fa, fb, fc];
    f[j] > f[i] || (f[j] == f[i] && j < i)
  }

  /** Position of index i in the stably sorted `diffs` array. */
  function Rank(fa: real, fb: real, fc: real, i: nat): (r: nat)
    requires i < 3
    ensures r < 3
  {
    (if Before(fa, fb, fc, 0, i) then 1 else 0)
    + (if Before(fa, fb, fc, 1, i) then 1 else 0)
    + (if Before(fa, fb, fc, 2, i) then 1 else 0)
  }

  /** How many units the `while (sum < 100 && i < 3)` loop hands out. */
  function Shortfall(floorSum: int): (k: nat)
    ensures k <= 3
    ensures floorSum < 100 ==> k == if 100 - floorSum < 3 then 100 - floorSum else 3
    ensures floorSum >= 100 ==> k == 0
  {
    if floorSum >= 100 then 0 else if 100 - floorSum < 3 then 100 - floorSum else 3
  }

  /** `roundRowTo100`: floor all three values, then give one more unit to
      each of the first `Shortfall` indices in descending order of
      fractional part (ties: earlier argument first). */
  function RoundRowTo100(a: real, b: real, c: real): (r: Triple)
    ensures r.d == a.Floor || r.d == a.Floor + 1
    ensures r.n == b.Floor || r.n == b.Floor + 1
    ensures r.p == c.Floor || r.p == c.Floor + 1
    ensures r.Sum() == a.Floor + b.Floor + c.Floor + Shortfall(a.Floor + b.Floor + c.Floor)
    ensures a + b + c == 100.0 ==> r.Sum() == 100
    ensures forall i, j :: 0 <= i < 3 && 0 <= j < 3 && i != j
              && r.At(i) == Triple(a.Floor, b.Floor, c.Floor).At(i) + 1
              && r.At(j) == Triple(a.Floor, b.Floor, c.Floor).At(j)
              ==> Before(Frac(a), Frac(b), Frac(c), i, j)
  {
    var fl := Triple(a.Floor, b.Floor, c.Floor);
    var k := Shortfall(fl.Sum());
    var fa, fb, fc := Frac(a), Frac(b), Frac(c);
    RanksDistinct(fa, fb, fc);
    RanksOrdered(fa, fb, fc);
    var r := Triple(fl.d + (if Rank(fa, fb, fc, 0) < k then 1 else 0),
                    fl.n + (if Rank(fa, fb, fc, 1) < k then 1 else 0),
                    fl.p + (if Rank(fa, fb, fc, 2) < k then 1 else 0));
    FloorSumNearHundred(a, b, c);
    r
  }

  /** The three ranks are 0, 1 and 2 in some order. */
  lemma RanksDistinct(fa: real, fb: real, fc: real)
    ensures Rank(fa, fb, fc, 0) != Rank(fa, fb, fc, 1)
    ensures Rank(fa, fb, fc, 0) != Rank(fa, fb, fc, 2)
    ensures Rank(fa, fb, fc, 1) != Rank(fa, fb, fc, 2)
  {
  }

  /** A lower rank means sorted earlier. */
  lemma RanksOrdered(fa: real, fb: real, fc: real)
    ensures forall i, j :: 0 <= i < 3 && 0 <= j < 3 && Rank(fa, fb, fc, i) < Rank(fa, fb, fc, j)
              ==> Before(fa, fb, fc, i, j)
  {
  }

  /** Three values summing to 100 have floors summing to 98, 99 or 100. */
  lemma FloorSumNearHundred(a: real, b: real, c: real)
    ensures a + b + c == 100.0 ==> 97 < a.Floor + b.Floor + c.Floor <= 100
  {
  }

  /** Longest driver label kept by the sanitiser. */
  const MaxDriverLength: nat := 48

  /** `.` in a JavaScript regular expression does not match these. */
  predicate IsLineTerminator(c: char) {
    c == '\n' || c == '\r' || c == '\U{2028}' || c == '\U{2029}'
  }

  /** The texts `/^"(.*)"$/` matches: a double quote at each end and no
      line terminator in between. */
  predicate Quoted(s: string) {
    && |s| >= 2 && s[0] == '"' && s[|s| - 1] == '"'
    && forall i :: 1 <= i < |s| - 1 ==> !IsLineTerminator(s[i])
  }

  /** `s.replace(/^"(.*)"$/, '$1')`: drops one pair of surrounding double
      quotes when nothing between them is a line terminator. */
  function StripQuotes(s: string): (r: string)
    ensures Quoted(s) ==> |r| == |s| - 2 && forall i :: 0 <= i < |r| ==> r[i] == s[i + 1]
    ensures !Quoted(s) ==> r == s
  {
    if Quoted(s) then s[1..|s| - 1] else s
  }

  /** Only the outer pair of quotes goes: a quoted label keeps the quotes
      inside it, and a line break between the quotes keeps them all. */
  lemma StripQuotesExamples()
    ensures StripQuotes("\"a\"") == "a"
    ensures StripQuotes("\"\"a\"\"") == "\"a\""
    ensures StripQuotes("\"a\nb\"") == "\"a\nb\""
  {
    var s := "\"a\nb\"";
    assert IsLineTerminator(s[2]);
    var t := "\"\"a\"\"";
    assert t[1..|t| - 1] == "\"a\"";
  }

  /** The letters of `/[a-záéíóúñ]/i`. */
  predicate IsDriverLetter(c: char) {
    ('a' <= c <= 'z') || ('A' <= c <= 'Z')
    || c == 'á' || c == 'é' || c == 'í' || c == 'ó' || c == 'ú' || c == 'ñ'
    || c == 'Á' || c == 'É' || c == 'Í' || c == 'Ó' || c == 'Ú' || c == 'Ñ'
  }

  predicate HasDriverLetter(s: string) {
    exists i | 0 <= i < |s| :: IsDriverLetter(s[i])
  }

  /** Markup and URL noise that rejects a label. Lower-casing only ASCII and
      Latin-1 letters is exact here: no other character lower-cases to a
      single ASCII letter of these three patterns. */
  predicate HasNoise(s: string) {
    var lower := Lower(s);
    Contains(lower, "http") || Contains(lower, "@import") || Contains(lower, "display=swap")
  }

  /** The text the sanitiser works on: trimmed, then de-quoted. */
  function Dequoted(name: string): string {
    StripQuotes(Trim(name))
  }

  /** `cleanDriverName`. The letter test looks at the whole label, before
      truncation, so the kept prefix itself may contain no letter. */
  function CleanDriverName(name: string): (r: Option<string>)
    ensures r.None? <==> Dequoted(name) == [] || HasNoise(Dequoted(name)) || !HasDriverLetter(Dequoted(name))
    ensures r.Some? ==> 0 < |r.value| <= MaxDriverLength
    ensures r.Some? ==> |r.value| <= |Dequoted(name)| && r.value == Dequoted(name)[..|r.value|]
    ensures r.Some? ==> |r.value| == |Dequoted(name)| || |r.value| == MaxDriverLength
  {
    var s := Dequoted(name);
    if s == [] then None
    else if HasNoise(s) then None
    else if !HasDriverLetter(s) then None
    else Some(if |s| > MaxDriverLength then s[..MaxDriverLength] else s)
  }
}

=== FILE: sentiment_json.dfy ===
/** `aggregateFromJSON` (src/features/viz/SentimentModel_v1.ts): the same
    per-driver stacks built from pre-counted JSON rows, with round-half-up
    percentages and the promotor share taking the remainder. */
module SentimentJson {
  import opened Wrappers
  import opened Text
  import opened JsNumber
  import opened SentimentBasics
  import opened Tallies
  import Counting
  import StableSort

  /** `Number(r.cantidad ?? 0)`: a missing amount counts as zero; an amount
      that is not a finite number rejects the row. Present amounts are
      non-negative integers. */
  datatype Cantidad = Missing | Amount(n: nat) | NotFinite

  /** One element of the input array. `drivers` and `sentiments` hold the
      text `String(...)` gives for the field, or None when it is absent. */
  datatype JsonRow = JsonRow(drivers: Option<string>, sentiments: Option<string>, cantidad: Cantidad)

  /** The bucket a sentiment string names after lower-casing, if any. */
  function SentimentBucket(s: string): (b: Option<SentimentClass>)
    ensures b == Some(Detractor) <==> Lower(s) == "detractor"
    ensures b == Some(Neutro) <==> Lower(s) == "neutro"
    ensures b == Some(Promotor) <==> Lower(s) == "promotor"
  {
    var l := Lower(s);
    if l == "detractor" then Some(Detractor)
    else if l == "neutro" then Some(Neutro)
    else if l == "promotor" then Some(Promotor)
    else None
  }

  /** The contribution of one array element, or None when it is skipped:
      a null element, a blank driver, or a non-finite amount. */
  function RowItem(r: Option<JsonRow>): (it: Option<Item>)
    ensures it.None? <==> r.None? || Trim(r.value.drivers.GetOr("")) == [] || r.value.cantidad.NotFinite?
    ensures it.Some? ==> && it.value.name == Trim(r.value.drivers.GetOr(""))
                         && |it.value.name| > 0
                         && it.value.bucket == SentimentBucket(r.value.sentiments.GetOr(""))
                         && it.value.amount == (if r.value.cantidad.Amount? then r.value.cantidad.n else 0)
  {
    match r
    case None => None
    case Some(row) =>
      var driver := Trim(row.drivers.GetOr(""));
      if driver == [] || row.cantidad.NotFinite? then None
      else
        var n := match row.cantidad case Amount(n) => n case _ => 0;
        Some(Item(driver, SentimentBucket(row.sentiments.GetOr("")), n))
  }

  /** Element `i` of `xs` is mapped by `f` to `y`. */
  predicate MapsAt<A, B(==)>(xs: seq<A>, f: A -> Option<B>, i: int, y: B) {
    0 <= i < |xs| && f(xs[i]) == Some(y)
  }

  /** The values `f` gives for the elements of `xs` it does not skip, in
      order. */
  function Keep<A, B(==,!new)>(xs: seq<A>, f: A -> Option<B>): (r: seq<B>)
    ensures |r| <= |xs|
    ensures forall y :: y in r <==> exists i :: MapsAt(xs, f, i, y)
  {
    if |xs| == 0 then []
    else
      var front := xs[..|xs| - 1];
      var init := Keep(front, f);
      forall y ensures (y in init || f(xs[|xs| - 1]) == Some(y)) <==> exists i :: MapsAt(xs, f, i, y) {
        MapsAtStep(xs, front, f, y);
      }
      match f(xs[|xs| - 1])
      case None => init
      case Some(y) => init + [y]
  }

  lemma MapsAtStep<A, B>(xs: seq<A>, front: seq<A>, f: A -> Option<B>, y: B)
    requires |xs| > 0 && front == xs[..|xs| - 1]
    ensures (exists i :: MapsAt(xs, f, i, y))
            <==> (exists i :: MapsAt(front, f, i, y)) || f(xs[|xs| - 1]) == Some(y)
  {
    var n := |xs| - 1;
    if exists i :: MapsAt(xs, f, i, y) {
      var i :| MapsAt(xs, f, i, y);
      if i < n {
        assert xs[i] == front[i];
        assert MapsAt(front, f, i, y);
      }
    }
    if exists i :: MapsAt(front, f, i, y) {
      var i :| MapsAt(front, f, i, y);
      assert xs[i] == front[i];
      assert MapsAt(xs, f, i, y);
    }
    if f(xs[n]) == Some(y) {
      assert MapsAt(xs, f, n, y);
    }
  }

  /** Keep preserves order: it distributes over concatenation. */
  lemma {:induction false} KeepAppend<A, B(!new)>(a: seq<A>, b: seq<A>, f: A -> Option<B>)
    ensures Keep(a + b, f) == Keep(a, f) + Keep(b, f)
    decreases |b|
  {
    if |b| == 0 {
      assert a + b == a;
    } else {
      var b' := b[..|b| - 1];
      assert (a + b)[..|a + b| - 1] == a + b';
      assert (a + b)[|a + b| - 1] == b[|b| - 1];
      KeepAppend(a, b', f);
    }
  }

  /** The kept contributions, in input order: exactly the items of the
      elements RowItem does not skip. */
  function Items(rows: seq<Option<JsonRow>>): (r: seq<Item>)
    ensures |r| <= |rows|
    ensures forall it :: it in r <==> exists i :: MapsAt(rows, RowItem, i, it)
    ensures forall i :: 0 <= i < |r| ==> |r[i].name| > 0
  {
    var r := Keep(rows, RowItem);
    forall i | 0 <= i < |r| ensures |r[i].name| > 0 {
      assert r[i] in r;
    }
    r
  }

  /** Items keeps input order: the items of two arrays in a row are the
      items of the first followed by those of the second. */
  lemma ItemsAppend(a: seq<Option<JsonRow>>, b: seq<Option<JsonRow>>)
    ensures Items(a + b) == Items(a) + Items(b)
  {
    KeepAppend(a, b, RowItem);
  }

  /** `rows || []`: an absent array is read as an empty one. */
  function InputItems(rows: Option<seq<Option<JsonRow>>>): seq<Item> {
    match rows
    case None => []
    case Some(rs) => Items(rs)
  }

  function TotalKey(t: Tally): int {
    t.total
  }

  function TallyName(t: Tally): string {
    t.name
  }

  /** `entries`, sorted by descending total when asked; the sort is stable. */
  function Entries(rows: Option<seq<Option<JsonRow>>>, sortByTotalDesc: bool): seq<Tally> {
    var acc := Accumulate(InputItems(rows));
    if sortByTotalDesc then StableSort.Sort(acc, TotalKey) else acc
  }

  // ---------------------------------------------------------------------
  // Percentages.

  /** `Math.round((c / t) * 100)` in exact arithmetic. */
  function RoundHalfUp(c: nat, t: nat): (r: nat)
    requires t > 0
  {
    (200 * c + t) / (2 * t)
  }

  /** RoundHalfUp is the nearest integer to 100·c/t, halves going up:
      r - 1/2 <= 100·c/t < r + 1/2, scaled by 2·t. */
  lemma RoundHalfUpNearest(c: nat, t: nat)
    requires t > 0
    ensures (2 * RoundHalfUp(c, t) - 1) * t <= 200 * c < (2 * RoundHalfUp(c, t) + 1) * t
  {
    var r := RoundHalfUp(c, t);
    var m := (200 * c + t) % (2 * t);
    assert 200 * c + t == r * (2 * t) + m;
    assert 0 <= m < 2 * t;
  }

  /** The three percentages of one driver: detractor and neutral rounded
      half-up over `Math.max(1, total)`, promotor the clamped remainder. */
  function Percentages(t: Tally): (r: Triple)
    ensures r.p >= 0
    ensures r.d + r.n <= 100 ==> r.Sum() == 100
    ensures r.d + r.n > 100 ==> r.p == 0
    ensures t.total == 0 && t.detr + t.neut <= t.total ==> r == Triple(0, 0, 100)
    ensures t.detr + t.neut <= t.total ==> r.d + r.n <= 101
    ensures var tt := if t.total > 1 then t.total else 1;
            && (2 * r.d - 1) * tt <= 200 * t.detr < (2 * r.d + 1) * tt
            && (2 * r.n - 1) * tt <= 200 * t.neut < (2 * r.n + 1) * tt
  {
    var tt := if t.total > 1 then t.total else 1;
    var d := RoundHalfUp(t.detr, tt);
    var n := RoundHalfUp(t.neut, tt);
    var p := if 100 - d - n > 0 then 100 - d - n else 0;
    RoundHalfUpNearest(t.detr, tt);
    RoundHalfUpNearest(t.neut, tt);
    OvershootAtMostOne(t.detr, t.neut, tt);
    Triple(d, n, p)
  }

  /** Two half-up roundings of shares that fit in the total overshoot 100
      by at most one. */
  lemma OvershootAtMostOne(a: nat, b: nat, t: nat)
    requires t > 0
    ensures a + b <= t ==> RoundHalfUp(a, t) + RoundHalfUp(b, t) <= 101
  {
    if a + b <= t {
      var d, n := RoundHalfUp(a, t), RoundHalfUp(b, t);
      RoundHalfUpNearest(a, t);
      RoundHalfUpNearest(b, t);
      assert (2 * d - 1) * t + (2 * n - 1) * t <= 200 * (a + b);
      assert 200 * (a + b) <= 200 * t;
      assert (2 * (d + n) - 2) * t <= 200 * t;
      assert 2 * (d + n) - 2 <= 200;
    }
  }

  /** 3 detractors and 5 neutrals out of 8 round to 38 and 63: the row sums
      to 101 and promotor is clamped to 0. */
  lemma RoundingOvershoot()
    ensures Percentages(Tally("x", 3, 5, 0, 8)) == Triple(38, 63, 0)
  {
  }

  // ---------------------------------------------------------------------
  // The nine output arrays.

  /** The `Aggregated` record. */
  datatype Aggregated = Aggregated(
    labels: seq<string>, drivers: seq<string>, totals: seq<nat>,
    detractorAbs: seq<nat>, neutroAbs: seq<nat>, promotorAbs: seq<nat>,
    detractorPct: seq<int>, neutroPct: seq<int>, promotorPct: seq<int>)
  {
    predicate Parallel(n: nat) {
      && |labels| == n && |drivers| == n && |totals| == n
      && |detractorAbs| == n && |neutroAbs| == n && |promotorAbs| == n
      && |detractorPct| == n && |neutroPct| == n && |promotorPct| == n
    }
  }

  function Label(t: Tally): string {
    t.name + " (n=" + NatToString(t.total) + ")"
  }

  function AggregatedOf(es: seq<Tally>): (r: Aggregated)
    ensures r.Parallel(|es|)
    ensures forall i :: 0 <= i < |es| ==>
              && r.labels[i] == Label(es[i]) && r.drivers[i] == es[i].name
              && r.totals[i] == es[i].total
              && r.detractorAbs[i] == es[i].detr && r.neutroAbs[i] == es[i].neut
              && r.promotorAbs[i] == es[i].prom
              && Triple(r.detractorPct[i], r.neutroPct[i], r.promotorPct[i]) == Percentages(es[i])
  {
    Aggregated(
      seq(|es|, i requires 0 <= i < |es| => Label(es[i])),
      seq(|es|, i requires 0 <= i < |es| => es[i].name),
      seq(|es|, i requires 0 <= i < |es| => es[i].total),
      seq(|es|, i requires 0 <= i < |es| => es[i].detr),
      seq(|es|, i requires 0 <= i < |es| => es[i].neut),
      seq(|es|, i requires 0 <= i < |es| => es[i].prom),
      seq(|es|, i requires 0 <= i < |es| => Percentages(es[i]).d),
      seq(|es|, i requires 0 <= i < |es| => Percentages(es[i]).n),
      seq(|es|, i requires 0 <= i < |es| => Percentages(es[i]).p))
  }

  /** The tally position `i` of the output describes. */
  function TallyAt(r: Aggregated, i: nat): Tally
    requires r.Parallel(|r.drivers|) && i < |r.drivers|
  {
    Tally(r.drivers[i], r.detractorAbs[i], r.neutroAbs[i], r.promotorAbs[i], r.totals[i])
  }

  /** Every position holds one kept driver's exact sums, its label and its
      percentages, and every kept driver has a position. */
  ghost predicate Describes(items: seq<Item>, r: Aggregated)
    requires r.Parallel(|r.drivers|)
  {
    && (forall i :: 0 <= i < |r.drivers| ==>
          && GoodEntry(items, TallyAt(r, i))
          && r.labels[i] == Label(TallyAt(r, i))
          && Triple(r.detractorPct[i], r.neutroPct[i], r.promotorPct[i]) == Percentages(TallyAt(r, i)))
    && (forall x :: x in r.drivers <==> x in ItemNames(items))
  }

  /** `aggregateFromJSON(rows, sortByTotalDesc)`. */
  function AggregateFromJson(rows: Option<seq<Option<JsonRow>>>, sortByTotalDesc: bool): (r: Aggregated)
    ensures r.Parallel(|Entries(rows, sortByTotalDesc)|)
    ensures Describes(InputItems(rows), r)
    ensures forall i :: 0 <= i < |r.drivers| ==>
              && |r.drivers[i]| > 0
              && r.promotorPct[i] >= 0
              && r.detractorAbs[i] + r.neutroAbs[i] + r.promotorAbs[i] <= r.totals[i]
    ensures forall i, j :: 0 <= i < j < |r.drivers| ==> r.drivers[i] != r.drivers[j]
    ensures sortByTotalDesc ==> forall i, j :: 0 <= i < j < |r.totals| ==> r.totals[i] >= r.totals[j]
  {
    var es := Entries(rows, sortByTotalDesc);
    EntriesCorrect(rows, sortByTotalDesc);
    AggregatedFacts(InputItems(rows), es);
    AggregatedOf(es)
  }

  lemma AggregatedFacts(items: seq<Item>, es: seq<Tally>)
    requires forall i :: 0 <= i < |es| ==> GoodEntry(items, es[i])
    requires forall x :: x in Names(es) <==> x in ItemNames(items)
    ensures Describes(items, AggregatedOf(es))
  {
    var r := AggregatedOf(es);
    forall i | 0 <= i < |r.drivers|
      ensures && GoodEntry(items, TallyAt(r, i))
              && r.labels[i] == Label(TallyAt(r, i))
              && Triple(r.detractorPct[i], r.neutroPct[i], r.promotorPct[i]) == Percentages(TallyAt(r, i))
    {
      assert TallyAt(r, i) == es[i];
    }
    assert r.drivers == Names(es);
  }

  // ---------------------------------------------------------------------
  // What the entries hold.

  /** The entry for driver `t.name` after `items`: its sums, with the
      unrecognised amounts counted in the total only. */
  ghost predicate GoodEntry(items: seq<Item>, t: Tally) {
    && Counted(items, t)
    && |t.name| > 0
    && t.detr + t.neut + t.prom + UnknownTotal(items, t.name) == t.total
  }

  /** One entry per distinct kept driver with its exact sums; sorted by
      descending total with ties in first-appearance order, or left in
      first-appearance order. */
  lemma EntriesCorrect(rows: Option<seq<Option<JsonRow>>>, sortByTotalDesc: bool)
    ensures forall i, j :: 0 <= i < j < |Entries(rows, sortByTotalDesc)| ==>
              Entries(rows, sortByTotalDesc)[i].name != Entries(rows, sortByTotalDesc)[j].name
    ensures forall x :: x in Names(Entries(rows, sortByTotalDesc)) <==> x in ItemNames(InputItems(rows))
    ensures forall i :: 0 <= i < |Entries(rows, sortByTotalDesc)| ==>
              GoodEntry(InputItems(rows), Entries(rows, sortByTotalDesc)[i])
    ensures !sortByTotalDesc ==> Names(Entries(rows, false)) == Counting.FirstAppearance(ItemNames(InputItems(rows)))
    ensures sortByTotalDesc ==> StableSort.SortedDesc(Entries(rows, true), TotalKey)
    ensures sortByTotalDesc ==> forall k :: StableSort.KeyFilter(Entries(rows, true), TotalKey, k)
                                           == StableSort.KeyFilter(Entries(rows, false), TotalKey, k)
  {
    var items := InputItems(rows);
    var acc := Accumulate(items);
    AccumulateNames(items);
    AccumulateFacts(items, acc);
    if sortByTotalDesc {
      SortedFacts(items, acc, StableSort.Sort(acc, TotalKey));
    }
  }

  lemma SortedFacts(items: seq<Item>, acc: seq<Tally>, r: seq<Tally>)
    requires forall i :: 0 <= i < |acc| ==> GoodEntry(items, acc[i])
    requires forall i, j :: 0 <= i < j < |acc| ==> acc[i].name != acc[j].name
    requires r == StableSort.Sort(acc, TotalKey)
    ensures forall i, j :: 0 <= i < j < |r| ==> r[i].name != r[j].name
    ensures forall x :: x in Names(r) <==> x in Names(acc)
    ensures forall i :: 0 <= i < |r| ==> GoodEntry(items, r[i])
  {
    assert forall i, j :: 0 <= i < j < |acc| ==> TallyName(acc[i]) != TallyName(acc[j]);
    StableSort.PermutationSameElements(acc, r);
    StableSort.PermutationKeepsDistinct(acc, r, TallyName);
    SameElementsSameNames(acc, r);
    forall i | 0 <= i < |r| ensures GoodEntry(items, r[i]) {
      assert r[i] in r;
      var j :| 0 <= j < |acc| && acc[j] == r[i];
    }
  }

  lemma AccumulateFacts(items: seq<Item>, acc: seq<Tally>)
    requires acc == Accumulate(items)
    requires forall i :: 0 <= i < |items| ==> |items[i].name| > 0
    ensures forall i :: 0 <= i < |acc| ==> GoodEntry(items, acc[i])
  {
    AccumulateCounts(items);
    AccumulateNames(items);
    forall i | 0 <= i < |acc| ensures GoodEntry(items, acc[i]) {
      var x := acc[i].name;
      assert acc[i] in acc;
      assert x in ItemNames(items) by {
        assert Names(acc)[i] == x;
      }
      var j :| 0 <= j < |items| && ItemNames(items)[j] == x;
      BucketsMakeTotal(items, x);
    }
  }

  /** When every kept sentiment is recognised the buckets add up to the
      total. */
  lemma AllRecognisedAddUp(rows: Option<seq<Option<JsonRow>>>, sortByTotalDesc: bool)
    requires forall i :: 0 <= i < |InputItems(rows)| ==> InputItems(rows)[i].bucket.Some?
    ensures forall i :: 0 <= i < |Entries(rows, sortByTotalDesc)| ==>
              Entries(rows, sortByTotalDesc)[i].detr + Entries(rows, sortByTotalDesc)[i].neut
              + Entries(rows, sortByTotalDesc)[i].prom == Entries(rows, sortByTotalDesc)[i].total
  {
    EntriesCorrect(rows, sortByTotalDesc);
    var es := Entries(rows, sortByTotalDesc);
    forall i | 0 <= i < |es| ensures es[i].detr + es[i].neut + es[i].prom == es[i].total {
      NoUnknown(InputItems(rows), es[i].name);
    }
  }

  /** An unrecognised sentiment still counts in the total. */
  lemma UnknownSentimentCountsInTotal()
    ensures Entries(Some([Some(JsonRow(Some("a"), Some("otro"), Amount(2)))]), false)
            == [Tally("a", 0, 0, 0, 2)]
  {
    var rows := [Some(JsonRow(Some("a"), Some("otro"), Amount(2)))];
    OtroRow();
    assert rows[..0] == [];
    assert Items(rows) == [Item("a", None, 2)];
    assert [Item("a", None, 2)][..0] == [];
  }

  lemma OtroRow()
    ensures RowItem(Some(JsonRow(Some("a"), Some("otro"), Amount(2)))) == Some(Item("a", None, 2))
  {
    var a := "a";
    assert !IsWhitespace(a[0]) && !IsWhitespace(a[|a| - 1]);
    assert Trim(a) == a;
    OtroUnrecognised();
  }

  lemma OtroUnrecognised()
    ensures SentimentBucket("otro") == None
  {
    assert |Lower("otro")| == 4;
  }
}

=== FILE: stable_sort.dfy ===
/** `Array.prototype.sort` with a comparator `(u, v) => key(v) - key(u)`:
    a stable sort by descending integer key, written as an insertion sort. */
module StableSort {

  ghost predicate SortedDesc<T>(s: seq<T>, key: T -> int) {
    forall i, j :: 0 <= i < j < |s| ==> key(s[i]) >= key(s[j])
  }

  /** The elements of `s` whose key is `k`, in their order in `s`. Two
      sequences with equal KeyFilter for every key list equal-key elements
      in the same relative order. */
  function KeyFilter<T>(s: seq<T>, key: T -> int, k: int): (r: seq<T>)
    ensures |r| <= |s|
    ensures forall x :: x in r ==> x in s && key(x) == k
  {
    if |s| == 0 then []
    else (if key(s[0]) == k then [s[0]] else []) + KeyFilter(s[1..], key, k)
  }

  lemma {:induction false} KeyFilterAppend<T>(a: seq<T>, b: seq<T>, key: T -> int, k: int)
    ensures KeyFilter(a + b, key, k) == KeyFilter(a, key, k) + KeyFilter(b, key, k)
    decreases |a|
  {
    if |a| == 0 {
      assert a + b == b;
    } else {
      assert (a + b)[0] == a[0];
      assert (a + b)[1..] == a[1..] + b;
      KeyFilterAppend(a[1..], b, key, k);
    }
  }

  lemma {:induction false} KeyFilterNone<T>(s: seq<T>, key: T -> int, k: int)
    requires forall i :: 0 <= i < |s| ==> key(s[i]) < k
    ensures KeyFilter(s, key, k) == []
    decreases |s|
  {
    if |s| > 0 {
      KeyFilterNone(s[1..], key, k);
    }
  }

  /** Places `x` after every element of `t` whose key is at least key(x). */
  function Insert<T>(t: seq<T>, x: T, key: T -> int): (r: seq<T>)
    ensures |r| == |t| + 1
    decreases |t|
  {
    if |t| == 0 then [x]
    else if key(t[0]) < key(x) then [x] + t
    else [t[0]] + Insert(t[1..], x, key)
  }

  /** Insertion adds exactly `x`. */
  lemma {:induction false} InsertMultiset<T>(t: seq<T>, x: T, key: T -> int)
    ensures multiset(Insert(t, x, key)) == multiset(t) + multiset{x}
    decreases |t|
  {
    if |t| > 0 && key(t[0]) >= key(x) {
      InsertMultiset(t[1..], x, key);
      assert t == [t[0]] + t[1..];
    }
  }

  /** A bound on every key of `t` and on key(x) bounds every key of the
      insertion. */
  lemma {:induction false} InsertBounded<T>(t: seq<T>, x: T, key: T -> int, b: int)
    requires forall i :: 0 <= i < |t| ==> key(t[i]) <= b
    requires key(x) <= b
    ensures forall i :: 0 <= i < |Insert(t, x, key)| ==> key(Insert(t, x, key)[i]) <= b
    decreases |t|
  {
    var r := Insert(t, x, key);
    if |t| > 0 && key(t[0]) >= key(x) {
      var r' := Insert(t[1..], x, key);
      InsertBounded(t[1..], x, key, b);
      assert r == [t[0]] + r';
      forall i | 0 <= i < |r| ensures key(r[i]) <= b {
        if i > 0 {
          assert r[i] == r'[i - 1];
        }
      }
    } else if |t| > 0 {
      assert r == [x] + t;
      forall i | 0 <= i < |r| ensures key(r[i]) <= b {
        if i > 0 {
          assert r[i] == t[i - 1];
        }
      }
    }
  }

  lemma {:induction false} InsertOrder<T>(t: seq<T>, x: T, key: T -> int)
    requires SortedDesc(t, key)
    ensures SortedDesc(Insert(t, x, key), key)
    decreases |t|
  {
    var r := Insert(t, x, key);
    if |t| > 0 && key(t[0]) >= key(x) {
      var r' := Insert(t[1..], x, key);
      assert SortedDesc(t[1..], key) by {
        assert forall i :: 0 <= i < |t[1..]| ==> t[1..][i] == t[i + 1];
      }
      InsertOrder(t[1..], x, key);
      assert forall i :: 0 <= i < |t[1..]| ==> key(t[1..][i]) <= key(t[0]) by {
        assert forall i :: 0 <= i < |t[1..]| ==> t[1..][i] == t[i + 1];
      }
      InsertBounded(t[1..], x, key, key(t[0]));
      assert r == [t[0]] + r';
      forall i, j | 0 <= i < j < |r|
        ensures key(r[i]) >= key(r[j])
      {
        assert r[j] == r'[j - 1];
        if i > 0 {
          assert r[i] == r'[i - 1];
        }
      }
    } else if |t| > 0 {
      assert r == [x] + t;
      forall i, j | 0 <= i < j < |r|
        ensures key(r[i]) >= key(r[j])
      {
        assert r[j] == t[j - 1];
        if i > 0 {
          assert r[i] == t[i - 1];
        }
      }
    }
  }

  /** Insertion in front: every key of `t` is below key(x). */
  lemma InsertFrontKeyFilter<T>(t: seq<T>, x: T, key: T -> int, k: int)
    requires SortedDesc(t, key) && |t| > 0 && key(t[0]) < key(x)
    ensures KeyFilter([x] + t, key, k) == KeyFilter(t, key, k) + (if key(x) == k then [x] else [])
  {
    var xs: seq<T> := if key(x) == k then [x] else [];
    assert ([x] + t)[0] == x && ([x] + t)[1..] == t;
    assert KeyFilter([x] + t, key, k) == xs + KeyFilter(t, key, k);
    if key(x) == k {
      assert forall i :: 0 <= i < |t| ==> key(t[i]) <= key(t[0]);
      KeyFilterNone(t, key, k);
    }
  }

  lemma {:induction false} InsertKeyFilter<T>(t: seq<T>, x: T, key: T -> int, k: int)
    requires SortedDesc(t, key)
    ensures KeyFilter(Insert(t, x, key), key, k)
            == KeyFilter(t, key, k) + (if key(x) == k then [x] else [])
    decreases |t|
  {
    var r := Insert(t, x, key);
    var xs: seq<T> := if key(x) == k then [x] else [];
    if |t| == 0 {
      assert r == [x];
    } else if key(t[0]) < key(x) {
      assert r == [x] + t;
      InsertFrontKeyFilter(t, x, key, k);
    } else {
      var h: seq<T> := if key(t[0]) == k then [t[0]] else [];
      assert SortedDesc(t[1..], key) by {
        assert forall i :: 0 <= i < |t[1..]| ==> t[1..][i] == t[i + 1];
      }
      InsertKeyFilter(t[1..], x, key, k);
      assert r[0] == t[0] && r[1..] == Insert(t[1..], x, key);
      assert KeyFilter(r, key, k) == h + KeyFilter(Insert(t[1..], x, key), key, k);
      assert KeyFilter(t, key, k) == h + KeyFilter(t[1..], key, k);
    }
  }

  /** The sorted permutation: descending by key, and stable. */
  function Sort<T>(s: seq<T>, key: T -> int): (r: seq<T>)
    ensures |r| == |s|
    ensures multiset(r) == multiset(s)
    ensures SortedDesc(r, key)
    ensures forall k :: KeyFilter(r, key, k) == KeyFilter(s, key, k)
    decreases |s|
  {
    if |s| == 0 then []
    else
      var rest := Sort(s[..|s| - 1], key);
      SortStep(s, rest, key);
      Insert(rest, s[|s| - 1], key)
  }

  lemma {:induction false} SortStep<T>(s: seq<T>, rest: seq<T>, key: T -> int)
    requires |s| > 0
    requires SortedDesc(rest, key) && multiset(rest) == multiset(s[..|s| - 1])
    requires forall k :: KeyFilter(rest, key, k) == KeyFilter(s[..|s| - 1], key, k)
    ensures multiset(Insert(rest, s[|s| - 1], key)) == multiset(s)
    ensures SortedDesc(Insert(rest, s[|s| - 1], key), key)
    ensures forall k :: KeyFilter(Insert(rest, s[|s| - 1], key), key, k) == KeyFilter(s, key, k)
  {
    var init, x := s[..|s| - 1], s[|s| - 1];
    assert s == init + [x];
    InsertMultiset(rest, x, key);
    InsertOrder(rest, x, key);
    forall k ensures KeyFilter(Insert(rest, x, key), key, k) == KeyFilter(s, key, k) {
      InsertKeyFilter(rest, x, key, k);
      KeyFilterAppend(init, [x], key, k);
    }
  }

  /** A permutation holds the same elements. */
  lemma PermutationSameElements<T>(s: seq<T>, r: seq<T>)
    requires multiset(r) == multiset(s)
    ensures forall x :: x in r <==> x in s
  {
    forall x ensures x in r <==> x in s {
      assert x in r <==> x in multiset(r);
      assert x in s <==> x in multiset(s);
    }
  }

  /** A permutation of a sequence whose elements differ in `f` still has
      elements that differ in `f`. */
  lemma PermutationKeepsDistinct<T, U>(s: seq<T>, r: seq<T>, f: T -> U)
    requires multiset(r) == multiset(s)
    requires forall a, b :: 0 <= a < b < |s| ==> f(s[a]) != f(s[b])
    ensures forall i, j :: 0 <= i < j < |r| ==> f(r[i]) != f(r[j])
  {
    forall i, j | 0 <= i < j < |r| ensures f(r[i]) != f(r[j]) {
      DistinctAfterPermutation(s, r, f, i, j);
    }
  }

  lemma DistinctAfterPermutation<T, U>(s: seq<T>, r: seq<T>, f: T -> U, i: nat, j: nat)
    requires multiset(r) == multiset(s)
    requires forall a, b :: 0 <= a < b < |s| ==> f(s[a]) != f(s[b])
    requires 0 <= i < j < |r|
    ensures f(r[i]) != f(r[j])
  {
    assert r[i] in multiset(s);
    var a :| 0 <= a < |s| && s[a] == r[i];
    DistinctMultiplicity(s, f, a);
    assert r == r[..j] + [r[j]] + r[j + 1..];
    assert r[i] in r[..j];
    assert multiset(r)[r[i]] >= multiset(r[..j])[r[i]] + multiset([r[j]])[r[i]];
    assert r[j] != r[i];
    assert r[j] in multiset(s);
    var b :| 0 <= b < |s| && s[b] == r[j];
    assert a != b;
  }

  lemma DistinctMultiplicity<T, U>(s: seq<T>, f: T -> U, a: nat)
    requires forall x, y :: 0 <= x < y < |s| ==> f(s[x]) != f(s[y])
    requires a < |s|
    ensures multiset(s)[s[a]] == 1
  {
    assert s == s[..a] + [s[a]] + s[a + 1..];
    assert s[a] !in s[..a];
    assert s[a] !in s[a + 1..];
  }
}

=== FILE: tally.dfy ===
/** Insertion-ordered accumulation of sentiment amounts per driver: the
    dictionary both aggregations build (a plain object in
    src/features/viz/Sentiment.ts, a `Map` in
    src/features/viz/SentimentModel_v1.ts). */
module Tallies {
  import opened Wrappers
  import opened SentimentBasics
  import Counting

  /** One contribution: `amount` for driver `name`, counted in `bucket`
      when the sentiment is recognised and only in the total otherwise. */
  datatype Item = Item(name: string, bucket: Option<SentimentClass>, amount: nat)

  /** The running counts of one driver. */
  datatype Tally = Tally(name: string, detr: nat, neut: nat, prom: nat, total: nat)

  /** The driver names of a stream, tallies or entries, in order: one
      projection, `Counting.MapSeq` of the name field. */
  function ItemNames(items: seq<Item>): seq<string> {
    Counting.MapSeq(items, (it: Item) => it.name)
  }

  function Names(acc: seq<Tally>): seq<string> {
    Counting.MapSeq(acc, (t: Tally) => t.name)
  }

  // ---------------------------------------------------------------------
  // Reference sums over the item stream.

  /** The amounts contributed to driver `x`. */
  function Total(items: seq<Item>, x: string): nat {
    if |items| == 0 then 0
    else
      var last := items[|items| - 1];
      Total(items[..|items| - 1], x) + (if last.name == x then last.amount else 0)
  }

  /** The amounts contributed to driver `x` with recognised sentiment `c`. */
  function BucketTotal(items: seq<Item>, x: string, c: SentimentClass): nat {
    if |items| == 0 then 0
    else
      var last := items[|items| - 1];
      BucketTotal(items[..|items| - 1], x, c)
      + (if last.name == x && last.bucket == Some(c) then last.amount else 0)
  }

  /** The amounts contributed to driver `x` with an unrecognised sentiment. */
  function UnknownTotal(items: seq<Item>, x: string): nat {
    if |items| == 0 then 0
    else
      var last := items[|items| - 1];
      UnknownTotal(items[..|items| - 1], x) + (if last.name == x && last.bucket.None? then last.amount else 0)
  }

  // ---------------------------------------------------------------------
  // The accumulator.

  /** Adds one item's amount to its bucket, if any, and to the total. */
  function Bump(t: Tally, it: Item): (r: Tally)
    ensures r.name == t.name && r.total == t.total + it.amount
    ensures r.detr == t.detr + (if it.bucket == Some(Detractor) then it.amount else 0)
    ensures r.neut == t.neut + (if it.bucket == Some(Neutro) then it.amount else 0)
    ensures r.prom == t.prom + (if it.bucket == Some(Promotor) then it.amount else 0)
  {
    var t' := t.(total := t.total + it.amount);
    match it.bucket
    case None => t'
    case Some(Detractor) => t'.(detr := t.detr + it.amount)
    case Some(Neutro) => t'.(neut := t.neut + it.amount)
    case Some(Promotor) => t'.(prom := t.prom + it.amount)
  }

  function IndexOf(names: seq<string>, x: string): (i: nat)
    requires x in names
    ensures i < |names| && names[i] == x
    ensures forall j :: 0 <= j < i ==> names[j] != x
  {
    if names[0] == x then 0 else 1 + IndexOf(names[1..], x)
  }

  /** Creates the driver's entry on first sight, then adds the item to it. */
  function Record(acc: seq<Tally>, it: Item): (r: seq<Tally>)
    ensures it.name in Names(acc) ==> |r| == |acc| && Names(r) == Names(acc)
    ensures it.name !in Names(acc) ==> r == acc + [Bump(Tally(it.name, 0, 0, 0, 0), it)]
    ensures forall i :: 0 <= i < |acc| && acc[i].name != it.name ==> r[i] == acc[i]
  {
    var names := Names(acc);
    if it.name in names then
      var i := IndexOf(names, it.name);
      var r := acc[i := Bump(acc[i], it)];
      assert Names(r) == names;
      r
    else acc + [Bump(Tally(it.name, 0, 0, 0, 0), it)]
  }

  /** The accumulation loop over a stream of items. */
  function Accumulate(items: seq<Item>): (r: seq<Tally>)
    ensures |r| <= |items|
  {
    if |items| == 0 then [] else Record(Accumulate(items[..|items| - 1]), items[|items| - 1])
  }

  /** The sums a tally must hold for driver `t.name` after `items`. */
  ghost predicate Counted(items: seq<Item>, t: Tally) {
    && t.total == Total(items, t.name)
    && t.detr == BucketTotal(items, t.name, Detractor)
    && t.neut == BucketTotal(items, t.name, Neutro)
    && t.prom == BucketTotal(items, t.name, Promotor)
  }

  /** One entry per distinct driver, in order of first appearance. */
  lemma {:induction false} AccumulateNames(items: seq<Item>)
    ensures Names(Accumulate(items)) == Counting.FirstAppearance(ItemNames(items))
    decreases |items|
  {
    if |items| > 0 {
      var init := items[..|items| - 1];
      var it := items[|items| - 1];
      var acc := Accumulate(init);
      AccumulateNames(init);
      ItemNamesSnoc(items);
      if it.name !in Names(acc) {
        NamesSnoc(acc, Bump(Tally(it.name, 0, 0, 0, 0), it));
      }
    }
  }

  lemma ItemNamesSnoc(items: seq<Item>)
    requires |items| > 0
    ensures ItemNames(items) == ItemNames(items[..|items| - 1]) + [items[|items| - 1].name]
  {
    var s, t := ItemNames(items), ItemNames(items[..|items| - 1]);
    forall i | 0 <= i < |s| ensures s[i] == (t + [items[|items| - 1].name])[i] {
      if i < |t| {
        assert s[i] == items[i].name && t[i] == items[i].name;
      }
    }
  }

  lemma NamesSnoc(acc: seq<Tally>, t: Tally)
    ensures Names(acc + [t]) == Names(acc) + [t.name]
  {
    var s, n := Names(acc + [t]), Names(acc);
    forall i | 0 <= i < |s| ensures s[i] == (n + [t.name])[i] {
      if i < |n| {
        assert s[i] == (acc + [t])[i].name && n[i] == acc[i].name;
      }
    }
  }

  /** The tallies have distinct names, and every item's name has one. */
  lemma AccumulateDistinct(items: seq<Item>)
    ensures forall i, j :: 0 <= i < j < |Accumulate(items)| ==>
              Accumulate(items)[i].name != Accumulate(items)[j].name
    ensures forall x :: x in ItemNames(items) ==> x in Names(Accumulate(items))
  {
    var acc := Accumulate(items);
    var ns := Names(acc);
    AccumulateNames(items);
    forall i, j | 0 <= i < j < |acc| ensures acc[i].name != acc[j].name {
      assert ns[i] == acc[i].name && ns[j] == acc[j].name;
    }
  }

  /** Every entry holds exactly the sums of the items naming its driver. */
  lemma {:induction false} AccumulateCounts(items: seq<Item>)
    ensures forall t :: t in Accumulate(items) ==> Counted(items, t)
    decreases |items|
  {
    if |items| > 0 {
      var init := items[..|items| - 1];
      var it := items[|items| - 1];
      var acc := Accumulate(init);
      AccumulateCounts(init);
      AccumulateDistinct(init);
      RecordCounts(init, acc, it);
      assert items == init + [it];
    }
  }

  /** Appending one item changes only its own driver's sums. */
  lemma TotalSnoc(items: seq<Item>, it: Item, x: string)
    ensures Total(items + [it], x) == Total(items, x) + (if it.name == x then it.amount else 0)
    ensures forall c :: BucketTotal(items + [it], x, c)
                        == BucketTotal(items, x, c) + (if it.name == x && it.bucket == Some(c) then it.amount else 0)
    ensures UnknownTotal(items + [it], x) == UnknownTotal(items, x) + (if it.name == x && it.bucket.None? then it.amount else 0)
  {
    assert (items + [it])[..|items|] == items;
  }

  lemma {:induction false} TotalAbsent(items: seq<Item>, x: string)
    requires x !in ItemNames(items)
    ensures Total(items, x) == 0
    ensures forall c :: BucketTotal(items, x, c) == 0
    decreases |items|
  {
    if |items| > 0 {
      var init := items[..|items| - 1];
      assert ItemNames(items) == ItemNames(init) + [items[|items| - 1].name];
      TotalAbsent(init, x);
    }
  }

  lemma RecordCounts(items: seq<Item>, acc: seq<Tally>, it: Item)
    requires forall t :: t in acc ==> Counted(items, t)
    requires forall i, j :: 0 <= i < j < |acc| ==> acc[i].name != acc[j].name
    requires forall x :: x in ItemNames(items) ==> x in Names(acc)
    ensures forall t :: t in Record(acc, it) ==> Counted(items + [it], t)
  {
    var r := Record(acc, it);
    forall t | t in r ensures Counted(items + [it], t) {
      var i :| 0 <= i < |r| && r[i] == t;
      TotalSnoc(items, it, t.name);
      if i < |acc| && acc[i].name != it.name {
        assert acc[i] in acc;
      } else if i < |acc| {
        assert acc[i] in acc;
        assert it.name in Names(acc) by { assert Names(acc)[i] == it.name; }
        var k := IndexOf(Names(acc), it.name);
        assert k == i;
      } else {
        assert it.name !in ItemNames(items);
        TotalAbsent(items, it.name);
      }
    }
  }

  /** The three buckets and the unrecognised amounts make up the total. */
  lemma {:induction false} BucketsMakeTotal(items: seq<Item>, x: string)
    ensures BucketTotal(items, x, Detractor) + BucketTotal(items, x, Neutro)
            + BucketTotal(items, x, Promotor) + UnknownTotal(items, x) == Total(items, x)
    decreases |items|
  {
    if |items| > 0 {
      var last := items[|items| - 1];
      BucketsMakeTotal(items[..|items| - 1], x);
      match last.bucket {
        case None =>
        case Some(c) => assert c == Detractor || c == Neutro || c == Promotor;
      }
    }
  }

  /** With every sentiment recognised nothing is unrecognised. */
  lemma {:induction false} NoUnknown(items: seq<Item>, x: string)
    requires forall i :: 0 <= i < |items| ==> items[i].bucket.Some?
    ensures UnknownTotal(items, x) == 0
    decreases |items|
  {
    if |items| > 0 {
      NoUnknown(items[..|items| - 1], x);
    }
  }

  /** A driver that occurs with positive amounts has a positive total. */
  lemma {:induction false} TotalPositive(items: seq<Item>, x: string)
    requires forall i :: 0 <= i < |items| ==> items[i].amount >= 1
    requires x in ItemNames(items)
    ensures Total(items, x) >= 1
    decreases |items|
  {
    var init := items[..|items| - 1];
    if items[|items| - 1].name != x {
      assert ItemNames(items) == ItemNames(init) + [items[|items| - 1].name];
      TotalPositive(init, x);
    }
  }

  lemma {:induction false} TotalAppend(a: seq<Item>, b: seq<Item>, x: string)
    ensures Total(a + b, x) == Total(a, x) + Total(b, x)
    decreases |b|
  {
    if |b| == 0 {
      assert a + b == a;
    } else {
      var b' := b[..|b| - 1];
      assert a + b == (a + b') + [b[|b| - 1]];
      TotalSnoc(a + b', b[|b| - 1], x);
      TotalSnoc(b', b[|b| - 1], x);
      assert b == b' + [b[|b| - 1]];
      TotalAppend(a, b', x);
    }
  }

  /** Sequences holding the same tallies hold the same names. */
  lemma SameElementsSameNames(s: seq<Tally>, r: seq<Tally>)
    requires forall e :: e in r <==> e in s
    ensures forall x :: x in Names(r) <==> x in Names(s)
  {
    forall x ensures x in Names(r) ==> x in Names(s) {
      if x in Names(r) {
        var i :| 0 <= i < |r| && Names(r)[i] == x;
        assert r[i] in r;
        var j :| 0 <= j < |s| && s[j] == r[i];
        assert Names(s)[j] == x;
      }
    }
    forall x ensures x in Names(s) ==> x in Names(r) {
      if x in Names(s) {
        var i :| 0 <= i < |s| && Names(s)[i] == x;
        assert s[i] in s;
        var j :| 0 <= j < |r| && r[j] == s[i];
        assert Names(r)[j] == x;
      }
    }
  }
}

=== FILE: text.dfy ===
/** String helpers shared by every component: the whitespace set that the
    JavaScript `String.prototype.trim` removes, the case mapping used by
    `toLowerCase`/`toUpperCase` (restricted to ASCII and Latin-1), substring
    search as in `String.prototype.includes`, and decimal printing of counts
    as template literals do. */
module Text {

  /** The JavaScript WhiteSpace and LineTerminator code points. */
  predicate IsWhitespace(c: char) {
    || c == '\t' || c == '\n' || c == '\U{000B}' || c == '\U{000C}' || c == '\r'
    || c == ' ' || c == '\U{00A0}' || c == '\U{1680}'
    || ('\U{2000}' <= c <= '\U{200A}')
    || c == '\U{2028}' || c == '\U{2029}' || c == '\U{202F}' || c == '\U{205F}'
    || c == '\U{3000}' || c == '\U{FEFF}'
  }

  predicate AllWhitespace(s: string) {
    forall i :: 0 <= i < |s| ==> IsWhitespace(s[i])
  }

  /** Drops the maximal whitespace prefix. */
  function TrimStart(s: string): (r: string)
    ensures |r| <= |s| && r == s[|s| - |r|..]
    ensures |r| > 0 ==> !IsWhitespace(r[0])
    ensures forall i :: 0 <= i < |s| - |r| ==> IsWhitespace(s[i])
  {
    if |s| > 0 && IsWhitespace(s[0]) then TrimStart(s[1..]) else s
  }

  /** Drops the maximal whitespace suffix. */
  function TrimEnd(s: string): (r: string)
    ensures |r| <= |s| && r == s[..|r|]
    ensures |r| > 0 ==> !IsWhitespace(r[|r| - 1])
    ensures forall i :: |r| <= i < |s| ==> IsWhitespace(s[i])
  {
    if |s| > 0 && IsWhitespace(s[|s| - 1]) then TrimEnd(s[..|s| - 1]) else s
  }

  /** `String.prototype.trim`. */
  function Trim(s: string): (r: string)
    ensures |r| > 0 ==> !IsWhitespace(r[0]) && !IsWhitespace(r[|r| - 1])
    ensures r == [] <==> AllWhitespace(s)
    ensures Contains(s, r)
    ensures (|s| == 0 || (!IsWhitespace(s[0]) && !IsWhitespace(s[|s| - 1]))) ==> r == s
  {
    var a := TrimStart(s);
    var r := TrimEnd(a);
    TrimFacts(s, a, r);
    r
  }

  lemma {:induction false} TrimFacts(s: string, a: string, r: string)
    requires a == TrimStart(s) && r == TrimEnd(a)
    ensures r == [] <==> AllWhitespace(s)
    ensures SubstringAt(s, r, |s| - |a|)
    ensures (|s| == 0 || (!IsWhitespace(s[0]) && !IsWhitespace(s[|s| - 1]))) ==> r == s
  {
    TrimEmptyIff(s, a, r);
    TrimIsSlice(s, a, r);
  }

  lemma {:induction false} TrimEmptyIff(s: string, a: string, r: string)
    requires a == TrimStart(s) && r == TrimEnd(a)
    ensures r == [] <==> AllWhitespace(s)
  {
    if r == [] {
      assert |a| == 0;
    }
    if AllWhitespace(s) {
      assert |a| == 0;
    }
  }

  lemma {:induction false} TrimIsSlice(s: string, a: string, r: string)
    requires a == TrimStart(s) && r == TrimEnd(a)
    ensures SubstringAt(s, r, |s| - |a|)
    ensures (|s| == 0 || (!IsWhitespace(s[0]) && !IsWhitespace(s[|s| - 1]))) ==> r == s
  {
    var k := |s| - |a|;
    SliceOfSuffix(s, k, |r|);
    if |s| > 0 && !IsWhitespace(s[0]) && !IsWhitespace(s[|s| - 1]) {
      assert k == 0;
      assert a == s;
    }
  }

  lemma SliceOfSuffix(s: string, k: nat, n: nat)
    requires k <= |s| && n <= |s| - k
    ensures s[k..][..n] == s[k..k + n]
  {
  }

  /** Trimming is idempotent. */
  lemma {:induction false} TrimIdempotent(s: string)
    ensures Trim(Trim(s)) == Trim(s)
  {
  }

  /** Surrounding whitespace never changes the trimmed text. */
  lemma {:induction false} TrimPadded(p: string, x: string, q: string)
    requires AllWhitespace(p) && AllWhitespace(q)
    ensures Trim(p + x + q) == Trim(x)
  {
    var y := x + q;
    assert p + x + q == p + y;
    TrimStartPadded(p, y);
    TrimStartOfSuffix(x, q);
    TrimEndOfPadded(TrimStart(x), q);
    TrimUnfold(p + y);
    TrimUnfold(x);
    assert Trim(p + y) == Trim(x);
    assert Trim(p + x + q) == Trim(p + y);
  }

  lemma TrimUnfold(s: string)
    ensures Trim(s) == TrimEnd(TrimStart(s))
  {
  }

  lemma {:induction false} TrimStartPadded(p: string, y: string)
    requires AllWhitespace(p)
    ensures TrimStart(p + y) == TrimStart(y)
    decreases |p|
  {
    if |p| > 0 {
      assert (p + y)[0] == p[0];
      assert (p + y)[1..] == p[1..] + y;
      TrimStartPadded(p[1..], y);
    } else {
      assert p + y == y;
    }
  }

  /** Trailing whitespace survives TrimStart unless the text is all blank. */
  lemma {:induction false} TrimStartOfSuffix(x: string, q: string)
    requires AllWhitespace(q)
    ensures TrimStart(x + q) == TrimStart(x) + q || (AllWhitespace(x) && TrimStart(x + q) == [])
    ensures TrimEnd(TrimStart(x + q)) == TrimEnd(TrimStart(x) + q)
    decreases |x|
  {
    if |x| == 0 {
      assert x + q == q;
      TrimStartPadded(q, []);
      assert q + [] == q;
    } else if IsWhitespace(x[0]) {
      assert (x + q)[0] == x[0];
      assert (x + q)[1..] == x[1..] + q;
      TrimStartOfSuffix(x[1..], q);
    } else {
      assert (x + q)[0] == x[0];
    }
  }

  lemma {:induction false} TrimEndOfPadded(y: string, q: string)
    requires AllWhitespace(q)
    ensures TrimEnd(y + q) == TrimEnd(y)
    decreases |q|
  {
    if |q| > 0 {
      assert (y + q)[|y + q| - 1] == q[|q| - 1];
      assert (y + q)[..|y + q| - 1] == y + q[..|q| - 1];
      TrimEndOfPadded(y, q[..|q| - 1]);
    } else {
      assert y + q == y;
    }
  }

  /** Lower-casing as `toLowerCase` does for ASCII and Latin-1 letters. */
  function LowerChar(c: char): (r: char)
    ensures 'A' <= c <= 'Z' ==> r as int == c as int + 32
    ensures !('A' <= c <= 'Z') && !('\U{00C0}' <= c <= '\U{00DE}') ==> r == c
  {
    if 'A' <= c <= 'Z' || ('\U{00C0}' <= c <= '\U{00DE}' && c != '\U{00D7}')
    then (c as int + 32) as char
    else c
  }

  /** Upper-casing as `toUpperCase` does for ASCII and the Latin-1 letters
      whose upper case is a single Latin-1 letter. */
  function UpperChar(c: char): (r: char)
    ensures 'a' <= c <= 'z' ==> r as int == c as int - 32
    ensures !('a' <= c <= 'z') && !('\U{00E0}' <= c <= '\U{00FE}') ==> r == c
  {
    if 'a' <= c <= 'z' || ('\U{00E0}' <= c <= '\U{00FE}' && c != '\U{00F7}')
    then (c as int - 32) as char
    else c
  }

  function Lower(s: string): (r: string)
    ensures |r| == |s|
    ensures forall i :: 0 <= i < |s| ==> r[i] == LowerChar(s[i])
  {
    seq(|s|, i requires 0 <= i < |s| => LowerChar(s[i]))
  }

  function Upper(s: string): (r: string)
    ensures |r| == |s|
    ensures forall i :: 0 <= i < |s| ==> r[i] == UpperChar(s[i])
  {
    seq(|s|, i requires 0 <= i < |s| => UpperChar(s[i]))
  }

  /** Lower-casing twice is lower-casing once. */
  lemma LowerIdempotent(s: string)
    ensures Lower(Lower(s)) == Lower(s)
  {
  }

  /** Upper-casing forgets a previous lower-casing. */
  lemma UpperOfLower(s: string)
    ensures Upper(Lower(s)) == Upper(s)
  {
  }

  /** `parts.join(sep)`. */
  function Join(parts: seq<string>, sep: string): (r: string)
    ensures |parts| == 1 ==> r == parts[0]
  {
    if |parts| == 0 then ""
    else if |parts| == 1 then parts[0]
    else Join(parts[..|parts| - 1], sep) + sep + parts[|parts| - 1]
  }

  /** Joining `a` in front of at least one part puts `sep` after `a`. */
  lemma {:induction false} JoinCons(a: string, parts: seq<string>, sep: string)
    requires |parts| >= 1
    ensures Join([a] + parts, sep) == a + sep + Join(parts, sep)
    decreases |parts|
  {
    var q := [a] + parts;
    var last := parts[|parts| - 1];
    if |parts| == 1 {
      assert q[..1] == [a] && q[1] == last;
    } else {
      var init := parts[..|parts| - 1];
      JoinCons(a, init, sep);
      assert q[..|q| - 1] == [a] + init && q[|q| - 1] == last;
      assert Join(q, sep) == Join([a] + init, sep) + sep + last;
      assert Join(parts, sep) == Join(init, sep) + sep + last;
      assert Join(q, sep) == a + sep + (Join(init, sep) + sep + last);
    }
  }

  /** Extending the first part extends the joined text at the front. */
  lemma JoinExtendFirst(x: string, parts: seq<string>, sep: string)
    requires |parts| >= 1
    ensures Join([x + parts[0]] + parts[1..], sep) == x + Join(parts, sep)
  {
    if |parts| > 1 {
      JoinCons(x + parts[0], parts[1..], sep);
      JoinCons(parts[0], parts[1..], sep);
      assert [parts[0]] + parts[1..] == parts;
    }
  }

  /** `s.split(c)`: the pieces between occurrences of `c`; none of them
      contains `c`. */
  function Split(s: string, c: char): (parts: seq<string>)
    ensures |parts| >= 1
    ensures forall i :: 0 <= i < |parts| ==> c !in parts[i]
    decreases |s|
  {
    if |s| == 0 then [""]
    else
      var rest := Split(s[1..], c);
      if s[0] == c then [""] + rest
      else [[s[0]] + rest[0]] + rest[1..]
  }

  /** Splitting at `c` and joining with `c` gives the text back. */
  lemma {:induction false} JoinSplit(s: string, c: char)
    ensures Join(Split(s, c), [c]) == s
    decreases |s|
  {
    if |s| > 0 {
      var rest := Split(s[1..], c);
      JoinSplit(s[1..], c);
      if s[0] == c {
        JoinCons("", rest, [c]);
      } else {
        JoinExtendFirst([s[0]], rest, [c]);
      }
      assert [s[0]] + s[1..] == s;
    }
  }

  /** A text without `c` is a single piece. */
  lemma {:induction false} SplitWithout(s: string, c: char)
    requires c !in s
    ensures Split(s, c) == [s]
    decreases |s|
  {
    if |s| > 0 {
      SplitWithout(s[1..], c);
      assert [s[0]] + s[1..] == s;
    }
  }

  /** Every character of the trimmed text comes from the text. */
  lemma TrimChars(s: string)
    ensures forall j :: 0 <= j < |Trim(s)| ==> Trim(s)[j] in s
  {
    var t := Trim(s);
    var i :| 0 <= i <= |s| - |t| && SubstringAt(s, t, i);
    forall j | 0 <= j < |t| ensures t[j] in s {
      assert t[j] == s[i..i + |t|][j] == s[i + j];
    }
  }

  /** Replacing the first `a` by `b` brings in no character but `b`, and a
      text that is not all whitespace stays so when `b` is no whitespace. */
  lemma ReplaceFirstChars(s: string, a: char, b: char)
    ensures forall j :: 0 <= j < |s| ==> ReplaceFirst(s, a, b)[j] == s[j] || ReplaceFirst(s, a, b)[j] == b
    ensures !AllWhitespace(s) && !IsWhitespace(b) ==> !AllWhitespace(ReplaceFirst(s, a, b))
  {
    var r := ReplaceFirst(s, a, b);
    if a in s {
      var k :| 0 <= k < |s| && s[k] == a && r[k] == b && a !in s[..k]
               && r[..k] == s[..k] && r[k + 1..] == s[k + 1..];
      forall j | 0 <= j < |s| ensures r[j] == s[j] || r[j] == b {
        if j < k {
          assert r[j] == r[..k][j];
        } else if j > k {
          assert r[j] == r[k + 1..][j - k - 1];
        }
      }
      if !IsWhitespace(b) {
        assert !IsWhitespace(r[k]);
      }
    }
    if !AllWhitespace(s) && !IsWhitespace(b) {
      var i :| 0 <= i < |s| && !IsWhitespace(s[i]);
      assert !IsWhitespace(r[i]);
    }
  }

  /** `needle` occurs in `hay` starting at index `i`. */
  predicate SubstringAt(hay: string, needle: string, i: int) {
    0 <= i <= |hay| - |needle| && hay[i..i + |needle|] == needle
  }

  /** `hay.includes(needle)`. */
  predicate Contains(hay: string, needle: string) {
    exists i | 0 <= i <= |hay| - |needle| :: SubstringAt(hay, needle, i)
  }

  /** A needle whose first character never occurs in `hay` is not in it. */
  lemma MissingFirstChar(hay: string, needle: string)
    requires |needle| > 0 && needle[0] !in hay
    ensures !Contains(hay, needle)
  {
    forall i | 0 <= i <= |hay| - |needle| ensures !SubstringAt(hay, needle, i) {
      assert hay[i] in hay;
    }
  }

  predicate IsDigit(c: char) {
    '0' <= c <= '9'
  }

  function DigitChar(d: nat): (c: char)
    requires d < 10
    ensures IsDigit(c)
  {
    ('0' as int + d) as char
  }

  /** The decimal text a template literal produces for a non-negative
      integer. */
  function NatToString(n: nat): (r: string)
    ensures |r| > 0
    ensures forall i :: 0 <= i < |r| ==> IsDigit(r[i])
    ensures n > 0 ==> r[0] != '0'
  {
    if n < 10 then [DigitChar(n)] else NatToString(n / 10) + [DigitChar(n % 10)]
  }

  /** Replaces the first occurrence of `a` by `b`, as `s.replace(a, b)` does
      with a one-character string pattern. */
  function ReplaceFirst(s: string, a: char, b: char): (r: string)
    ensures |r| == |s|
    ensures forall i :: 0 <= i < |s| && s[i] != a ==> r[i] == s[i]
    ensures a !in s ==> r == s
    ensures a in s ==> exists k :: 0 <= k < |s| && s[k] == a && r[k] == b
                                   && a !in s[..k] && r[..k] == s[..k] && r[k + 1..] == s[k + 1..]
  {
    if |s| == 0 then s
    else if s[0] == a then [b] + s[1..]
    else [s[0]] + ReplaceFirst(s[1..], a, b)
  }
}

=== FILE: wrappers.dfy ===
/** The Some/None datatype used wherever the dashboard code has `null`,
    `undefined` or "no value" results. */
module Wrappers {

  datatype Option<+T> = None | Some(value: T) {

    /** Returns the value inside Some, or `default` for None. */
    function GetOr(default: T): T {
      match this
      case Some(v) => v
      case None => default
    }
  }
}
